=== FILE: README.md ===
# whisperer-ai core in Dafny

whisperer-ai is a browser chat application. Its conversations ("threads"),
messages, uploaded documents ("resources" in the older code) and their
embedding chunks live in an in-browser Postgres. An LLM can search those
chunks through a retrieval tool. This project models the sequential logic
under the user interface and proves properties of that logic.

- **Retrieval** (`Embeddings`, `KnowledgeSearch`):
  - `findRelevantContent` keeps the rows of one thread whose similarity is above a threshold, orders them by similarity and keeps the first K.
  - The knowledge-base tool runs several queries, flattens their results and keeps the first entry for each embedding id.
  - Similarity is an opaque `real` per row.
- **The store** (`Schema`, `Store`, `DocumentStore`):
  - Four immutable tables, with the operations on threads, messages and documents/resources.
  - Every insert checks the column constraints of the tables. A failed insert raises the database's error and leaves the tables unchanged.
  - The code has three generations, modelled as one store instantiated with a `Generation` value:
    - `services/documents.ts`;
    - `services/resources.ts`;
    - the `data/` modules with `lib/db/schema`.
- **The migration runner** (`Migration`): `applyMigrations` as a state machine over the recorded hashes, plus the byte-to-hex step of `createHash`.
- **The chat UI's decision logic** (`Panels`, `ChatInput`, `FileParsing`, `MarkdownConversion`, `UsageService`, `LocalStorage`, `ChatHook`, `LegacyChatHook`, `ChatContext`, `IndexPage`, `ChatPage`, `FirstMessage`):
  - the side-panel state machines;
  - the textarea row clamp and the Enter-to-submit rule;
  - MIME dispatch and the length bypass of the Markdown conversion;
  - usage fetching and local storage;
  - the two chat hooks;
  - upload validation and the upload message;
  - the route loaders and actions;
  - the hand-off of the first message from the index page to the chat page through local storage.

These become parameters of the functions that use them:
- the language model;
- the embedding provider's vectors;
- the text splitter's chunks;
- SHA-256;
- generated ids and clocks;
- `JSON.stringify` of tool invocations;
- whether a SQL statement succeeds.

`Wrappers`, `Seqs` and `Text` are shared helpers: `Option`/`Result`, sequence facts and sorting, and string splitting and trimming.

## Model

| member | source | states |
|---|---|---|
| Embeddings.GenerateEmbeddings | src/lib/ai/embeddings.ts:18-26 | one pair per returned vector; pair i carries vector i and text i, and no text where the provider returned more vectors than texts |
| Embeddings.GenerateEmbeddingsPairsInOrder | src/lib/ai/embeddings.ts:21-25 | with one vector per text, the texts carried by the pairs are exactly the input texts in input order |
| Embeddings.GenerateEmbedding | src/lib/ai/embeddings.ts:33-41 | the single-text result carries the provider's vector and the input text unchanged |
| Embeddings.GenerateEmbeddingIsBatchOfOne | src/lib/ai/embeddings.ts:18-41 | embedding one text alone agrees with embedding a batch of one |
| Embeddings.Candidates | src/lib/ai/embeddings.ts:66-68 | the selected rows number at most the rows of the table, and each has similarity strictly above the threshold |
| Embeddings.CandidatesScoped | src/lib/ai/embeddings.ts:66-68 | a match is selected iff it comes from a row of the requested thread whose similarity is strictly above the threshold |
| Embeddings.FindRelevantContentTopK | src/lib/ai/embeddings.ts:49-74 | the result has min(K, qualifying rows) entries, each above the threshold, in non-increasing similarity; it is a sub-multiset of the qualifying rows, and no left-out qualifying row is more similar than a returned one |
| Embeddings.NoQualifyingRowsEmpty | src/lib/ai/embeddings.ts:67-68 | a thread with no row above the threshold (in particular one with no embeddings) gets an empty result |
| Embeddings.AllCandidatesWhenFew | src/lib/ai/embeddings.ts:71-72 | when at most K rows qualify, all of them are returned |
| KnowledgeSearch.FindIndex | src/hooks/use-chat.ts:89 | `findIndex`: the position of the first entry with the id, or -1 when no entry has it |
| KnowledgeSearch.FirstIndexIffFresh | src/hooks/use-chat.ts:86-90 | an entry passes the filter iff no earlier entry has its embedding id |
| KnowledgeSearch.DedupIsDedupSeen | src/hooks/use-chat.ts:84-90 | the index-based filter equals a reference scan that keeps an entry iff its id was not seen before |
| KnowledgeSearch.DedupUnique | src/hooks/use-chat.ts:84-90 | the filtered list never holds two entries with the same embedding id |
| KnowledgeSearch.DedupKeepsFirstOccurrence | src/hooks/use-chat.ts:84-90 | every id of the input survives, and the kept entry is that id's first occurrence |
| KnowledgeSearch.DedupSubseq | src/hooks/use-chat.ts:84-90 | the filtered list is an order-preserving subsequence of its input |
| KnowledgeSearch.PerQuery | src/hooks/use-chat.ts:81-83 | one `findRelevantContent` result per query, in query order, all scoped to the tool's thread |
| KnowledgeSearch.SearchMerged | src/hooks/use-chat.ts:79-92 | the tool's result has unique ids, covers every id of every per-query result, keeps each id's first occurrence in the flattened list and preserves that list's order; the older hook in useChat.ts merges the same way |
| KnowledgeSearch.SearchNoQueries | src/hooks/use-chat.ts:81-91 | with no queries the tool returns an empty list |
| KnowledgeSearch.SearchScoped | src/hooks/use-chat.ts:79-92 | every returned entry is a row of the tool's thread whose similarity to some query is above the threshold |
| Schema.ParseRole | src/lib/database/schema.ts:80-82 | a role string is accepted iff it is one of user, assistant, tool, function, system, data; the older schema in db/schema/messages.ts has the same six values |
| Schema.ParseRoleName | src/lib/database/migration.ts:52 | every role's stored name passes the role check and reads back as that role |
| Schema.ParseDocumentParams | src/lib/database/schema.ts:33-39 | insert parsing succeeds iff title, content, fileType and threadId are all present; it then keeps exactly those values, and otherwise names the missing fields; the older resource insert schema in db/schema/resources.ts requires the same four |
| Schema.MissingFields | src/lib/database/schema.ts:20-23 | no field is reported missing iff all four required fields are present |
| Schema.ErrorMessage | src/services/documents.ts:45-48 | every error the store raises has a non-empty message |
| Store.EmptyDbValid | src/lib/database/migration.ts:21-58 | the freshly created empty tables satisfy every table constraint |
| Store.CreateThread | src/services/threads.ts:9-19 | the insert succeeds iff the id fits varchar(191) and is not taken; the new thread has the given id, the title or "New Conversation", both timestamps at now, and is appended; services/threads/service.ts and data/threads.ts create threads by the same rule |
| Store.CreateThenGet | src/services/threads.ts:9-38 | a created thread keeps the tables valid and is found again by its id |
| Store.FindThread | src/services/threads.ts:31-38 | a thread is found iff some thread has the id, and the one found has that id |
| Store.GetThreadByIdUnique | src/services/threads/service.ts:32-42 | with unique primary keys the lookup returns the single row with the id, never another row; the older lookup in data/threads.ts behaves the same |
| Store.RenameRows | src/services/threads.ts:21-29 | renaming changes the title of the matching thread only; ids, timestamps (including updatedAt) and other threads stay |
| Store.RenameThread | src/services/threads.ts:21-29 | the update touches only the thread table: every row keeps its id, rows with the id get the new title and the others are unchanged; a row comes back iff some thread had the id, and it is a row of the updated table with that id and the new title |
| Store.RenameThenGet | src/services/threads/service.ts:22-30 | after a rename the tables stay valid; the renamed thread reads back with the new title, an absent id gives none, and every other id reads back unchanged; the older rename in data/threads.ts has the same effect |
| Store.GetThreads | src/services/threads.ts:40-46 | all threads are returned, as a permutation of the table, newest createdAt first; the other two thread modules order the same way |
| Store.DoesThreadExist | src/services/threads.ts:48-51 | existence holds iff the lookup returns a thread, iff some row has the id; the older check in data/threads.ts agrees |
| Store.DeleteThread | src/services/threads.ts:53-56 | exactly the threads with the id are removed; the messages of that thread go too where messages reference threads, and documents and embeddings stay; without that foreign key, as in data/threads.ts, only the thread goes |
| Store.DeleteThreadValid | src/lib/database/migration.ts:56 | the message cascade keeps every message's thread reference resolvable after a delete |
| Store.SaveMessage | src/services/messages.ts:6-17 | the save succeeds iff the ids fit, the role is one of the six, the id is new and (with the foreign key) the thread exists; it appends exactly one row with the given fields and returns it; services/messages/services.ts does the same, and data/messages.ts needs no existing thread |
| Store.GetMessages | src/services/messages.ts:19-25 | exactly the messages of the thread, with no further order promised beyond table order; the other two message modules filter the same way |
| Store.SaveMessageIsolation | src/services/messages.ts:6-25 | a save adds the new row to its own thread's messages and leaves every other thread's messages unchanged, in every generation including data/messages.ts |
| Store.SaveMessageValid | src/lib/database/migration.ts:49-57 | a successful save keeps the tables valid |
| DocumentStore.ErrorText | src/services/documents.ts:45-48 | a caught error yields its message when non-empty, else "Error, please try again."; the resource modules map errors the same way |
| DocumentStore.InsertDocument | src/services/documents.ts:23-31 | the row insert succeeds iff the keys fit and the id is new; it appends one row with the given fields and both timestamps at now |
| DocumentStore.InsertEmbedding | src/lib/database/schema.ts:45-72 | an embedding insert succeeds iff the columns fit, content is present, the vector has 1536 components, the id is new and a given parent exists; the older table in db/schema/embeddings.ts has a nullable parent |
| DocumentStore.InsertEmbeddingsAllOk | src/services/documents.ts:37-42 | when every row is acceptable, the batch appends one row per chunk in chunk order and reports no error |
| DocumentStore.ChunkRows | src/services/documents.ts:37-41 | chunk row i carries the new document's id, the input thread id and pair i's text and vector |
| DocumentStore.Ingest | src/services/documents.ts:17-49 | ingestion leaves threads and messages alone, adds at most one document, only adds embeddings, and returns the success message or a non-empty error |
| DocumentStore.IngestInvalidInput | src/services/documents.ts:20-21 | a schema parse failure writes nothing and returns the validation message; services/resources.ts and data/resources.ts do the same |
| DocumentStore.IngestHappyPath | src/services/documents.ts:23-44 | on success exactly one document row with the parsed fields is added, one embedding per chunk follows with that document's id, the input thread and the chunk text, and "Document successfully created." is returned; the resource generations write the same rows and return "Resource successfully created." |
| DocumentStore.IngestNotAtomic | src/services/documents.ts:23-35 | when embedding generation fails, the document row is still added, with no embeddings, and the error text is returned; both resource modules are non-atomic in the same way |
| DocumentStore.IngestValid | src/lib/database/migration.ts:23-41 | ingestion, whether complete, partial or failed, keeps every table constraint |
| DocumentStore.DeleteDocumentById | src/services/documents.ts:51-57 | no document keeps the id, embeddings whose parent is the id go and every other row stays; the resource modules delete the same way |
| DocumentStore.DeleteDocumentValid | src/lib/database/migration.ts:40 | the embedding cascade keeps every parent reference resolvable after a delete |
| DocumentStore.GetDocumentsByThread | src/services/documents.ts:59-66 | exactly the documents of the thread, as a permutation, newest createdAt first; the resource modules list the same way |
| DocumentStore.GetDocumentsByThreadMembers | src/services/documents.ts:59-66 | a document is listed iff it is in the table with the matching thread id |
| Migration.HexValueDigit | src/lib/database/migration.ts:66 | each digit of `toString(16)` reads back as its value |
| Migration.PadStart | src/lib/database/migration.ts:66 | padding reaches the requested width, keeps the text as its suffix and fills only with the pad character |
| Migration.ToHex | src/lib/database/migration.ts:64-68 | the hex text has two characters per byte, all lowercase hex digits |
| Migration.FromHexToHex | src/lib/database/migration.ts:64-68 | decoding the hex text gives back the digest bytes |
| Migration.ToHexInjective | src/lib/database/migration.ts:64-68 | different digests never give the same hex text |
| Migration.CreateHashFormat | src/lib/database/migration.ts:60-69 | the hash is lowercase hex with two characters per digest byte, so 64 characters for a 32-byte SHA-256 digest |
| Migration.Statements | src/lib/database/migration.ts:87-89 | splitting on the breakpoint gives at least one statement, none containing the breakpoint, and joining them back gives the migration |
| Migration.RunStatements | src/lib/database/migration.ts:90-92 | statements run in order; the run completes iff every statement succeeds, and otherwise stops at a failing statement |
| Migration.RunStatementsStops | src/lib/database/migration.ts:90-92 | a failed run executed exactly the statements before the first failing one |
| Migration.Hashes | src/lib/database/migration.ts:80-81 | one hash per migration, in list order |
| Migration.EarlyExitExecutesNothing | src/lib/database/migration.ts:74-79 | when the recorded count equals the number of migrations nothing is executed or recorded |
| Migration.ApplyEachSkipsRecorded | src/lib/database/migration.ts:81-98 | a loop over migrations whose hashes are all recorded changes nothing: an already recorded hash only logs |
| Migration.ApplyEachRunsPending | src/lib/database/migration.ts:80-95 | a completed loop executes, in list order, exactly the statements of the migrations not yet recorded |
| Migration.CompletedRunRecordsAll | src/lib/database/migration.ts:80-95 | after a completed run every migration's hash is recorded |
| Migration.MigrationsKeepDistinct | src/lib/database/migration.ts:12 | no hash is ever recorded twice |
| Migration.RunStaysInList | src/lib/database/migration.ts:71-100 | a run only adds hashes of listed migrations and only executes; a failure names a failing statement of the list |
| Migration.Idempotent | src/lib/database/migration.ts:74-99 | running the migrations again after a completed run executes and records nothing |
| Migration.FreshRunExecutesEverything | src/lib/database/migration.ts:80-92 | on an empty database with distinct hashes a completed run executes every statement of every migration in order |
| Migration.EarlyExitSound | src/lib/database/migration.ts:74-79 | the early exit is sound when the recorded hashes are distinct hashes of listed migrations |
| Migration.EarlyExitTrustsCount | src/lib/database/migration.ts:74-79 | the early exit compares counts only: a foreign recorded hash of the right count skips an unapplied migration |
| Panels.Select | src/pages/chat/content-panel.tsx:142-145 | selecting a resource shows its detail with that resource selected; the document panel in document-panel.tsx selects the same way |
| Panels.Close | src/pages/chat/content-panel.tsx:147-154 | closing drops the selection; it goes to the list when something was selected and to closed otherwise; the document panel closes by the same two steps |
| Panels.ClearWhenClosed | src/pages/chat/content-panel.tsx:170-174 | entering the closed state clears the selection; other states keep it |
| Panels.ContentRunSettles | src/pages/chat/content-panel.tsx:142-174 | from a closed panel without selection, every run of selects, closes and outside state changes ends with no selection whenever the panel is closed |
| Panels.CloseTwiceCloses | src/pages/chat/content-panel.tsx:147-154 | two close clicks shut the resource panel from any state |
| Panels.ContentPanelWidth | src/pages/chat/content-panel.tsx:156-168 | the width is full on mobile and otherwise fixed by detail, list or closed |
| Panels.ContentPanelBody | src/pages/chat/content-panel.tsx:177-196 | the panel renders iff its state is not closed, and then shows the selected resource iff one is selected, the selection winning over the list |
| Panels.ReopenShowsList | src/pages/chat/content-panel.tsx:170-177 | reopening a closed resource panel shows the list, never a stale selection |
| Panels.DocumentOwnStepsPair | src/pages/chat/document-panel.tsx:189-201 | the document panel's own select and close keep "something selected" and "detail state" together |
| Panels.ExternalListKeepsDocument | src/pages/chat/document-panel.tsx:183-224 | without a clearing effect, an outside switch to the list keeps showing the selected document at list width |
| Panels.DocumentPanelWidth | src/pages/chat/document-panel.tsx:183-187 | 100% iff the screen is small, 700px iff wide and in detail, 300px iff wide and not in detail |
| Panels.IsHidden | src/pages/chat/document-panel.tsx:203 | the panel is hidden iff the screen is small or the state is closed |
| Panels.DocumentPanelBody | src/pages/chat/document-panel.tsx:218-224 | the upload skeleton shows iff uploading; otherwise the selected document iff one is selected; otherwise the list |
| Panels.RenderFor | src/pages/chat/document-panel.tsx:104-117 | Markdown iff text/markdown, a code block iff application/json, preformatted text for plain and every other type |
| ChatInput.CeilDiv | src/pages/chat/chat-input.tsx:22-23 | the result is the least number of groups of d that holds n |
| ChatInput.Rows | src/pages/chat/chat-input.tsx:19-25 | the row count always lies in [1, 10] and equals the line count whenever that is in range |
| ChatInput.Height | src/pages/chat/chat-input.tsx:14-27 | the height is a whole number of 30-pixel rows between one and ten rows, and divided by 30 gives the row count |
| ChatInput.LinesOfOneLine | src/pages/chat/chat-input.tsx:19-24 | a line without a newline needs ceil(UTF-16 length / charsPerLine) rows |
| ChatInput.LinesOfNewline | src/pages/chat/chat-input.tsx:22-24 | a newline adds the rows of the line before it to the rows of the rest |
| ChatInput.EmptyInputOneRow | src/pages/chat/chat-input.tsx:19-25 | empty input, including with zero characters per line, gives one row |
| ChatInput.LongLineClamps | src/pages/chat/chat-input.tsx:23-25 | a single line of more than ten rows of characters is clamped to ten rows |
| ChatInput.OnKeyDown | src/pages/chat/chat-input.tsx:79-87 | a key press submits iff it is Enter without Shift outside an IME composition |
| ChatInput.SubmitDisabled | src/pages/chat/chat-input.tsx:99 | the button is disabled iff a reply is loading or the input is empty |
| ChatInput.HandleFileUpload | src/pages/chat/chat-input.tsx:35-41 | an upload fires iff a file is selected, passes exactly the first file, and the input is cleared iff it fired |
| FileParsing.ParseFile | src/lib/file.ts:3-22 | PDFs give the outcome of PDF text extraction, the four text types give the outcome of reading the blob as text, any other type fails with "Unsupported file type: " and the type; parsing fails iff the type is not one of the five or the extraction that type uses fails |
| FileParsing.AcceptedTypesReachExtractor | src/pages/chat/document-uploader.tsx:30-31 | every type the dropzone accepts reaches an extractor, so for those types parsing fails only when the PDF extraction or the blob read fails |
| MarkdownConversion.ConvertTextToMarkdown | src/lib/ai/convert-text-to-markdown.ts:21-50 | text over 10000 UTF-16 code units comes back unchanged titled "Document.md"; shorter text without an API key fails; with a key the outcome of the model call is returned |
| MarkdownConversion.LongTextNeverFails | src/lib/ai/convert-text-to-markdown.ts:24-33 | the bypass precedes the key check, so text of more than 10000 characters never fails |
| MarkdownConversion.AstralTextBypasses | src/lib/ai/convert-text-to-markdown.ts:24 | text of more than 5000 characters all outside the Basic Multilingual Plane is over the limit in code units and bypasses the model |
| MarkdownConversion.BoundaryNeedsKey | src/lib/ai/convert-text-to-markdown.ts:24 | text of exactly 10000 code units takes the model path and needs a key |
| MarkdownConversion.FailsIff | src/lib/ai/convert-text-to-markdown.ts:11-33 | conversion fails iff the text is at most 10000 code units and either no truthy key is stored or the model call fails |
| UsageService.GetUsage | src/services/usage.ts:19-38 | no token gives Usage(0, 100, 0), a non-ok response fails with "Failed to fetch usage", and an ok response gives its body |
| UsageService.UsageZeroIff | src/services/usage.ts:14-38 | a quota is obtained iff nobody is signed in or the endpoint answers ok, and it reads as used up iff nobody is signed in or the endpoint reports nothing remaining |
| LocalStorage.Load | src/utils/local-storage.ts:2-12 | a read finds a value iff the key is stored, and then the stored value |
| LocalStorage.Save | src/utils/local-storage.ts:2-12 | a write stores the value under its key and changes no other key |
| LocalStorage.Delete | src/utils/local-storage.ts:2-12 | a removal drops the key and changes no other key |
| LocalStorage.SaveThenDelete | src/utils/local-storage.ts:2-12 | saving then deleting a key is the same as deleting it |
| ChatHook.ThreadIdOf | src/hooks/use-chat.ts:45 | the extracted thread id is the last segment and contains no "/" |
| ChatHook.ThreadIdRoundTrip | src/hooks/use-chat.ts:16 | the thread id extracted from "/chat/" + id is id itself |
| ChatHook.HandleChat | src/hooks/use-chat.ts:43-67 | a body that is missing or not JSON rejects; a 404 "No body" response comes iff the parsed JSON is falsy or the last URL segment is empty; a truthy body without a `messages` array rejects in the message conversion; otherwise the model gets exactly the body's messages and the search and save tools bound to that segment |
| ChatHook.NoBodyOnlyForFalsyJson | src/hooks/use-chat.ts:43-48 | the "No body" test catches only a falsy JSON value or an empty segment, and the hook's own request body (an object with the messages) always reaches the model when the thread id is non-empty |
| ChatHook.TruthyWithoutMessagesRejects | src/hooks/use-chat.ts:49-60 | an empty object, an array, `true`, and an object whose later duplicate `messages` key is not an array all pass the 404 test and still reject |
| ChatHook.ToolsBoundToHookThread | src/hooks/use-chat.ts:16-64 | for the hook's own URL, the tools are bound to the hook's thread id; the request rejects iff the body is unparseable or truthy without a `messages` array, and gets 404 iff the body is falsy or the id empty |
| ChatHook.SearchStaysInThread | src/hooks/use-chat.ts:62-92 | everything the hook's search tool returns comes from the hook's thread |
| ChatHook.SaveDocumentTool | src/hooks/use-chat.ts:96-108 | the save tool only logs and leaves the store unchanged; the older hook's addResource tool in useChat.ts:85-97 is the same |
| ChatHook.ToParams | src/hooks/use-chat.ts:31-37 | the saved parameters carry the message's role and content, the hook's thread id, and tool invocations iff the message has some |
| ChatHook.Append | src/hooks/use-chat.ts:31-39 | append succeeds iff saving the message succeeds, and only then hands the message to the chat state |
| ChatHook.AppendPersists | src/hooks/use-chat.ts:31-39 | after append the thread's stored messages gain exactly the new one, with its id, role and content, and other threads are unchanged |
| ChatHook.OnFinishPersistsUnderThread | src/hooks/use-chat.ts:17-24 | a finished reply is stored under the hook's thread and only there |
| LegacyChatHook.LegacyHandleChat | src/hooks/useChat.ts:31-54 | a missing or non-JSON body rejects; 404 iff the parsed JSON is falsy or the thread id is empty; otherwise 500 "No API key" iff no key is stored; otherwise a body without a `messages` array rejects in the message conversion, and any other gets the model over its messages with the search and addResource tools bound to the thread |
| LegacyChatHook.HandlersAgreeWithKey | src/hooks/useChat.ts:31-51 | with a key stored, both handlers reject the same bodies, answer 404 to exactly the same requests, and stream the same messages with the same search tool |
| LegacyChatHook.LegacyOnFinishPersists | src/hooks/useChat.ts:17-24 | a finished reply is stored under the hook's thread and only there |
| LegacyChatHook.LegacyOnFinishIgnoresThreads | src/lib/db/schema/messages.ts:18-31 | without a message foreign key the older save succeeds even for a thread that does not exist |
| ChatContext.InitialPanelState | src/pages/chat/context.tsx:62-67 | the panel starts closed iff the window is narrower than 768 pixels, and as a list otherwise |
| ChatContext.InitialPanelsShown | src/pages/chat/context.tsx:62-67 | a narrow window starts with the resource panel not rendered and the document panel hidden; a wide one starts with the resource list rendered and the document panel visible |
| ChatContext.ProvidedDocumentPanel | src/pages/chat/document-panel.tsx:175-224 | with the value the provider of context.tsx:202-219 supplies, the document panel never shows the upload skeleton, shows a document iff one is selected, is hidden iff closed, and is 700px wide iff in detail and 300px otherwise |
| ChatContext.RenderDocumentList | src/pages/chat/document-panel.tsx:64-90 | the document list throws iff it is handed no list, shows the empty state iff the list is empty, and otherwise one entry per document |
| ChatContext.ProvidedDocumentListThrows | src/pages/chat/document-panel.tsx:175-181 | with the provided value the page renders the document panel, which with no selection hands the list an undefined `documents`, so its render throws |
| ChatContext.IntendedDocumentPanel | src/pages/chat/document-panel.tsx:175-224 | with a value that supplies the screen size, the upload flag under the name the panel reads and the documents, the list always renders, the skeleton shows iff an upload is in progress, a selected document shows otherwise, and the panel is hidden iff the screen is small or the panel closed |
| ChatContext.RenderProvider | src/pages/chat/context.tsx:87-98 | rendering the provider throws iff it is given no initialMessages prop, because the effect's dependency list reads its length; otherwise the effect sees that many initial messages |
| ChatContext.PendingEffectSpec | src/pages/chat/context.tsx:69-103 | without a key the alert opens; the stored message is taken over iff a key exists, the thread has no messages and a readable message is stored under its id; it is then removed with every other key untouched, and in every other case storage is unchanged |
| ChatContext.ResourceParams | src/pages/chat/context.tsx:129-137 | the parameters built from a parsed file always pass the insert schema, with the file name as title |
| ChatContext.CreateResources | src/pages/chat/context.tsx:127-141 | creating the files' resources leaves threads and messages alone and adds at most one document per file |
| ChatContext.CreateResourcesNoneParse | src/pages/chat/context.tsx:127-141 | when no file parses, nothing is created |
| ChatContext.Preview | src/pages/chat/context.tsx:159 | the preview is a slice of the text's first n UTF-16 code units with only whitespace cut from either end and no whitespace left at its own ends |
| ChatContext.PreviewOfShortText | src/pages/chat/context.tsx:159 | a text of at most n code units without edge whitespace is its own preview |
| ChatContext.PreviewOfBmpText | src/pages/chat/context.tsx:159 | on text inside the Basic Multilingual Plane the preview is the trim of the first n characters |
| ChatContext.IntendedParse | src/lib/file.ts:3-22 | the parse outcome in the shape line 129 of context.tsx destructures: it succeeds iff the text extraction does, with that text and the file's type, and otherwise carries the extraction's error |
| ChatContext.DestructuredParams | src/pages/chat/context.tsx:129-135 | the parameters built from the destructured string carry the title and thread id but no content or file type, so the insert schema rejects them, naming exactly those two fields |
| ChatContext.CreateDestructuredResources | src/pages/chat/context.tsx:127-141 | creating resources with those parameters leaves the database exactly as it was |
| ChatContext.DestructuredUploadWritesNothing | src/pages/chat/context.tsx:105-169 | with the parser as written, an upload writes nothing, never produces the message, keeps the panel and closes the uploader; past the early returns the flag comes down, and when every text extraction succeeds the call ends in the preview's throw |
| ChatContext.IntendedParseAnnounces | src/pages/chat/context.tsx:126-166 | with the parse shape line 129 expects, files that all extract produce the message with one result per file, each previewing that file's text, and the panel shows the list |
| ChatContext.UploadedIff | src/pages/chat/context.tsx:105-172 | a message is produced iff there are files, none is too large and all parse; then the panel shows the list; threads and messages are never touched and at most one document per file is added |
| ChatContext.UploadRejectsWholesale | src/pages/chat/context.tsx:109-125 | an empty list or any oversize file uploads nothing and keeps the panel; the too-large alert comes iff there were files |
| ChatContext.UploadMessageShape | src/pages/chat/context.tsx:142-162 | the assistant message has empty content and one addResource result per file in input order, carrying the file's name, size and type and the preview of its text |
| ChatContext.EarlyReturnKeepsFlag | src/pages/chat/context.tsx:107-125 | as written, both early returns write nothing, close the uploader, keep the panel and leave the uploading flag up; the too-large alert comes iff there were files; the document panel, reading the flag under a name the provider lacks, does not show the skeleton |
| ChatContext.EmptyDropStaysUploading | src/pages/chat/context.tsx:109-111 | as written an empty upload leaves the flag up; the corrected flow lowers it |
| ChatContext.UploadFiles | src/pages/chat/context.tsx:167-169 | the corrected flow always ends with the flag down and the uploader closed |
| ChatContext.StuckFlagShowsOnceWired | src/pages/chat/document-panel.tsx:218-224 | once the document panel reads the provider's upload flag, an early return as written leaves the loading skeleton showing, and the corrected flow does not |
| ChatContext.UploadFixOnlyLowersFlag | src/pages/chat/context.tsx:105-172 | the correction changes nothing but the flag, and the flag differs exactly on the early returns |
| ChatContext.FileInputNeverEmpty | src/pages/chat/chat-input.tsx:35-41 | an upload from the chat input's file picker passes exactly the first picked file, so it never takes the empty-list return |
| ChatContext.OnSubmitSavesFirst | src/pages/chat/context.tsx:191-200 | empty input saves and submits nothing; a submit first stores the user message under the thread |
| ChatContext.SubmitControlsAgree | src/pages/chat/chat-input.tsx:79-99 | with no reply loading the submit button is disabled iff a submission would change nothing; Enter on an empty input clicks the hidden submit all the same and reaches that no-op |
| IndexPage.Loader | src/pages/index/page.tsx:19-25 | a failed thread query gives an empty list; otherwise all threads, newest first |
| IndexPage.OnSubmitSpec | src/pages/index/page.tsx:60-88 | no key opens the alert and changes nothing; empty input changes nothing; navigation happens only after the thread was created and the pending user message stored under the new id, to "/chat/" + id |
| ChatPage.ActionSpec | src/pages/chat/page.tsx:23-37 | POST and DELETE respond with success and other methods with null; only a DELETE with a text document id changes the store, removing that document and its embeddings |
| ChatPage.LoaderSpec | src/pages/chat/page.tsx:39-52 | no thread id gives the empty result; a usage failure fails the load; a missing thread redirects to "/"; a loaded thread has the requested id |
| ChatPage.PageRenderThrows | src/pages/chat/page.tsx:107-111 | the chat page renders the provider without initialMessages, so rendering a loaded thread throws |
| ChatPage.IntendedPageRenders | src/pages/chat/context.tsx:87-98 | with the thread's messages passed as initialMessages the provider renders and its effect sees exactly that many messages |
| FirstMessage.NoMessagesOfUnknownThread | src/lib/database/migration.ts:56 | with the message foreign key, a thread that does not exist has no messages |
| FirstMessage.SubmitCreated | src/pages/index/page.tsx:80-87 | after the index page navigates, the new thread exists with no messages and the pending message is stored under its id |
| FirstMessage.AppendFirst | src/pages/chat/context.tsx:86-90 | appending the pending message to the new thread makes it the thread's only message |
| FirstMessage.HandoffDelivers | src/pages/chat/context.tsx:69-103 | from the index page's submit to the chat page, with one database and an empty initialMessages prop: the provider renders, the loader finds the new thread, the effect takes over the pending message, storage ends as before with that key gone, and the message becomes the thread's only stored message |
| FirstMessage.HandoffAcrossSeparateDatabases | src/providers/pglite.tsx:10 | with the index page writing the handle of providers/pglite.tsx and the chat loader reading the handle of lib/database/client.ts:18, a thread that handle lacks is created, the pending message is stored under its id, and the loader redirects to "/" |

## Left out

- Embedding maths, the vector index and cosine distance are floating point and library-defined. A row's similarity is an opaque `real` score function.
- The text splitter (`RecursiveCharacterTextSplitter`) is an external library. Ingestion takes the chunk sequence as input.
- SHA-256 (`crypto.subtle.digest`) is a parameter. Only the byte-to-hex step is modelled.
- The language model, `embed`/`embedMany`, the usage fetch and `nameConversation` are network I/O. Their outputs are parameters: the Markdown model output, the vectors, the fetch response.
- The model path of `convertTextToMarkdown` is an LLM call. With a key, its output is a parameter.
- Generated ids (nanoid column defaults) and `now()` timestamps are parameters, so "an id is generated when not supplied" is not modelled.
- The timestamp column of the migrations table uses the clock and is not modelled.
- The PGlite worker, the database singletons and the drizzle query builders are plumbing. The store is in-memory sequences.
- Concurrency is not modelled: `Promise.all` fan-outs run sequentially in file or query order, and cancellation is not modelled.
- The tie order when sorting by `createdAt` or similarity is not fixed by SQL. The model uses a stable insertion sort, and the contracts promise only order and permutation.
- `uploadText` and the rename of a thread after the hand-off are UI flows around LLM calls.
- The JSON text format is not modelled:
  - `JSON.stringify` of tool invocations is a parameter;
  - a pending message in local storage is either a raw string or the JSON-encoded message;
  - a raw string stored under a thread id counts as unreadable;
  - a raw string that happens to be valid JSON is not distinguished.
- `charsPerLine` in the textarea is computed from pixel widths in floating point. It enters as a natural number; line lengths are counted in UTF-16 code units, as `line.length` counts them.
- ChatInput.Rows: a textarea of `clientWidth` 0 makes `charsPerLine` NaN, not 0, so the row count is NaN and the `charsPerLine === 0` guard does not catch it. The model's natural-number `charsPerLine` cannot express NaN.
- ChatInput.Height: for the same reason, the NaN row count of a zero-width textarea gives the height "NaNpx", which the model does not express.
- The `textareaRef.current` null check of the row effect only skips a render and is not modelled.
- Rendering, styling, alerts, dialogs, routing, auth and React Query caching are UI-only.
- The code opens two database handles. providers/pglite.tsx opens `idb://` plus `DB_NAME`, and the `data/` modules and `lib/ai/embeddings.ts` use it. lib/database/client.ts opens `idb://llmchat`, and the `services/` modules use it. `DB_NAME` comes from a constants module that is not part of this model, so whether the two names agree is unknown. `FirstMessage.HandoffAcrossSeparateDatabases` covers the case where they differ.
- The callers also use different generations of the store:
  - the chat hooks and the message services use the documents generation;
  - the upload flow uses the resources generation;
  - the index page's thread creation and the older hook use the tables declared in `lib/db/schema`.
  - The model gives each caller its own generation and does not reconcile the schemas.
- The migrations of lib/database/migration.ts create a `resources` table, while lib/database/schema.ts declares the documents table under the name `documents`. The model keeps one documents table and does not reconcile the two names.
- FirstMessage.HandoffDelivers: assumes that one database serves both pages and that the provider gets an empty `initialMessages` array, as `ChatPage.IntendedProviderProps` passes it. The chat page of this revision passes no such prop (see `ChatPage.PageRenderThrows`), and the handles may differ (see `FirstMessage.HandoffAcrossSeparateDatabases`). The `usage` prop the page passes is not read by the provider and is not modelled.
- Panels.DocumentPanelBody: models the panel for given values of `isUploadingDocuments`, `documents` and `isSmallScreen`. The provider in context.tsx supplies none of the three, so in this revision they read as undefined. `ChatContext.ProvidedDocumentPanel` states the consequence for the flag and the screen size, and `ChatContext.ProvidedDocumentListThrows` the throw of the list (see "## Findings").
- Panels.DocumentPanelWidth: `isSmallScreen` is not provided either, so in this revision the width falls to the wide-screen rule. page.tsx reads the same missing field to decide whether to render the document panel, so the panel is always rendered; `ChatContext.ProvidedDocumentListThrows` states that.
- ChatContext.Preview: a slice that ends between the two halves of a surrogate pair keeps the lone high surrogate in JavaScript. Dafny strings cannot hold it, so the model drops the whole character.
- JavaScript numbers are modelled as unbounded integers: file sizes, counts, timestamps and usage figures. Floating-point rounding and `NaN` are not modelled, except where a line above names them.
- DocumentStore.ErrorText: when the caught value is not an `Error`, services/documents.ts returns undefined rather than a message. The model gives every raised error a message, so that path is not modelled.
- ChatHook.ThreadIdRoundTrip: stated only for ids in nanoid's alphabet. URL resolution by `new Request` is not modelled: dot segments, percent-encoding, backslashes, and `?` or `#` in an id.
- ChatHook.ToolsBoundToHookThread: stated for nanoid-alphabet ids only, for the same reason.
- ChatHook.HandleChat: `convertToCoreMessages` is library code, not part of this model. The model rejects exactly the bodies without a `messages` array; an array whose elements the library cannot convert (no valid role, say) also throws in the source, but the model treats the elements as opaque and streams them.
- LegacyChatHook.LegacyHandleChat: the same holds for the elements of the older handler's `messages` array.
- ChatHook.SearchStaysInThread: stated for nanoid-alphabet ids only, for the same reason.
- ChatContext.UploadFilesAsWritten: models the upload's control flow for a parser that returns the `{content, fileType}` shape line 129 of context.tsx destructures. lib/file.ts returns a plain string, so as written both fields are undefined. The consequences are modelled in `ChatContext.UploadFilesDestructured` (see "## Findings"): the insert parameters lack content and file type, no resource is written, `text.slice` on the undefined text throws a `TypeError` at line 159, the `finally` lowers the flag, and no message is appended.
- services/resources.ts imports `insertResourceSchema` and `schema.resources`, which lib/database/schema.ts does not export (its `schema` holds embeddings, messages, documents and threads). So `createResource` as written throws a `TypeError` inside its `try` and returns that message without writing. The resources generation of `DocumentStore` models the evidently intended table and schema, with the same four required fields.
- The query embedding of `findRelevantContent` (lib/ai/embeddings.ts:53) is a network call that can reject, which rejects the knowledge-base tool's `Promise.all` (use-chat.ts:81). The model takes each query's vector as a given and does not model that failure.
- The comment in services/threads.ts that thread deletion also removes resources is not backed by any foreign key in migration.ts. Only the message cascade is modelled.
- The chat page's `DELETE` calls a document service in services/documents/, which is not part of this model. `DocumentStore.DeleteDocumentById` stands in for it.
- ChatContext.CreateResources: states only that documents and embeddings grow by prefixes and that threads and messages are untouched. Each file's row content is stated through `DocumentStore.Ingest` and `DocumentStore.IngestHappyPath`.

## Findings

| source | as written | input that shows it | evidently intended | confidence | as-written member | corrected member |
|---|---|---|---|---|---|---|
| src/pages/chat/context.tsx:107-125 | `uploadFiles` raises the uploading flag, then returns early for an empty list or an oversize file before the `try`/`finally` that lowers it | `uploadFiles([])` from a drop whose files the dropzone all rejects, or a single file at or above the size limit: `isUploadingContent` stays true until another upload completes; no component of this revision reads that flag, so nothing shows it yet | every path of `uploadFiles` lowers the flag and closes the uploader | not executed | ChatContext.UploadFilesAsWritten, exhibited by ChatContext.EmptyDropStaysUploading, ChatContext.EarlyReturnKeepsFlag and ChatContext.StuckFlagShowsOnceWired | ChatContext.UploadFiles, with ChatContext.UploadFixOnlyLowersFlag |
| src/pages/chat/context.tsx:129 | each file's `content` and `fileType` are destructured from the result of `parseFile`, but lib/file.ts returns the text as a plain string | any upload of files that all parse: both fields are undefined, `createResource` gets no content or file type and writes nothing, and `text.slice` at line 159 throws, so no upload message is appended and the panel keeps its state | `parseFile` yields the text together with the file's type, and each file's resource and preview use that text | not executed | ChatContext.UploadFilesDestructured, with ChatContext.DestructuredParams and ChatContext.DestructuredUploadWritesNothing | ChatContext.UploadFiles over ChatContext.IntendedParse, with ChatContext.IntendedParseAnnounces |
| src/pages/chat/page.tsx:108 | the page renders `ChatContextProvider` with `usage` and `thread` only, while the provider reads `initialMessages.length` in an effect's dependency list (context.tsx:98) | any loaded thread: rendering the provider throws a `TypeError` | the page passes the thread's messages as `initialMessages` | not executed | ChatPage.PageProviderProps, exhibited by ChatPage.PageRenderThrows | ChatPage.IntendedProviderProps, with ChatPage.IntendedPageRenders |
| src/pages/chat/document-panel.tsx:175-181 | the panel reads `documents`, `isSmallScreen` and `isUploadingDocuments` from a context that provides none of them (context.tsx:202-219), and hands `documents` to `DocumentList`, which reads its `length` (line 72) | any render with no document selected and no upload flag set, i.e. every render: `!isSmallScreen` holds so page.tsx:73 renders the panel, and `DocumentList` throws on the undefined list; the provider's own throw above comes first | the context supplies the screen size, the upload flag under the name the panel reads, and the thread's documents | not executed | ChatContext.ProvidedValue, exhibited by ChatContext.ProvidedDocumentListThrows | ChatContext.IntendedValue, with ChatContext.IntendedDocumentPanel |

=== FILE: chat_context.dfy ===
/** The chat page's shared state and actions (`pages/chat/context.tsx`):
    the panel state it starts with, the effect that takes over the first
    message the start page left in local storage, the file upload flow, and
    the submit action. File parsing, chunking, embedding and id generation
    enter as parameters; the upload flow's resources are written with
    `createResource` of `services/resources.ts`. */
module ChatContext {
  import opened Wrappers
  import opened Seqs
  import opened Schema
  import opened Store
  import opened DocumentStore
  import opened LocalStorage
  import opened Panels
  import opened ChatHook
  import Text
  import ChatInput

  /** Windows narrower than this start with the panel closed. */
  const NarrowWindow: int := 768

  /** The lazily computed initial `panelState`. */
  function InitialPanelState(innerWidth: int): (r: PanelState)
    ensures r == Closed <==> innerWidth < NarrowWindow
    ensures r == List <==> innerWidth >= NarrowWindow
  {
    if innerWidth < NarrowWindow then Closed else List
  }

  // ------------------------------------------------ the provider's value

  /** The fields of the context value that the chat page and the document
      panel read. The provider supplies `panelState` and
      `isUploadingContent`; `isSmallScreen`, `isUploadingDocuments` and
      `documents` are read by those components but not supplied, so they
      read as `undefined`, here `None`. */
  datatype ContextValue = ContextValue(panelState: PanelState, isUploadingContent: bool, isSmallScreen: Option<bool>,
                                       isUploadingDocuments: Option<bool>, documents: Option<seq<Document>>)

  /** The value the provider hands to `useChatContext()` for its current
      panel state and upload flags. */
  function ProvidedValue(ui: UploadUi): ContextValue
  {
    ContextValue(ui.panel, ui.isUploading, None, None, None)
  }

  /** JavaScript truthiness of an optional flag: `undefined` is falsy. */
  function FlagValue(flag: Option<bool>): bool
  {
    flag.Some? && flag.value
  }

  /** What `DocumentPanel` renders from a context value. */
  datatype DocumentView<T> = DocumentView(hidden: bool, width: string, body: DocumentBody<T>)

  /** `DocumentPanel` reads `isSmallScreen` and `isUploadingDocuments` from
      the context value and keeps its own selection. */
  function DocumentPanelView<T>(v: ContextValue, selected: Option<T>): DocumentView<T>
  {
    var small := FlagValue(v.isSmallScreen);
    DocumentView(IsHidden(small, v.panelState), DocumentPanelWidth(small, v.panelState),
                 DocumentPanelBody(FlagValue(v.isUploadingDocuments), selected))
  }

  /** Read from what the provider supplies, the document panel never shows
      its loading skeleton, whatever `isUploadingContent` is, because it
      reads the flag under a name the provider does not supply; it is
      hidden only when closed, and its width follows the panel state alone,
      as on a wide screen. */
  lemma ProvidedDocumentPanel<T>(ui: UploadUi, selected: Option<T>)
    ensures var view := DocumentPanelView(ProvidedValue(ui), selected);
            && !view.body.Skeleton?
            && (view.body.ShowingDocument? <==> selected.Some?)
            && (view.hidden <==> ui.panel == Closed)
            && view.width == (if ui.panel == Detail then "700px" else "300px")
  {
  }

  /** How `DocumentList` renders the list it is handed: reading `length`
      of `undefined` throws a `TypeError`, an empty list shows the empty
      state, and otherwise there is one entry per document. */
  datatype ListRender = ListThrows | EmptyState | Entries(count: nat)

  function RenderDocumentList(documents: Option<seq<Document>>): (r: ListRender)
    ensures r.ListThrows? <==> documents.None?
    ensures r == EmptyState <==> documents == Some([])
    ensures r.Entries? ==> documents.Some? && r.count == |documents.value| > 0
  {
    match documents
    case None => ListThrows
    case Some(ds) => if |ds| == 0 then EmptyState else Entries(|ds|)
  }

  /** As the provider is written, the chat page always renders the
      document panel (`!isSmallScreen` of `undefined` holds), which with no
      document selected takes the list branch and hands `DocumentList` an
      undefined `documents`: its render throws. */
  lemma ProvidedDocumentListThrows<T>(ui: UploadUi)
    ensures !FlagValue(ProvidedValue(ui).isSmallScreen)
    ensures DocumentPanelView<T>(ProvidedValue(ui), None).body == DocumentList
    ensures RenderDocumentList(ProvidedValue(ui).documents) == ListThrows
  {
  }

  /** The value the document panel evidently expects: the screen size, the
      upload flag under the name it reads, and the thread's documents. */
  function IntendedValue(ui: UploadUi, isSmallScreen: bool, documents: seq<Document>): ContextValue
  {
    ContextValue(ui.panel, ui.isUploading, Some(isSmallScreen), Some(ui.isUploading), Some(documents))
  }

  /** Given that value, the list always renders, the skeleton shows exactly
      while an upload is in progress, a selected document shows otherwise,
      and the panel is hidden on a small screen or when closed. */
  lemma IntendedDocumentPanel<T>(ui: UploadUi, isSmallScreen: bool, documents: seq<Document>, selected: Option<T>)
    ensures var v := IntendedValue(ui, isSmallScreen, documents);
            var view := DocumentPanelView(v, selected);
            && !RenderDocumentList(v.documents).ListThrows?
            && (view.body.Skeleton? <==> ui.isUploading)
            && (!ui.isUploading ==> (view.body.ShowingDocument? <==> selected.Some?))
            && (view.hidden <==> isSmallScreen || ui.panel == Closed)
  {
  }

  /** A narrow window starts with both panels out of sight: the resource
      panel not rendered, the document panel hidden. A wide one starts with
      the resource list showing and the document panel visible. */
  lemma InitialPanelsShown<T>(innerWidth: int, ui: UploadUi)
    requires ui.panel == InitialPanelState(innerWidth)
    ensures var p: Panel<T> := Panel(ui.panel, None);
            && (ContentPanelBody(p) == NotRendered <==> innerWidth < NarrowWindow)
            && (ContentPanelBody(p) == ResourceList <==> innerWidth >= NarrowWindow)
            && (DocumentPanelView<T>(ProvidedValue(ui), None).hidden <==> innerWidth < NarrowWindow)
  {
  }

  /** The props of `ChatContextProvider` that its render reads. A prop the
      caller leaves out is `None`. */
  datatype ProviderProps = ProviderProps(initialMessages: Option<seq<ChatMessage>>, threadId: string)

  /** How rendering the provider ends. */
  datatype RenderOutcome = RenderThrows | Rendered(initialCount: nat)

  /** Every render evaluates the effect's dependency list, which reads
      `initialMessages.length`; without the prop that read throws a
      `TypeError`. Otherwise the effect sees the number of initial
      messages. */
  function RenderProvider(props: ProviderProps): (r: RenderOutcome)
    ensures r.RenderThrows? <==> props.initialMessages.None?
  {
    match props.initialMessages
    case None => RenderThrows
    case Some(ms) => Rendered(|ms|)
  }

  // ------------------------------------------------------ pending message

  /** What the pending-message effect does besides touching storage. */
  datatype EffectOutcome =
    | ApiKeyAlert                        // no key: an alert pointing to the settings page
    | NoPending                          // nothing to take over
    | Unreadable                         // the stored text is not a message: `JSON.parse` throws
    | TakeOver(message: PendingMessage)  // the message is appended to the chat

  /** The effect on `thread.id`: without an API key it only alerts. With
      one, a message stored under the thread's id is taken over, and its key
      deleted, only while the thread has no messages yet. */
  function PendingEffect(s: Storage, threadId: string, initialCount: nat): (r: (Storage, EffectOutcome))
  {
    if !HasApiKey(s) then (s, ApiKeyAlert)
    else
      var stored := Load(s, threadId);
      if Truthy(stored) && initialCount <= 0 then
        match stored.value
        case Json(m) => (Delete(s, threadId), TakeOver(m))
        case Raw(_) => (s, Unreadable)
      else (s, NoPending)
  }

  /** The effect appends a message exactly when there is a key, a stored
      message under the thread's id and no message yet; that message is the
      stored one, and only its key is removed. Otherwise storage is left
      as it was. */
  lemma PendingEffectSpec(s: Storage, threadId: string, initialCount: nat)
    ensures var (s', out) := PendingEffect(s, threadId, initialCount);
            && (!HasApiKey(s) ==> out == ApiKeyAlert)
            && (out.TakeOver? <==> HasApiKey(s) && initialCount == 0 && threadId in s && s[threadId].Json?)
            && (out.TakeOver? ==> s[threadId] == Json(out.message) && threadId !in s'
                                  && forall k :: k != threadId ==> Load(s', k) == Load(s, k))
            && (!out.TakeOver? ==> s' == s)
  {
  }

  // ---------------------------------------------------------- file upload

  /** A file handed to `uploadFiles`. */
  datatype UploadFile = UploadFile(name: string, size: nat, fileType: string)

  /** What the upload flow expects the parser to give for a file. */
  datatype ParsedFile = ParsedFile(content: string, fileType: string)

  /** What `createResource` needs for one file besides its parameters: the
      splitter's chunks, the generated ids, and the embedding provider's
      answer. */
  datatype IngestInput = IngestInput(chunks: seq<string>, docId: string, embedded: Result<seq<seq<real>>, string>,
                                     embeddingId: nat -> string)

  /** The flags and panel state the upload flow sets. */
  datatype UploadUi = UploadUi(isUploading: bool, uploaderOpen: bool, panel: PanelState)

  /** How an upload ends. */
  datatype UploadOutcome =
    | NothingToUpload
    | TooLarge                          // an alert about the size limit
    | ParseFailed(error: string)        // a rejected parse rejects `Promise.all`
    | Uploaded(message: ChatMessage)    // the message handed to the chat hook's `append`
    | PreviewThrew                      // `slice` on an undefined text throws a `TypeError`

  datatype Upload = Upload(ui: UploadUi, db: Db, outcome: UploadOutcome)

  /** Some file is at least `maxSize` bytes. */
  predicate AnyTooLarge(files: seq<UploadFile>, maxSize: nat)
  {
    exists i :: 0 <= i < |files| && files[i].size >= maxSize
  }

  /** Every file parses. */
  predicate AllParse(files: seq<UploadFile>, parse: UploadFile -> Result<ParsedFile, string>)
  {
    forall i :: 0 <= i < |files| ==> parse(files[i]).Success?
  }

  /** The error of the first file that does not parse. */
  function FirstParseError(files: seq<UploadFile>, parse: UploadFile -> Result<ParsedFile, string>): string
    requires !AllParse(files, parse)
    decreases |files|
  {
    if parse(files[0]).Failure? then parse(files[0]).error
    else
      assert !AllParse(files[1..], parse) by {
        var i :| 0 <= i < |files| && parse(files[i]).Failure?;
        assert files[1..][i - 1] == files[i];
      }
      FirstParseError(files[1..], parse)
  }

  /** The parameters `createResource` is called with for a parsed file. */
  function ResourceParams(threadId: string, f: UploadFile, parsed: ParsedFile): (p: NewDocumentParams)
    ensures ParseDocumentParams(p).Success?
    ensures ParseDocumentParams(p).value == DocumentFields(f.name, parsed.content, parsed.fileType, threadId)
  {
    NewDocumentParams(Some(f.name), Some(parsed.content), Some(parsed.fileType), Some(threadId))
  }

  /** Every file from position `from` on that parses is ingested, in file
      order; a file that does not parse is never written. Threads and
      messages stay, and the earlier documents and embeddings stay in place. */
  function CreateResources(db: Db, threadId: string, files: seq<UploadFile>, parse: UploadFile -> Result<ParsedFile, string>,
                           inputs: nat -> IngestInput, from: nat, now: int): (r: Db)
    requires from <= |files|
    ensures r.threads == db.threads && r.messages == db.messages
    ensures db.documents <= r.documents && |r.documents| <= |db.documents| + (|files| - from)
    ensures db.embeddings <= r.embeddings
    decreases |files| - from
  {
    if from == |files| then db
    else
      var db1 := match parse(files[from])
        case Failure(_) => db
        case Success(parsed) =>
          var inp := inputs(from);
          Ingest(db, ResourcesGeneration, ResourceParams(threadId, files[from], parsed), inp.chunks, inp.docId,
                 inp.embedded, inp.embeddingId, now).0;
      var r := CreateResources(db1, threadId, files, parse, inputs, from + 1, now);
      PrefixTrans(db.documents, db1.documents, r.documents);
      PrefixTrans(db.embeddings, db1.embeddings, r.embeddings);
      r
  }

  lemma PrefixTrans<T>(a: seq<T>, b: seq<T>, c: seq<T>)
    requires a <= b && b <= c
    ensures a <= c
  {
    assert c[..|a|] == b[..|a|];
  }

  /** When no file parses, nothing is written. */
  lemma {:induction false} CreateResourcesNoneParse(db: Db, threadId: string, files: seq<UploadFile>,
                                                    parse: UploadFile -> Result<ParsedFile, string>,
                                                    inputs: nat -> IngestInput, from: nat, now: int)
    requires from <= |files|
    requires forall i :: from <= i < |files| ==> parse(files[i]).Failure?
    ensures CreateResources(db, threadId, files, parse, inputs, from, now) == db
    decreases |files| - from
  {
    if from < |files| {
      CreateResourcesNoneParse(db, threadId, files, parse, inputs, from + 1, now);
    }
  }

  /** The parsed texts of files that all parse. */
  function Texts(files: seq<UploadFile>, parse: UploadFile -> Result<ParsedFile, string>): (r: seq<string>)
    requires AllParse(files, parse)
    ensures |r| == |files|
    ensures forall i :: 0 <= i < |files| ==> r[i] == parse(files[i]).value.content
  {
    seq(|files|, i requires 0 <= i < |files| => parse(files[i]).value.content)
  }

  /** `text.slice(0, n).trim()`: the first `n` UTF-16 code units of the
      text with the whitespace at both ends cut off, and nothing else. */
  function Preview(text: string, n: nat): (r: string)
    ensures Text.TrimmedFrom(r, Text.Utf16Prefix(text, n))
  {
    Text.Trim(Text.Utf16Prefix(text, n))
  }

  /** A text that fits in `n` code units and has no whitespace at its ends
      is its own preview. */
  lemma PreviewOfShortText(text: string, n: nat)
    requires Text.Utf16Length(text) <= n
    requires |text| > 0 ==> !Text.IsWhitespace(text[0]) && !Text.IsWhitespace(text[|text| - 1])
    ensures Preview(text, n) == text
  {
    Text.Utf16PrefixWhole(text, n);
    var lead := Text.LeadingWhitespace(text);
    if |text| > 0 {
      assert lead == 0;
      assert text[lead..] == text;
      assert Text.TrailingStart(text[lead..]) == |text|;
    }
  }

  /** On Basic Multilingual Plane text the preview trims the first `n`
      characters. */
  lemma PreviewOfBmpText(text: string, n: nat)
    requires forall k :: 0 <= k < |text| ==> text[k] as int < 0x10000
    ensures Preview(text, n) == Text.Trim(text[..Min(n, |text|)])
  {
    Text.Utf16PrefixBmp(text, n);
  }

  /** The tool invocation recorded for file `i`. The message id is drawn
      first, then a call id and a file id per file. */
  function Invocation(f: UploadFile, text: string, i: nat, ids: nat -> string, previewLength: nat): ToolInvocation
  {
    ToolInvocation("result", ids(2 * i + 1), "addResource",
                   AddResourceResult(true, ids(2 * i + 2), FileInfo(f.name, f.size, f.fileType), Preview(text, previewLength)))
  }

  /** The assistant message announcing the uploaded files. */
  function UploadMessage(files: seq<UploadFile>, texts: seq<string>, ids: nat -> string, previewLength: nat): ChatMessage
    requires |texts| == |files|
  {
    ChatMessage(ids(0), "assistant", "",
                Some(seq(|files|, i requires 0 <= i < |files| => Invocation(files[i], texts[i], i, ids, previewLength))))
  }

  /** The control flow of `uploadFiles(files)` as written, for a parser
      that gives each file's content and type in the shape line 129 of
      context.tsx destructures (see `UploadFilesDestructured` for the string
      `parseFile` actually resolves to): it raises the uploading flag and
      closes the uploader, then returns early, with the flag still raised,
      for an empty list or a file at or above the size limit. Otherwise
      every file that parses is handed to `createResource`; if one does not
      parse the call rejects, and if all do the announcement is appended and
      the panel shows the list. Only the path inside `try` lowers the flag. */
  function UploadFilesAsWritten(ui: UploadUi, db: Db, threadId: string, files: seq<UploadFile>, maxSize: nat,
                                previewLength: nat, parse: UploadFile -> Result<ParsedFile, string>,
                                inputs: nat -> IngestInput, ids: nat -> string, now: int): Upload
  {
    var started := ui.(isUploading := true, uploaderOpen := false);
    if |files| <= 0 then Upload(started, db, NothingToUpload)
    else if AnyTooLarge(files, maxSize) then Upload(started, db, TooLarge)
    else
      var db' := CreateResources(db, threadId, files, parse, inputs, 0, now);
      if !AllParse(files, parse) then Upload(started.(isUploading := false), db', ParseFailed(FirstParseError(files, parse)))
      else
        var message := UploadMessage(files, Texts(files, parse), ids, previewLength);
        Upload(started.(isUploading := false, panel := List), db', Uploaded(message))
  }

  /** `uploadFiles` with both early returns inside the `try`, so that the
      `finally` lowers the flag on every path. */
  function UploadFiles(ui: UploadUi, db: Db, threadId: string, files: seq<UploadFile>, maxSize: nat,
                       previewLength: nat, parse: UploadFile -> Result<ParsedFile, string>,
                       inputs: nat -> IngestInput, ids: nat -> string, now: int): (r: Upload)
    ensures !r.ui.isUploading && !r.ui.uploaderOpen
  {
    var started := ui.(isUploading := true, uploaderOpen := false);
    var finished := started.(isUploading := false);
    if |files| <= 0 then Upload(finished, db, NothingToUpload)
    else if AnyTooLarge(files, maxSize) then Upload(finished, db, TooLarge)
    else
      var db' := CreateResources(db, threadId, files, parse, inputs, 0, now);
      if !AllParse(files, parse) then Upload(finished, db', ParseFailed(FirstParseError(files, parse)))
      else Upload(finished.(panel := List), db', Uploaded(UploadMessage(files, Texts(files, parse), ids, previewLength)))
  }

  /** The written version keeps the flag raised after both early returns,
      having written nothing and closed the uploader. The document panel,
      which reads the flag under another name, does not show it. */
  lemma EarlyReturnKeepsFlag<T>(ui: UploadUi, db: Db, threadId: string, files: seq<UploadFile>, maxSize: nat,
                                previewLength: nat, parse: UploadFile -> Result<ParsedFile, string>,
                                inputs: nat -> IngestInput, ids: nat -> string, now: int, selected: Option<T>)
    requires |files| == 0 || AnyTooLarge(files, maxSize)
    ensures var u := UploadFilesAsWritten(ui, db, threadId, files, maxSize, previewLength, parse, inputs, ids, now);
            && u.ui.isUploading && !u.ui.uploaderOpen && u.ui.panel == ui.panel && u.db == db
            && (u.outcome == TooLarge <==> |files| > 0)
            && !DocumentPanelView(ProvidedValue(u.ui), selected).body.Skeleton?
  {
  }

  /** Once the document panel is given the flag it reads, an early return
      as written leaves the loading skeleton showing; the corrected flow
      does not. */
  lemma StuckFlagShowsOnceWired<T>(ui: UploadUi, db: Db, threadId: string, files: seq<UploadFile>, maxSize: nat,
                                   previewLength: nat, parse: UploadFile -> Result<ParsedFile, string>,
                                   inputs: nat -> IngestInput, ids: nat -> string, now: int,
                                   isSmallScreen: bool, documents: seq<Document>, selected: Option<T>)
    requires |files| == 0 || AnyTooLarge(files, maxSize)
    ensures var w := UploadFilesAsWritten(ui, db, threadId, files, maxSize, previewLength, parse, inputs, ids, now);
            DocumentPanelView(IntendedValue(w.ui, isSmallScreen, documents), selected).body.Skeleton?
    ensures var c := UploadFiles(ui, db, threadId, files, maxSize, previewLength, parse, inputs, ids, now);
            !DocumentPanelView(IntendedValue(c.ui, isSmallScreen, documents), selected).body.Skeleton?
  {
  }

  /** The empty drop that shows it: `uploadFiles([])`. */
  lemma EmptyDropStaysUploading(ui: UploadUi, db: Db, threadId: string, maxSize: nat, previewLength: nat,
                                parse: UploadFile -> Result<ParsedFile, string>, inputs: nat -> IngestInput,
                                ids: nat -> string, now: int)
    ensures UploadFilesAsWritten(ui, db, threadId, [], maxSize, previewLength, parse, inputs, ids, now).ui.isUploading
    ensures !UploadFiles(ui, db, threadId, [], maxSize, previewLength, parse, inputs, ids, now).ui.isUploading
  {
  }

  /** The corrected flow writes the same rows and ends the same way; its
      flag differs from the written one's exactly after an early return. */
  lemma UploadFixOnlyLowersFlag(ui: UploadUi, db: Db, threadId: string, files: seq<UploadFile>, maxSize: nat,
                                previewLength: nat, parse: UploadFile -> Result<ParsedFile, string>,
                                inputs: nat -> IngestInput, ids: nat -> string, now: int)
    ensures var w := UploadFilesAsWritten(ui, db, threadId, files, maxSize, previewLength, parse, inputs, ids, now);
            var c := UploadFiles(ui, db, threadId, files, maxSize, previewLength, parse, inputs, ids, now);
            && c.db == w.db && c.outcome == w.outcome
            && c.ui.panel == w.ui.panel && c.ui.uploaderOpen == w.ui.uploaderOpen
            && (w.ui.isUploading <==> |files| == 0 || AnyTooLarge(files, maxSize))
  {
  }

  /** An upload writes nothing and appends nothing for an empty list and,
      all or nothing, whenever one file is too large. */
  lemma UploadRejectsWholesale(ui: UploadUi, db: Db, threadId: string, files: seq<UploadFile>, maxSize: nat,
                               previewLength: nat, parse: UploadFile -> Result<ParsedFile, string>,
                               inputs: nat -> IngestInput, ids: nat -> string, now: int)
    requires |files| == 0 || AnyTooLarge(files, maxSize)
    ensures var c := UploadFiles(ui, db, threadId, files, maxSize, previewLength, parse, inputs, ids, now);
            && c.db == db && !c.outcome.Uploaded? && c.ui.panel == ui.panel
            && (c.outcome == TooLarge <==> |files| > 0)
  {
  }

  /** The announcement is made exactly when there are files, none is too
      large and all parse; the store's threads and messages are never
      touched by the upload itself. */
  lemma UploadedIff(ui: UploadUi, db: Db, threadId: string, files: seq<UploadFile>, maxSize: nat,
                    previewLength: nat, parse: UploadFile -> Result<ParsedFile, string>,
                    inputs: nat -> IngestInput, ids: nat -> string, now: int)
    ensures var c := UploadFiles(ui, db, threadId, files, maxSize, previewLength, parse, inputs, ids, now);
            && (c.outcome.Uploaded? <==> |files| > 0 && !AnyTooLarge(files, maxSize) && AllParse(files, parse))
            && (c.outcome.Uploaded? ==> c.ui.panel == List)
            && c.db.threads == db.threads && c.db.messages == db.messages
            && db.documents <= c.db.documents && |c.db.documents| <= |db.documents| + |files|
  {
  }

  /** The announcement is an empty assistant message with one `addResource`
      result per file, in file order, naming the file and previewing its
      text. */
  lemma UploadMessageShape(ui: UploadUi, db: Db, threadId: string, files: seq<UploadFile>, maxSize: nat,
                           previewLength: nat, parse: UploadFile -> Result<ParsedFile, string>,
                           inputs: nat -> IngestInput, ids: nat -> string, now: int)
    requires UploadFiles(ui, db, threadId, files, maxSize, previewLength, parse, inputs, ids, now).outcome.Uploaded?
    ensures var m := UploadFiles(ui, db, threadId, files, maxSize, previewLength, parse, inputs, ids, now).outcome.message;
            && m.role == "assistant" && m.content == "" && m.toolInvocations.Some?
            && |m.toolInvocations.value| == |files|
            && forall i :: 0 <= i < |files| ==>
                 var inv := m.toolInvocations.value[i];
                 && inv.state == "result" && inv.toolName == "addResource"
                 && inv.result.AddResourceResult? && inv.result.success
                 && inv.result.file == FileInfo(files[i].name, files[i].size, files[i].fileType)
                 && inv.result.preview == Preview(parse(files[i]).value.content, previewLength)
  {
  }

  // ------------------------------- the parse result as line 129 reads it

  /** The parse result line 129 evidently means: the text `parseFile`
      resolves to as the content, and the file's own MIME type. */
  function IntendedParse(parseText: UploadFile -> Result<string, string>): (parse: UploadFile -> Result<ParsedFile, string>)
    ensures forall f :: parse(f).Success? <==> parseText(f).Success?
    ensures forall f :: parse(f).Success? ==> parse(f).value == ParsedFile(parseText(f).value, f.fileType)
    ensures forall f :: parse(f).Failure? ==> parse(f).error == parseText(f).error
  {
    f => match parseText(f)
         case Success(t) => Success(ParsedFile(t, f.fileType))
         case Failure(e) => Failure(e)
  }

  /** The parameters line 129 builds: `parseFile` resolves to a string,
      which has no `content` or `fileType` property, so both are
      `undefined`, and the insert schema rejects them. */
  function DestructuredParams(threadId: string, f: UploadFile): (p: NewDocumentParams)
    ensures ParseDocumentParams(p).Failure?
    ensures MissingFields(p) == ["content", "fileType"]
  {
    NewDocumentParams(Some(f.name), None, None, Some(threadId))
  }

  /** `createResource` for every file from position `from` on whose text
      resolves, with the destructured parameters. Each call fails inside its
      own `try` and returns an error text, so no row is ever written. */
  function CreateDestructuredResources(db: Db, threadId: string, files: seq<UploadFile>,
                                       parseText: UploadFile -> Result<string, string>,
                                       inputs: nat -> IngestInput, from: nat, now: int): (r: Db)
    requires from <= |files|
    ensures r == db
    decreases |files| - from
  {
    if from == |files| then db
    else
      var db1 := if parseText(files[from]).Failure? then db
        else
          var inp := inputs(from);
          Ingest(db, ResourcesGeneration, DestructuredParams(threadId, files[from]), inp.chunks, inp.docId,
                 inp.embedded, inp.embeddingId, now).0;
      CreateDestructuredResources(db1, threadId, files, parseText, inputs, from + 1, now)
  }

  /** `uploadFiles(files)` exactly as written, `parseFile` resolving to the
      text. The early returns behave as in `UploadFilesAsWritten`. Past
      them no resource is written; a text that does not resolve rejects the
      call, and otherwise building the announcement calls `slice` on the
      undefined text, which throws. Either way the `finally` lowers the
      flag, nothing is appended and the panel stays. */
  function UploadFilesDestructured(ui: UploadUi, db: Db, threadId: string, files: seq<UploadFile>, maxSize: nat,
                                   parseText: UploadFile -> Result<string, string>,
                                   inputs: nat -> IngestInput, now: int): Upload
  {
    var started := ui.(isUploading := true, uploaderOpen := false);
    if |files| <= 0 then Upload(started, db, NothingToUpload)
    else if AnyTooLarge(files, maxSize) then Upload(started, db, TooLarge)
    else
      var db' := CreateDestructuredResources(db, threadId, files, parseText, inputs, 0, now);
      var parse := IntendedParse(parseText);
      if !AllParse(files, parse) then Upload(started.(isUploading := false), db', ParseFailed(FirstParseError(files, parse)))
      else Upload(started.(isUploading := false), db', PreviewThrew)
  }

  /** As written, no upload writes a resource or announces anything: past
      the early returns it rejects with the flag lowered and the panel
      kept, and when every text resolves it is the preview that throws. */
  lemma DestructuredUploadWritesNothing(ui: UploadUi, db: Db, threadId: string, files: seq<UploadFile>, maxSize: nat,
                                        parseText: UploadFile -> Result<string, string>,
                                        inputs: nat -> IngestInput, now: int)
    ensures var u := UploadFilesDestructured(ui, db, threadId, files, maxSize, parseText, inputs, now);
            && u.db == db && !u.outcome.Uploaded? && u.ui.panel == ui.panel && !u.ui.uploaderOpen
            && (|files| > 0 && !AnyTooLarge(files, maxSize) ==> !u.ui.isUploading)
            && (|files| > 0 && !AnyTooLarge(files, maxSize) && (forall i :: 0 <= i < |files| ==> parseText(files[i]).Success?)
                ==> u.outcome == PreviewThrew)
  {
  }

  /** With the intended parse, the same upload of files whose texts all
      resolve is announced: one `addResource` result per file, previewing
      that file's text, and the panel shows the list. */
  lemma IntendedParseAnnounces(ui: UploadUi, db: Db, threadId: string, files: seq<UploadFile>, maxSize: nat,
                               previewLength: nat, parseText: UploadFile -> Result<string, string>,
                               inputs: nat -> IngestInput, ids: nat -> string, now: int)
    requires |files| > 0 && !AnyTooLarge(files, maxSize)
    requires forall i :: 0 <= i < |files| ==> parseText(files[i]).Success?
    ensures var c := UploadFiles(ui, db, threadId, files, maxSize, previewLength, IntendedParse(parseText), inputs, ids, now);
            && c.outcome.Uploaded? && c.ui.panel == List && !c.ui.isUploading
            && c.outcome.message.toolInvocations.Some? && |c.outcome.message.toolInvocations.value| == |files|
            && forall i :: 0 <= i < |files| ==>
                 c.outcome.message.toolInvocations.value[i].result.preview == Preview(parseText(files[i]).value, previewLength)
  {
    var parse := IntendedParse(parseText);
    UploadedIff(ui, db, threadId, files, maxSize, previewLength, parse, inputs, ids, now);
    UploadMessageShape(ui, db, threadId, files, maxSize, previewLength, parse, inputs, ids, now);
  }

  /** The chat input's file picker hands over exactly its first file, so
      an upload it starts never takes the empty-list early return. */
  lemma FileInputNeverEmpty(picked: seq<UploadFile>, ui: UploadUi, db: Db, threadId: string, maxSize: nat,
                            previewLength: nat, parse: UploadFile -> Result<ParsedFile, string>,
                            inputs: nat -> IngestInput, ids: nat -> string, now: int)
    ensures var h := ChatInput.HandleFileUpload(picked);
            h.upload.Some? ==>
              && h.upload.value == [picked[0]]
              && UploadFilesAsWritten(ui, db, threadId, h.upload.value, maxSize, previewLength, parse, inputs, ids, now).outcome
                 != NothingToUpload
  {
  }

  // --------------------------------------------------------------- submit

  /** `onSubmit`: empty input does nothing; otherwise the user's message is
      saved before the chat library submits it, and a failed save stops
      the submission. The flag says whether the chat library was asked to
      submit. */
  function OnSubmit(db: Db, threadId: string, input: string, id: string, now: int): Result<(Db, bool), StoreError>
  {
    if |input| <= 0 then Success((db, false))
    else
      match SaveMessage(db, DocumentsGeneration, NewMessageParams("user", input, None, threadId), id, now)
      case Failure(e) => Failure(e)
      case Success(saved) => Success((saved.0, true))
  }

  /** Empty input saves and submits nothing; a submission always follows a
      save of the input as a user message on the thread. */
  lemma OnSubmitSavesFirst(db: Db, threadId: string, input: string, id: string, now: int)
    ensures input == "" ==> OnSubmit(db, threadId, input, id, now) == Success((db, false))
    ensures OnSubmit(db, threadId, input, id, now).Success? && OnSubmit(db, threadId, input, id, now).value.1 ==>
              GetMessages(OnSubmit(db, threadId, input, id, now).value.0, threadId)
              == GetMessages(db, threadId) + [Message(id, User, input, None, threadId, now)]
  {
    if input != "" {
      var p := NewMessageParams("user", input, None, threadId);
      if SaveMessage(db, DocumentsGeneration, p, id, now).Success? {
        SaveMessageIsolation(db, DocumentsGeneration, p, id, now, threadId);
        assert SaveMessage(db, DocumentsGeneration, p, id, now).value.1 == Message(id, User, input, None, threadId, now);
      }
    }
  }

  /** The input's controls agree with `onSubmit`: outside a streaming
      reply the submit button is disabled exactly when a submission would
      change nothing, and Enter on an empty input, which clicks the hidden
      submit button all the same, reaches that no-op. */
  lemma SubmitControlsAgree(db: Db, threadId: string, input: string, id: string, now: int)
    ensures ChatInput.SubmitDisabled(false, input) <==> OnSubmit(db, threadId, input, id, now) == Success((db, false))
    ensures input == "" ==> && ChatInput.OnKeyDown("Enter", false, false) == ChatInput.ClickSubmit
                            && OnSubmit(db, threadId, input, id, now) == Success((db, false))
  {
    OnSubmitSavesFirst(db, threadId, input, id, now);
  }
}

=== FILE: chat_hooks.dfy ===
/** The chat hook (`hooks/use-chat.ts`). The chat library's `fetch` is
    routed to a local handler with the URL `/chat/<threadId>`. The handler
    reads the thread id back from the URL and hands it to the model's tools.
    The hook persists every message it hands to the chat state, and every
    finished reply, through `saveMessage` of `services/messages.ts`. The
    language model, its streaming and `JSON.stringify` of tool invocations
    are outside the model: the serialiser enters as a parameter. */
module ChatHook {
  import opened Wrappers
  import opened Schema
  import opened Store
  import Text
  import Embeddings
  import KnowledgeSearch

  /** The URL of the request the hook sends for a thread. */
  function ChatUrl(threadId: string): string
  {
    "/chat/" + threadId
  }

  /** A character of nanoid's default alphabet: `A-Z`, `a-z`, `0-9`, `_`
      and `-`. */
  predicate IsNanoIdChar(c: char)
  {
    ('A' <= c <= 'Z') || ('a' <= c <= 'z') || ('0' <= c <= '9') || c == '_' || c == '-'
  }

  /** An id `nanoid()` can return, as `createThread` uses for thread ids:
      every character comes from the default alphabet, so none is special
      in a URL path. */
  predicate IsNanoId(id: string)
  {
    forall k :: 0 <= k < |id| ==> IsNanoIdChar(id[k])
  }

  /** A nanoid holds no slash. */
  lemma NanoIdHasNoSlash(id: string)
    requires IsNanoId(id)
    ensures Text.Free(id, "/")
  {
    forall j | 0 <= j ensures !Text.OccursAt(id, "/", j) {
      if j + 1 <= |id| {
        assert id[j..j + 1] == [id[j]];
      }
    }
  }

  /** `req.url.split("/").pop()`. */
  function ThreadIdOf(url: string): (r: string)
    ensures Text.Free(r, "/")
  {
    Text.LastSegment(url, "/")
  }

  /** A tool handed to the model, bound to a thread. */
  datatype BoundTool = BoundTool(name: string, threadId: string)

  /** A JSON value, as `JSON.parse` produces it. */
  datatype JsonValue =
    | JsonNull
    | JsonBool(b: bool)
    | JsonNumber(n: real)
    | JsonString(s: string)
    | JsonArray(items: seq<JsonValue>)
    | JsonObject(fields: seq<(string, JsonValue)>)

  /** JavaScript truthiness of a parsed value: `null`, `false`, `0` and the
      empty string are falsy; every array and object is truthy. */
  predicate JsonTruthy(v: JsonValue)
  {
    match v
    case JsonNull => false
    case JsonBool(b) => b
    case JsonNumber(n) => n != 0.0
    case JsonString(t) => t != ""
    case JsonArray(_) => true
    case JsonObject(_) => true
  }

  /** What `await req.json()` gives: a rejection for a missing body or one
      that is not JSON, otherwise the parsed value. */
  datatype RequestBody = Unparseable | Parsed(value: JsonValue)

  /** The position of the last field named `key`, or -1: `JSON.parse`
      keeps the last of duplicate keys, so that field is the property. */
  function LastFieldIndex(fields: seq<(string, JsonValue)>, key: string): (r: int)
    ensures -1 <= r < |fields|
    ensures r >= 0 ==> fields[r].0 == key
    ensures forall j :: r < j < |fields| ==> fields[j].0 != key
  {
    if |fields| == 0 then -1
    else if fields[|fields| - 1].0 == key then |fields| - 1
    else LastFieldIndex(fields[..|fields| - 1], key)
  }

  /** The `messages` the handler destructures from the body, when it is a
      list `convertToCoreMessages` can iterate: only an object whose
      `messages` property is an array has one. Every other value gives
      `undefined` or a non-array, on which the conversion throws. */
  function MessagesOf(v: JsonValue): (r: Option<seq<JsonValue>>)
    ensures r.Some? <==> v.JsonObject? && LastFieldIndex(v.fields, "messages") >= 0
                         && v.fields[LastFieldIndex(v.fields, "messages")].1.JsonArray?
    ensures r.Some? ==> JsonArray(r.value) == v.fields[LastFieldIndex(v.fields, "messages")].1
  {
    match v
    case JsonObject(fields) =>
      var i := LastFieldIndex(fields, "messages");
      if i >= 0 && fields[i].1.JsonArray? then Some(fields[i].1.items) else None
    case _ => None
  }

  /** The body the chat library sends: a JSON object holding `messages`. */
  const HookBody: RequestBody := Parsed(JsonObject([("messages", JsonArray([]))]))

  /** The handler's answer: a rejected promise (the `SyntaxError` of
      `req.json()`, or the `TypeError` of converting messages that are not
      a list), a JSON error with its HTTP status, or a model stream over
      the body's messages with the tools it may call. */
  datatype ChatResponse =
    | Rejected
    | JsonError(status: nat, error: string)
    | Streamed(messages: seq<JsonValue>, tools: seq<BoundTool>)

  const NoBodyMessage: string := "No body"

  /** `handleChat(req)`: an unparseable body rejects before anything else;
      a falsy parsed body or an empty last URL segment gives 404 before any
      model call; a truthy body without a `messages` array rejects in
      `convertToCoreMessages`; otherwise the model streams over those
      messages with the knowledge-base search and the document tool, both
      bound to the segment. */
  function HandleChat(url: string, body: RequestBody): (r: ChatResponse)
    ensures r.Rejected? <==> body.Unparseable? ||
                             (JsonTruthy(body.value) && ThreadIdOf(url) != "" && MessagesOf(body.value).None?)
    ensures r.JsonError? <==> body.Parsed? && (!JsonTruthy(body.value) || ThreadIdOf(url) == "")
    ensures r.JsonError? ==> r == JsonError(404, NoBodyMessage)
    ensures r.Streamed? ==> body.Parsed? && MessagesOf(body.value) == Some(r.messages)
    ensures r.Streamed? ==> r.tools == [BoundTool("getRelavantInformation", ThreadIdOf(url)), BoundTool("saveDocument", ThreadIdOf(url))]
  {
    match body
    case Unparseable => Rejected
    case Parsed(v) =>
      var threadId := ThreadIdOf(url);
      if !JsonTruthy(v) || threadId == "" then JsonError(404, NoBodyMessage)
      else match MessagesOf(v)
        case None => Rejected
        case Some(messages) =>
          Streamed(messages, [BoundTool("getRelavantInformation", threadId), BoundTool("saveDocument", threadId)])
  }

  /** The 404 is reachable only through a body that parses to a falsy
      value: the body the hook sends always passes the test. */
  lemma NoBodyOnlyForFalsyJson(url: string, v: JsonValue)
    ensures HandleChat(url, Parsed(v)) == JsonError(404, NoBodyMessage) <==> !JsonTruthy(v) || ThreadIdOf(url) == ""
    ensures HandleChat(url, HookBody).Streamed? <==> ThreadIdOf(url) != ""
  {
  }

  /** Truthy bodies that pass the 404 test and still reject: an empty
      object, an array, `true`, and an object whose later duplicate
      `messages` key overrides the array. */
  lemma TruthyWithoutMessagesRejects(url: string)
    requires ThreadIdOf(url) != ""
    ensures HandleChat(url, Parsed(JsonObject([]))) == Rejected
    ensures HandleChat(url, Parsed(JsonArray([]))) == Rejected
    ensures HandleChat(url, Parsed(JsonBool(true))) == Rejected
    ensures HandleChat(url, Parsed(JsonObject([("messages", JsonArray([])), ("messages", JsonNull)]))) == Rejected
  {
  }

  /** The URL the hook builds gives its own thread id back, for every id
      `nanoid` can produce. */
  lemma ThreadIdRoundTrip(threadId: string)
    requires IsNanoId(threadId)
    ensures ThreadIdOf(ChatUrl(threadId)) == threadId
  {
    NanoIdHasNoSlash(threadId);
    assert ChatUrl(threadId) == "/chat" + "/" + threadId;
    Text.LastSegmentAfter("/chat", "/", threadId);
  }

  /** So the tools search and write the hook's own thread, and besides a
      falsy body only an empty thread id makes the handler answer 404. */
  lemma ToolsBoundToHookThread(threadId: string, body: RequestBody)
    requires IsNanoId(threadId)
    ensures var r := HandleChat(ChatUrl(threadId), body);
            && (r.Rejected? <==> body.Unparseable? ||
                                 (JsonTruthy(body.value) && threadId != "" && MessagesOf(body.value).None?))
            && (r.JsonError? <==> body.Parsed? && (!JsonTruthy(body.value) || threadId == ""))
            && (r.Streamed? ==> forall t :: t in r.tools ==> t.threadId == threadId)
  {
    ThreadIdRoundTrip(threadId);
  }

  /** `getRelavantInformationTool(threadId).execute({queries})`. */
  function SearchTool(t: BoundTool, queries: seq<string>, rows: seq<Embedding>, score: (string, Embedding) -> real,
                      threshold: real, k: nat): seq<Embeddings.Match>
  {
    KnowledgeSearch.SearchKnowledgeBase(queries, rows, score, t.threadId, threshold, k)
  }

  /** Every match the search tool of a hook's stream returns is a row of
      that hook's thread. */
  lemma SearchStaysInThread(threadId: string, queries: seq<string>, rows: seq<Embedding>,
                            score: (string, Embedding) -> real, threshold: real, k: nat, m: Embeddings.Match)
    requires IsNanoId(threadId)
    requires HandleChat(ChatUrl(threadId), HookBody).Streamed?
    requires m in SearchTool(HandleChat(ChatUrl(threadId), HookBody).tools[0], queries, rows, score, threshold, k)
    ensures exists i :: 0 <= i < |rows| && rows[i].threadId == threadId && m.embeddingId == rows[i].id
  {
    ThreadIdRoundTrip(threadId);
    KnowledgeSearch.SearchScoped(queries, rows, score, threadId, threshold, k, m);
  }

  /** `saveDocumentTool(threadId).execute(...)`, like the older hook's
      `addResourceTool(threadId).execute(...)`, only logs its arguments. */
  function SaveDocumentTool(db: Db, t: BoundTool, title: string, content: string, fileType: string): (r: Db)
    ensures r == db
  {
    db
  }

  /** What the file upload flow records about one uploaded file. */
  datatype FileInfo = FileInfo(name: string, size: nat, fileType: string)

  /** A tool call's result: the upload flow's `addResource` result, or the
      result of a call the model made, which is not modelled further. */
  datatype ToolResult = AddResourceResult(success: bool, fileId: string, file: FileInfo, preview: string) | OtherResult

  datatype ToolInvocation = ToolInvocation(state: string, toolCallId: string, toolName: string, result: ToolResult)

  /** A message of the chat library. */
  datatype ChatMessage = ChatMessage(id: string, role: string, content: string, toolInvocations: Option<seq<ToolInvocation>>)

  /** The row `saveMessage` is given for a chat message: `JSON.stringify`
      of an absent invocation list is `undefined`, so the column stays empty. */
  function ToParams(m: ChatMessage, threadId: string, stringify: seq<ToolInvocation> -> string): (p: NewMessageParams)
    ensures p.role == m.role && p.content == m.content && p.threadId == threadId
    ensures p.toolInvocations.Some? <==> m.toolInvocations.Some?
  {
    var json := if m.toolInvocations.Some? then Some(stringify(m.toolInvocations.value)) else None;
    NewMessageParams(m.role, m.content, json, threadId)
  }

  /** The hook's `append(message)`: the message is saved under the hook's
      thread, and only once the save has gone through is it handed to the
      chat state; a failed save throws before that. */
  function Append(db: Db, chat: seq<ChatMessage>, m: ChatMessage, threadId: string,
                  stringify: seq<ToolInvocation> -> string, id: string, now: int): (r: Result<(Db, seq<ChatMessage>), StoreError>)
    ensures r.Success? <==> SaveMessage(db, DocumentsGeneration, ToParams(m, threadId, stringify), id, now).Success?
    ensures r.Failure? ==> r == Failure(SaveMessage(db, DocumentsGeneration, ToParams(m, threadId, stringify), id, now).error)
    ensures r.Success? ==>
              && r.value.0 == SaveMessage(db, DocumentsGeneration, ToParams(m, threadId, stringify), id, now).value.0
              && r.value.1 == chat + [m]
  {
    match SaveMessage(db, DocumentsGeneration, ToParams(m, threadId, stringify), id, now)
    case Failure(e) => Failure(e)
    case Success(saved) => Success((saved.0, chat + [m]))
  }

  /** After an append, the thread's stored messages end with the appended
      message and no other thread's messages change. */
  lemma AppendPersists(db: Db, chat: seq<ChatMessage>, m: ChatMessage, threadId: string,
                       stringify: seq<ToolInvocation> -> string, id: string, now: int, other: string)
    requires Append(db, chat, m, threadId, stringify, id, now).Success?
    ensures var db' := Append(db, chat, m, threadId, stringify, id, now).value.0;
            var stored := GetMessages(db', threadId);
            && |stored| == |GetMessages(db, threadId)| + 1
            && stored[..|stored| - 1] == GetMessages(db, threadId)
            && stored[|stored| - 1].id == id
            && RoleName(stored[|stored| - 1].role) == m.role
            && stored[|stored| - 1].content == m.content
            && (other != threadId ==> GetMessages(db', other) == GetMessages(db, other))
  {
    var p := ToParams(m, threadId, stringify);
    SaveMessageIsolation(db, DocumentsGeneration, p, id, now, other);
    var (db', saved) := SaveMessage(db, DocumentsGeneration, p, id, now).value;
    var stored := GetMessages(db', threadId);
    assert stored == GetMessages(db, threadId) + [saved];
    assert stored[..|stored| - 1] == GetMessages(db, threadId);
  }

  /** `onFinish(message)`: the finished reply is saved under the hook's
      thread id, whatever the message says. */
  function OnFinish(db: Db, m: ChatMessage, threadId: string, stringify: seq<ToolInvocation> -> string,
                    id: string, now: int): Result<(Db, Message), StoreError>
  {
    SaveMessage(db, DocumentsGeneration, ToParams(m, threadId, stringify), id, now)
  }

  /** A saved reply is the last message of the hook's thread and no other
      thread's messages change. */
  lemma OnFinishPersistsUnderThread(db: Db, m: ChatMessage, threadId: string, stringify: seq<ToolInvocation> -> string,
                                    id: string, now: int, other: string)
    requires OnFinish(db, m, threadId, stringify, id, now).Success?
    ensures var (db', saved) := OnFinish(db, m, threadId, stringify, id, now).value;
            && saved.threadId == threadId && saved.content == m.content
            && GetMessages(db', threadId) == GetMessages(db, threadId) + [saved]
            && (other != threadId ==> GetMessages(db', other) == GetMessages(db, other))
  {
    SaveMessageIsolation(db, DocumentsGeneration, ToParams(m, threadId, stringify), id, now, other);
  }
}

/** The older chat hook (`hooks/useChat.ts`): the handler also needs an API
    key from local storage, the second tool is `addResource`, finished
    replies go through `saveMessage` of `data/messages.ts`, and `append` is
    the chat library's own, which stores nothing. */
module LegacyChatHook {
  import opened Wrappers
  import opened Schema
  import opened Store
  import opened LocalStorage
  import Text
  import opened ChatHook

  const NoApiKeyMessage: string := "No API key"

  /** `handleChat(req)`: a rejection for an unparseable body, then 404
      for a falsy parsed body or a missing thread id, then 500 for a missing
      key, all before any model call; then a rejection in
      `convertToCoreMessages` when the body has no `messages` array. */
  function LegacyHandleChat(url: string, body: RequestBody, storage: Storage): (r: ChatResponse)
    ensures r.Rejected? <==> body.Unparseable? ||
                             (JsonTruthy(body.value) && ThreadIdOf(url) != "" && HasApiKey(storage)
                              && MessagesOf(body.value).None?)
    ensures r == JsonError(404, NoBodyMessage) <==> body.Parsed? && (!JsonTruthy(body.value) || ThreadIdOf(url) == "")
    ensures r == JsonError(500, NoApiKeyMessage) <==>
              body.Parsed? && JsonTruthy(body.value) && ThreadIdOf(url) != "" && !HasApiKey(storage)
    ensures r.Streamed? <==> body.Parsed? && JsonTruthy(body.value) && ThreadIdOf(url) != "" && HasApiKey(storage)
                             && MessagesOf(body.value).Some?
    ensures r.Streamed? ==> MessagesOf(body.value) == Some(r.messages)
    ensures r.Streamed? ==> r.tools == [BoundTool("getRelavantInformation", ThreadIdOf(url)), BoundTool("addResource", ThreadIdOf(url))]
  {
    match body
    case Unparseable => Rejected
    case Parsed(v) =>
      var threadId := ThreadIdOf(url);
      if !JsonTruthy(v) || threadId == "" then JsonError(404, NoBodyMessage)
      else if !HasApiKey(storage) then JsonError(500, NoApiKeyMessage)
      else match MessagesOf(v)
        case None => Rejected
        case Some(messages) =>
          Streamed(messages, [BoundTool("getRelavantInformation", threadId), BoundTool("addResource", threadId)])
  }

  /** The newer handler differs only in not checking for a key and in the
      name of the second tool. */
  lemma HandlersAgreeWithKey(url: string, body: RequestBody, storage: Storage)
    requires HasApiKey(storage)
    ensures HandleChat(url, body).Rejected? <==> LegacyHandleChat(url, body, storage).Rejected?
    ensures HandleChat(url, body).JsonError? <==> LegacyHandleChat(url, body, storage).JsonError?
    ensures HandleChat(url, body).Streamed? ==>
              && LegacyHandleChat(url, body, storage).messages == HandleChat(url, body).messages
              && LegacyHandleChat(url, body, storage).tools[0] == HandleChat(url, body).tools[0]
  {
  }

  /** `onFinish(message)` with the older store: no foreign key from
      messages to threads. */
  function LegacyOnFinish(db: Db, m: ChatMessage, threadId: string, stringify: seq<ToolInvocation> -> string,
                          id: string, now: int): Result<(Db, Message), StoreError>
  {
    SaveMessage(db, LegacyGeneration, ToParams(m, threadId, stringify), id, now)
  }

  /** A saved reply lands under the hook's thread id, even a thread the
      store does not hold, and no other thread's messages change. */
  lemma LegacyOnFinishPersists(db: Db, m: ChatMessage, threadId: string, stringify: seq<ToolInvocation> -> string,
                               id: string, now: int, other: string)
    requires LegacyOnFinish(db, m, threadId, stringify, id, now).Success?
    ensures var (db', saved) := LegacyOnFinish(db, m, threadId, stringify, id, now).value;
            && saved.threadId == threadId && saved.content == m.content
            && GetMessages(db', threadId) == GetMessages(db, threadId) + [saved]
            && (other != threadId ==> GetMessages(db', other) == GetMessages(db, other))
  {
    SaveMessageIsolation(db, LegacyGeneration, ToParams(m, threadId, stringify), id, now, other);
  }

  /** Without the foreign key, a reply saves as long as its fields fit and
      its role is allowed, whether or not the thread exists. */
  lemma LegacyOnFinishIgnoresThreads(db: Db, m: ChatMessage, threadId: string, stringify: seq<ToolInvocation> -> string,
                                     id: string, now: int)
    requires FitsVarchar(id) && FitsVarchar(threadId) && ParseRole(m.role).Some? && id !in MessageIds(db.messages)
    ensures LegacyOnFinish(db, m, threadId, stringify, id, now).Success?
  {
  }
}

=== FILE: chat_input.dfy ===
/** The chat input box (`chat-input.tsx`): how many rows the textarea gets
    for the current text, when a key press submits the form, when the submit
    button is disabled, and what a file selection hands to the upload flow.
    The number of characters that fit on one row is computed from the
    window's pixel widths in floating point; it enters here as a `nat`.
    Line lengths are JavaScript's `length`, in UTF-16 code units. */
module ChatInput {
  import opened Wrappers
  import Text

  /** Pixel height of one textarea row. */
  const LineHeight: nat := 30
  /** The textarea never grows past this many rows. */
  const MaxRows: nat := 10

  /** `Math.ceil(n / d)` for a positive divisor. */
  function CeilDiv(n: nat, d: nat): (r: nat)
    requires d > 0
    ensures r * d >= n
    ensures r > 0 ==> (r - 1) * d < n
  {
    (n + d - 1) / d
  }

  /** The `reduce` over the lines: each line needs `ceil(length / cpl)`
      rows, its length counted in code units. */
  function SumRows(lines: seq<string>, cpl: nat): nat
    requires cpl > 0
    decreases |lines|
  {
    if |lines| == 0 then 0 else CeilDiv(Text.Utf16Length(lines[0]), cpl) + SumRows(lines[1..], cpl)
  }

  /** The rows the text would need: one when nothing fits on a row,
      otherwise the sum over its `\n`-separated lines. */
  function Lines(input: string, cpl: nat): nat
  {
    if cpl == 0 then 1 else SumRows(Text.Split(input, "\n"), cpl)
  }

  /** `Math.min(10, Math.max(1, lines))`. */
  function Rows(input: string, cpl: nat): (r: nat)
    ensures 1 <= r <= MaxRows
    ensures 1 <= Lines(input, cpl) <= MaxRows ==> r == Lines(input, cpl)
    ensures Lines(input, cpl) == 0 ==> r == 1
    ensures Lines(input, cpl) > MaxRows ==> r == MaxRows
  {
    var lines := Lines(input, cpl);
    if lines > MaxRows then MaxRows else if lines < 1 then 1 else lines
  }

  /** The textarea's height in pixels. */
  function Height(input: string, cpl: nat): (r: nat)
    ensures LineHeight <= r <= MaxRows * LineHeight
    ensures r % LineHeight == 0 && r / LineHeight == Rows(input, cpl)
  {
    Rows(input, cpl) * LineHeight
  }

  /** A line without a newline needs `ceil(length / cpl)` rows. */
  lemma LinesOfOneLine(a: string, cpl: nat)
    requires cpl > 0 && Text.Free(a, "\n")
    ensures Lines(a, cpl) == CeilDiv(Text.Utf16Length(a), cpl)
  {
    var parts := Text.Split(a, "\n");
    assert parts == [a];
    assert parts[1..] == [];
    assert SumRows(parts, cpl) == CeilDiv(Text.Utf16Length(a), cpl) + SumRows(parts[1..], cpl);
  }

  /** A newline adds the rows of the line before it to those of the rest. */
  lemma LinesOfNewline(a: string, b: string, cpl: nat)
    requires cpl > 0 && Text.Free(a, "\n")
    ensures Lines(a + "\n" + b, cpl) == CeilDiv(Text.Utf16Length(a), cpl) + Lines(b, cpl)
  {
    Text.SplitAfter(a, "\n", b);
    var parts := [a] + Text.Split(b, "\n");
    assert parts[1..] == Text.Split(b, "\n");
  }

  /** Empty input needs no row, so the textarea shows one. */
  lemma EmptyInputOneRow(cpl: nat)
    ensures Rows("", cpl) == 1
  {
    if cpl > 0 {
      LinesOfOneLine("", cpl);
    }
  }

  /** A single line of more than ten rows' worth of characters, and so of
      at least as many code units, is cut off at ten rows. */
  lemma LongLineClamps(a: string, cpl: nat)
    requires cpl > 0 && Text.Free(a, "\n") && |a| > MaxRows * cpl
    ensures Rows(a, cpl) == MaxRows
  {
    LinesOfOneLine(a, cpl);
    CeilDivAbove(Text.Utf16Length(a), cpl, MaxRows);
  }

  /** More than `m * d` items need more than `m` groups of `d`. */
  lemma CeilDivAbove(n: nat, d: nat, m: nat)
    requires d > 0 && n > m * d
    ensures CeilDiv(n, d) > m
  {
    MulMonotone(CeilDiv(n, d), m, d);
  }

  lemma MulMonotone(a: nat, b: nat, d: nat)
    ensures a <= b ==> a * d <= b * d
  {
  }

  /** What a key press in the textarea does. */
  datatype KeyAction = PassThrough | ClickSubmit

  /** Shift+Enter inserts a newline; Enter outside an IME composition
      clicks the hidden submit button; every other key is left alone. */
  function OnKeyDown(key: string, shift: bool, composing: bool): (r: KeyAction)
    ensures r == ClickSubmit <==> key == "Enter" && !shift && !composing
  {
    if key == "Enter" && shift then PassThrough
    else if key == "Enter" && !composing then ClickSubmit
    else PassThrough
  }

  /** The visible submit button is disabled while a reply streams in and
      while the input is empty. */
  function SubmitDisabled(isLoading: bool, input: string): (r: bool)
    ensures r <==> isLoading || input == ""
  {
    isLoading || |input| <= 0
  }

  /** What `handleFileUpload` does with the file input's selection. */
  datatype FileUpload<F> = FileUpload(upload: Option<seq<F>>, clearInput: bool)

  /** Only the first selected file is uploaded, on its own, and the input
      is cleared afterwards; an empty selection does nothing. */
  function HandleFileUpload<F>(files: seq<F>): (r: FileUpload<F>)
    ensures r.upload.Some? <==> |files| > 0
    ensures r.upload.Some? ==> r.upload.value == [files[0]]
    ensures r.clearInput <==> |files| > 0
  {
    if |files| > 0 then FileUpload(Some([files[0]]), true) else FileUpload(None, false)
  }
}

=== FILE: chat_page.dfy ===
/** The chat page's route functions (`pages/chat/page.tsx`): the form
    `action`, which deletes a document on `DELETE`, and the `loader`, which
    fetches the thread and the usage quota together. */
module ChatPage {
  import opened Wrappers
  import opened Schema
  import opened Store
  import opened DocumentStore
  import opened UsageService
  import ChatContext
  import ChatHook

  datatype RequestMethod = Post | Delete | OtherMethod(name: string)

  /** A form field as `formData.get` returns it. */
  datatype FormValue = Absent | TextValue(text: string) | FileValue

  /** `Response.json({ success: true })`, or `null`. */
  datatype ActionResponse = SuccessResponse | NullResponse

  /** `action`: a `DELETE` with a text `documentId` deletes that document and
      its embeddings; any other `DELETE` and every `POST` change nothing.
      Both answer with success; other methods answer `null`. */
  function Action(db: Db, verb: RequestMethod, documentId: FormValue): (r: (Db, ActionResponse))
  {
    match verb
    case Post => (db, SuccessResponse)
    case Delete =>
      if documentId.TextValue? then (DeleteDocumentById(db, documentId.text), SuccessResponse)
      else (db, SuccessResponse)
    case OtherMethod(_) => (db, NullResponse)
  }

  /** The action's effect on the store and its answer, method by method. */
  lemma ActionSpec(db: Db, verb: RequestMethod, documentId: FormValue)
    ensures var (db', resp) := Action(db, verb, documentId);
            && (resp == SuccessResponse <==> verb.Post? || verb.Delete?)
            && (db' != db ==> verb.Delete? && documentId.TextValue?)
            && (verb.Delete? && documentId.TextValue? ==>
                  && documentId.text !in DocumentIds(db'.documents)
                  && (forall e :: e in db'.embeddings <==> e in db.embeddings && e.parentId != Some(documentId.text))
                  && (forall d :: d in db'.documents <==> d in db.documents && d.id != documentId.text)
                  && db'.threads == db.threads && db'.messages == db.messages)
  {
  }

  /** What the loader returns. */
  datatype LoaderResult =
    | NoThreadParam                  // `{ messages: [] }`
    | LoadFailed(error: string)      // the usage request rejected `Promise.all`
    | Redirect(path: string)
    | Loaded(thread: Thread, usage: Usage)

  /** `loader`: without a thread id in the route it returns no messages.
      Otherwise it asks for the thread (through `services/threads/service.ts`)
      and the quota at once; a failed quota request rejects the whole load,
      a missing thread redirects to the start page. */
  function Loader(db: Db, threadId: Option<string>, idToken: Option<string>, response: FetchResponse): LoaderResult
  {
    if threadId.None? || threadId.value == "" then NoThreadParam
    else
      var usage := GetUsage(idToken, response);
      var thread := GetThreadById(db, threadId.value);
      if usage.Failure? then LoadFailed(usage.error)
      else if thread.None? then Redirect("/")
      else Loaded(thread.value, usage.value)
  }

  /** The loader's cases: a route without a thread id loads nothing, an
      unknown thread redirects to "/" unless the quota request failed, and
      a loaded thread is the stored thread with that id. */
  lemma LoaderSpec(db: Db, threadId: Option<string>, idToken: Option<string>, response: FetchResponse)
    ensures var r := Loader(db, threadId, idToken, response);
            && (r == NoThreadParam <==> threadId.None? || threadId.value == "")
            && (r.LoadFailed? ==> idToken.Some? && !response.ok && r.error == FetchFailedMessage)
            && (r.Redirect? <==> threadId.Some? && threadId.value != "" && GetUsage(idToken, response).Success?
                                 && !DoesThreadExist(db, threadId.value))
            && (r.Redirect? ==> r.path == "/")
            && (r.Loaded? ==> r.thread in db.threads && r.thread.id == threadId.value)
            && (r.Loaded? && idToken.None? ==> IsZero(r.usage))
  {
  }

  /** The provider props `ChatPage` renders with: the quota and the thread
      the query returned, and no `initialMessages`. */
  function PageProviderProps(thread: Thread): ChatContext.ProviderProps
  {
    ChatContext.ProviderProps(None, thread.id)
  }

  /** So rendering the chat page's provider throws, for every thread: the
      pending-message effect never runs from this page. */
  lemma PageRenderThrows(thread: Thread)
    ensures ChatContext.RenderProvider(PageProviderProps(thread)) == ChatContext.RenderThrows
  {
  }

  /** The props the page evidently means to pass: the provider's declared
      `initialMessages`, the thread's messages as the chat library holds
      them. */
  function IntendedProviderProps(thread: Thread, messages: seq<ChatHook.ChatMessage>): ChatContext.ProviderProps
  {
    ChatContext.ProviderProps(Some(messages), thread.id)
  }

  /** With those props the provider renders, and its effect sees exactly
      the thread's messages. */
  lemma IntendedPageRenders(thread: Thread, messages: seq<ChatHook.ChatMessage>)
    ensures ChatContext.RenderProvider(IntendedProviderProps(thread, messages)) == ChatContext.Rendered(|messages|)
  {
  }
}

=== FILE: document_store.dfy ===
/** Documents (resources in the older code) and their embeddings: insertion
    with the table constraints, the ingestion pipeline of `saveDocument` /
    `createResource`, deletion with its embeddings, and the per-thread
    listing. */
module DocumentStore {
  import opened Wrappers
  import opened Seqs
  import opened Schema
  import opened Embeddings
  import opened Store

  /** The message returned when a step throws an `Error` with an empty message. */
  const FallbackError: string := "Error, please try again."

  /** The `catch` branch: the error's message, or the fallback when it is empty. */
  function ErrorText(message: string): (r: string)
    ensures |r| > 0
    ensures |message| > 0 ==> r == message
    ensures |message| == 0 ==> r == FallbackError
  {
    if |message| > 0 then message else FallbackError
  }

  /** `insert(documents).values(fields).returning()` with a generated id. */
  function InsertDocument(db: Db, f: DocumentFields, id: string, now: int): (r: Result<(Db, Document), StoreError>)
    ensures r.Success? <==> FitsVarchar(id) && FitsVarchar(f.threadId) && id !in DocumentIds(db.documents)
    ensures r.Success? ==>
              && r.value.1 == Document(id, f.title, f.content, f.fileType, f.threadId, now, now)
              && r.value.0 == db.(documents := db.documents + [r.value.1])
  {
    if !FitsVarchar(id) then Failure(ValueTooLong("id"))
    else if !FitsVarchar(f.threadId) then Failure(ValueTooLong("thread_id"))
    else if id in DocumentIds(db.documents) then Failure(DuplicateKey("documents"))
    else
      var d := Document(id, f.title, f.content, f.fileType, f.threadId, now, now);
      Success((db.(documents := db.documents + [d]), d))
  }

  /** The values of one embedding insert. `content` is absent when the
      provider returned more vectors than there were chunks. */
  datatype NewEmbedding = NewEmbedding(id: string, parentId: Option<string>, threadId: string,
                                       content: Option<string>, vector: seq<real>)

  /** The row constraints of an embedding insert, apart from the keys. */
  predicate EmbeddingValuesOk(n: NewEmbedding, g: Generation)
  {
    && FitsVarchar(n.id) && FitsVarchar(n.threadId)
    && (n.parentId.Some? ==> FitsVarchar(n.parentId.value))
    && n.content.Some?
    && (g.parentRequired ==> n.parentId.Some?)
    && |n.vector| == EmbeddingDimensions
  }

  function EmbeddingRow(n: NewEmbedding, now: int): Embedding
  {
    Embedding(n.id, n.parentId, n.threadId, n.content.GetOr(""), n.vector, now, now)
  }

  /** `insert(embeddings).values(…)`: fails on a too-long key, a missing
      content or parent, a vector of the wrong size, a taken id or a parent
      that is not a stored document. */
  function InsertEmbedding(db: Db, g: Generation, n: NewEmbedding, now: int): (r: Result<Db, StoreError>)
    ensures r.Success? <==>
              && EmbeddingValuesOk(n, g)
              && n.id !in EmbeddingIds(db.embeddings)
              && (n.parentId.Some? ==> n.parentId.value in DocumentIds(db.documents))
    ensures r.Success? ==> r.value == db.(embeddings := db.embeddings + [EmbeddingRow(n, now)])
    ensures (&& n.content.None? && FitsVarchar(n.id) && FitsVarchar(n.threadId)
             && (n.parentId.Some? ==> FitsVarchar(n.parentId.value)))
            ==> r == Failure(NotNullViolation("content"))
  {
    if !FitsVarchar(n.id) then Failure(ValueTooLong("id"))
    else if !FitsVarchar(n.threadId) then Failure(ValueTooLong("thread_id"))
    else if n.parentId.Some? && !FitsVarchar(n.parentId.value) then Failure(ValueTooLong("document_id"))
    else if n.content.None? then Failure(NotNullViolation("content"))
    else if g.parentRequired && n.parentId.None? then Failure(NotNullViolation("document_id"))
    else if |n.vector| != EmbeddingDimensions then Failure(WrongDimensions(|n.vector|))
    else if n.id in EmbeddingIds(db.embeddings) then Failure(DuplicateKey("embeddings"))
    else if n.parentId.Some? && n.parentId.value !in DocumentIds(db.documents) then Failure(ForeignKeyViolation("embeddings"))
    else Success(db.(embeddings := db.embeddings + [EmbeddingRow(n, now)]))
  }

  /** `Promise.all(embeddings.map(insert))`, taken one insert after another:
      every insert is attempted, those that succeed stay, and the first
      failure, if any, is what the whole call rejects with. */
  function InsertEmbeddings(db: Db, g: Generation, ns: seq<NewEmbedding>, now: int): (r: (Db, Option<StoreError>))
    ensures r.0.threads == db.threads && r.0.messages == db.messages && r.0.documents == db.documents
    ensures db.embeddings <= r.0.embeddings
    ensures |r.0.embeddings| <= |db.embeddings| + |ns|
    decreases |ns|
  {
    if |ns| == 0 then (db, None)
    else
      var first := InsertEmbedding(db, g, ns[0], now);
      var db1 := if first.Success? then first.value else db;
      var rest := InsertEmbeddings(db1, g, ns[1..], now);
      (rest.0, if first.Failure? then Some(first.error) else rest.1)
  }

  /** The rows of a batch whose every insert goes through. */
  function EmbeddingRows(ns: seq<NewEmbedding>, now: int): (r: seq<Embedding>)
    ensures |r| == |ns|
    ensures forall i :: 0 <= i < |ns| ==> r[i] == EmbeddingRow(ns[i], now)
  {
    seq(|ns|, i requires 0 <= i < |ns| => EmbeddingRow(ns[i], now))
  }

  /** Each row of the batch satisfies the column constraints, its parent
      is stored, and the ids are distinct and new. */
  ghost predicate BatchOk(db: Db, g: Generation, ns: seq<NewEmbedding>)
  {
    && (forall i :: 0 <= i < |ns| ==> EmbeddingValuesOk(ns[i], g))
    && (forall i :: 0 <= i < |ns| ==> ns[i].parentId.Some? ==> ns[i].parentId.value in DocumentIds(db.documents))
    && (forall i :: 0 <= i < |ns| ==> ns[i].id !in EmbeddingIds(db.embeddings))
    && (forall i, j :: 0 <= i < j < |ns| ==> ns[i].id != ns[j].id)
  }

  /** Every insert of a batch goes through, and the call resolves, when the
      batch is acceptable as a whole. */
  lemma {:induction false} InsertEmbeddingsAllOk(db: Db, g: Generation, ns: seq<NewEmbedding>, now: int)
    requires BatchOk(db, g, ns)
    ensures InsertEmbeddings(db, g, ns, now) == (db.(embeddings := db.embeddings + EmbeddingRows(ns, now)), None)
    decreases |ns|
  {
    if |ns| == 0 {
      assert db.embeddings + EmbeddingRows(ns, now) == db.embeddings;
    } else {
      var db1 := db.(embeddings := db.embeddings + [EmbeddingRow(ns[0], now)]);
      var tail := ns[1..];
      InsertEmbeddingsFirstOk(db, g, ns, now);
      BatchOkTail(db, g, ns, now);
      InsertEmbeddingsAllOk(db1, g, tail, now);
      RowsCons(ns, now);
      AppendAssoc(db.embeddings, [EmbeddingRow(ns[0], now)], EmbeddingRows(tail, now));
      assert db1.embeddings + EmbeddingRows(tail, now) == db.embeddings + EmbeddingRows(ns, now);
    }
  }

  lemma BatchOkTail(db: Db, g: Generation, ns: seq<NewEmbedding>, now: int)
    requires |ns| > 0 && BatchOk(db, g, ns)
    ensures BatchOk(db.(embeddings := db.embeddings + [EmbeddingRow(ns[0], now)]), g, ns[1..])
  {
    EmbeddingIdsAppend(db.embeddings, EmbeddingRow(ns[0], now));
    assert forall i :: 0 <= i < |ns| - 1 ==> ns[1..][i] == ns[i + 1];
  }

  /** A batch whose first insert goes through continues from the store with
      that row added. */
  lemma InsertEmbeddingsFirstOk(db: Db, g: Generation, ns: seq<NewEmbedding>, now: int)
    requires |ns| > 0 && BatchOk(db, g, ns)
    ensures InsertEmbeddings(db, g, ns, now)
            == InsertEmbeddings(db.(embeddings := db.embeddings + [EmbeddingRow(ns[0], now)]), g, ns[1..], now)
  {
  }

  lemma EmbeddingIdsAppend(es: seq<Embedding>, e: Embedding)
    ensures EmbeddingIds(es + [e]) == EmbeddingIds(es) + {e.id}
  {
    assert forall x :: x in es + [e] <==> x in es || x == e;
  }

  lemma RowsCons(ns: seq<NewEmbedding>, now: int)
    requires |ns| > 0
    ensures EmbeddingRows(ns, now) == [EmbeddingRow(ns[0], now)] + EmbeddingRows(ns[1..], now)
  {
  }

  /** The inserts of one ingested document: chunk `i` with its vector, the
      new document as parent, the document's thread, and a generated id. */
  function ChunkRows(pairs: seq<EmbeddedChunk>, docId: string, threadId: string, embeddingId: nat -> string): (r: seq<NewEmbedding>)
    ensures |r| == |pairs|
    ensures forall i :: 0 <= i < |r| ==>
              r[i] == NewEmbedding(embeddingId(i), Some(docId), threadId, pairs[i].content, pairs[i].embedding)
  {
    seq(|pairs|, i requires 0 <= i < |pairs| =>
      NewEmbedding(embeddingId(i), Some(docId), threadId, pairs[i].content, pairs[i].embedding))
  }

  /** `saveDocument(input)` / `createResource(input)`. The chunking of the
      content is the input `chunks`; the provider's answer for them is
      `embedded` (its vectors, or the message it failed with); ids and the
      time are supplied. The result is the store afterwards and the string
      the call returns. */
  function Ingest(db: Db, g: Generation, p: NewDocumentParams, chunks: seq<string>, docId: string,
                  embedded: Result<seq<seq<real>>, string>, embeddingId: nat -> string, now: int): (r: (Db, string))
    ensures r.1 == g.created || |r.1| > 0
    ensures r.0.threads == db.threads && r.0.messages == db.messages
    ensures db.documents <= r.0.documents && |r.0.documents| <= |db.documents| + 1
    ensures db.embeddings <= r.0.embeddings
  {
    match ParseDocumentParams(p)
    case Failure(e) => (db, ErrorText(ErrorMessage(e)))
    case Success(f) =>
      match InsertDocument(db, f, docId, now)
      case Failure(e) => (db, ErrorText(ErrorMessage(e)))
      case Success(inserted) =>
        var db1 := inserted.0;
        match embedded
        case Failure(message) => (db1, ErrorText(message))
        case Success(vectors) =>
          var rows := ChunkRows(GenerateEmbeddings(chunks, vectors), docId, f.threadId, embeddingId);
          var (db2, err) := InsertEmbeddings(db1, g, rows, now);
          if err.Some? then (db2, ErrorText(ErrorMessage(err.value))) else (db2, g.created)
  }

  /** Input that fails validation writes nothing and reports which
      fields are missing. */
  lemma IngestInvalidInput(db: Db, g: Generation, p: NewDocumentParams, chunks: seq<string>, docId: string,
                           embedded: Result<seq<seq<real>>, string>, embeddingId: nat -> string, now: int)
    requires ParseDocumentParams(p).Failure?
    ensures Ingest(db, g, p, chunks, docId, embedded, embeddingId, now)
            == (db, ErrorMessage(ValidationFailed(MissingFields(p))))
  {
  }

  /** The document is written before the provider is asked: when embedding
      fails, the document stays, without embeddings, and the provider's
      message (or the fallback) is returned. */
  lemma IngestNotAtomic(db: Db, g: Generation, p: NewDocumentParams, chunks: seq<string>, docId: string,
                        message: string, embeddingId: nat -> string, now: int)
    requires ParseDocumentParams(p).Success?
    requires FitsVarchar(docId) && FitsVarchar(p.threadId.value) && docId !in DocumentIds(db.documents)
    ensures var f := ParseDocumentParams(p).value;
            var r := Ingest(db, g, p, chunks, docId, Failure(message), embeddingId, now);
            && r.0.documents == db.documents + [Document(docId, f.title, f.content, f.fileType, f.threadId, now, now)]
            && r.0.embeddings == db.embeddings
            && r.1 == ErrorText(message)
  {
  }

  /** The conditions under which ingestion goes through: valid input, a new
      document id, one vector of 1536 components per chunk, and distinct,
      new embedding ids. */
  ghost predicate IngestOk(db: Db, p: NewDocumentParams, chunks: seq<string>, docId: string,
                           vectors: seq<seq<real>>, embeddingId: nat -> string)
  {
    && ParseDocumentParams(p).Success?
    && FitsVarchar(docId) && FitsVarchar(p.threadId.value) && docId !in DocumentIds(db.documents)
    && |vectors| == |chunks|
    && (forall i :: 0 <= i < |vectors| ==> |vectors[i]| == EmbeddingDimensions)
    && (forall i :: 0 <= i < |vectors| ==> FitsVarchar(embeddingId(i)) && embeddingId(i) !in EmbeddingIds(db.embeddings))
    && (forall i, j :: 0 <= i < j < |vectors| ==> embeddingId(i) != embeddingId(j))
  }

  /** The successful ingestion: one document row with the parsed fields,
      then one embedding row per chunk, in chunk order, each pointing at the
      new document and carrying the document's thread and the chunk text;
      the generation's success message is returned. */
  lemma IngestHappyPath(db: Db, g: Generation, p: NewDocumentParams, chunks: seq<string>, docId: string,
                        vectors: seq<seq<real>>, embeddingId: nat -> string, now: int)
    requires IngestOk(db, p, chunks, docId, vectors, embeddingId)
    ensures var f := ParseDocumentParams(p).value;
            var r := Ingest(db, g, p, chunks, docId, Success(vectors), embeddingId, now);
            && r.1 == g.created
            && r.0.documents == db.documents + [Document(docId, f.title, f.content, f.fileType, f.threadId, now, now)]
            && |r.0.embeddings| == |db.embeddings| + |chunks|
            && r.0.embeddings[..|db.embeddings|] == db.embeddings
            && forall i :: 0 <= i < |chunks| ==>
                 r.0.embeddings[|db.embeddings| + i]
                 == Embedding(embeddingId(i), Some(docId), f.threadId, chunks[i], vectors[i], now, now)
  {
    var f := ParseDocumentParams(p).value;
    var db1 := InsertDocument(db, f, docId, now).value.0;
    var pairs := GenerateEmbeddings(chunks, vectors);
    var rows := ChunkRows(pairs, docId, f.threadId, embeddingId);
    assert docId in DocumentIds(db1.documents) by {
      assert db1.documents[|db.documents|].id == docId;
    }
    InsertEmbeddingsAllOk(db1, g, rows, now);
    var es := db1.embeddings + EmbeddingRows(rows, now);
    assert es[..|db.embeddings|] == db.embeddings;
  }

  /** Ingestion keeps the store valid, whichever step fails. */
  lemma IngestValid(db: Db, g: Generation, p: NewDocumentParams, chunks: seq<string>, docId: string,
                    embedded: Result<seq<seq<real>>, string>, embeddingId: nat -> string, now: int)
    requires Valid(db, g)
    ensures Valid(Ingest(db, g, p, chunks, docId, embedded, embeddingId, now).0, g)
  {
    if ParseDocumentParams(p).Success? {
      var f := ParseDocumentParams(p).value;
      if InsertDocument(db, f, docId, now).Success? {
        var db1 := InsertDocument(db, f, docId, now).value.0;
        InsertDocumentValid(db, g, f, docId, now);
        if embedded.Success? {
          var rows := ChunkRows(GenerateEmbeddings(chunks, embedded.value), docId, f.threadId, embeddingId);
          InsertEmbeddingsValid(db1, g, rows, now);
        }
      }
    }
  }

  lemma InsertDocumentValid(db: Db, g: Generation, f: DocumentFields, id: string, now: int)
    requires Valid(db, g) && InsertDocument(db, f, id, now).Success?
    ensures Valid(InsertDocument(db, f, id, now).value.0, g)
  {
    var (db', d) := InsertDocument(db, f, id, now).value;
    AppendDistinct(db.documents, d, DocumentKey);
    forall e | e in db'.embeddings ensures ParentOk(e, db'.documents, g) {
      assert ParentOk(e, db.documents, g);
    }
  }

  lemma InsertEmbeddingValid(db: Db, g: Generation, n: NewEmbedding, now: int)
    requires Valid(db, g) && InsertEmbedding(db, g, n, now).Success?
    ensures Valid(InsertEmbedding(db, g, n, now).value, g)
  {
    var row := EmbeddingRow(n, now);
    AppendDistinct(db.embeddings, row, EmbeddingKey);
  }

  lemma {:induction false} InsertEmbeddingsValid(db: Db, g: Generation, ns: seq<NewEmbedding>, now: int)
    requires Valid(db, g)
    ensures Valid(InsertEmbeddings(db, g, ns, now).0, g)
    decreases |ns|
  {
    if |ns| > 0 {
      var first := InsertEmbedding(db, g, ns[0], now);
      if first.Success? {
        InsertEmbeddingValid(db, g, ns[0], now);
        InsertEmbeddingsValid(first.value, g, ns[1..], now);
      } else {
        InsertEmbeddingsValid(db, g, ns[1..], now);
      }
    }
  }

  /** `deleteDocumentById(id)` / `deleteResourceById(id)`: the row goes, and
      so does every embedding whose parent it was. */
  function DeleteDocumentById(db: Db, id: string): (r: Db)
    ensures forall d :: d in r.documents <==> d in db.documents && d.id != id
    ensures forall e :: e in r.embeddings <==> e in db.embeddings && e.parentId != Some(id)
    ensures id !in DocumentIds(r.documents)
    ensures r.threads == db.threads && r.messages == db.messages
  {
    var documents := Filter(db.documents, (d: Document) => d.id != id);
    var embeddings := Filter(db.embeddings, (e: Embedding) => e.parentId != Some(id));
    db.(documents := documents, embeddings := embeddings)
  }

  /** Deleting a document leaves no embedding pointing at it, so the store
      stays valid. */
  lemma DeleteDocumentValid(db: Db, g: Generation, id: string)
    requires Valid(db, g)
    ensures Valid(DeleteDocumentById(db, id), g)
  {
    var r := DeleteDocumentById(db, id);
    FilterPreservesDistinct(db.documents, (d: Document) => d.id != id, DocumentKey);
    FilterPreservesDistinct(db.embeddings, (e: Embedding) => e.parentId != Some(id), EmbeddingKey);
    forall e | e in r.embeddings ensures ParentOk(e, r.documents, g) {
      if e.parentId.Some? {
        var d :| d in db.documents && d.id == e.parentId.value;
        assert d in r.documents;
      }
    }
  }

  function DocumentCreatedAt(d: Document): real { d.createdAt as real }

  function InThread(threadId: string): Document -> bool
  {
    (d: Document) => d.threadId == threadId
  }

  /** `getDocumentsById(threadId)` / `getResources(threadId)`: the thread's
      documents, newest first. */
  function GetDocumentsByThread(db: Db, threadId: string): (r: seq<Document>)
    ensures multiset(r) == multiset(Filter(db.documents, InThread(threadId)))
    ensures forall i, j :: 0 <= i < j < |r| ==> r[i].createdAt >= r[j].createdAt
  {
    var own := Filter(db.documents, InThread(threadId));
    var r := SortDesc(own, DocumentCreatedAt);
    assert forall i, j :: 0 <= i < j < |r| ==> DocumentCreatedAt(r[i]) >= DocumentCreatedAt(r[j]);
    r
  }

  /** The listing holds exactly the thread's documents. */
  lemma GetDocumentsByThreadMembers(db: Db, threadId: string, d: Document)
    ensures d in GetDocumentsByThread(db, threadId) <==> d in db.documents && d.threadId == threadId
  {
    var r := GetDocumentsByThread(db, threadId);
    assert d in r <==> d in multiset(r);
    assert d in Filter(db.documents, InThread(threadId)) <==> d in multiset(Filter(db.documents, InThread(threadId)));
  }
}

=== FILE: embeddings.dfy ===
/** The retrieval side of the knowledge base: pairing provider vectors with
    the texts they embed, and the thread-scoped similarity search
    `findRelevantContent`. The similarity of a stored row to a query is an
    opaque `real` supplied by the caller in place of `1 - cosine_distance`. */
module Embeddings {
  import opened Wrappers
  import opened Seqs
  import opened Schema

  /** One element of `generateEmbeddings`' result. `content` is `None` where
      the provider returned more vectors than there were texts. */
  datatype EmbeddedChunk = EmbeddedChunk(embedding: seq<real>, content: Option<string>)

  /** `generateEmbeddings`: one pair per returned vector, pair `i` carrying
      the `i`-th text. */
  function GenerateEmbeddings(documents: seq<string>, vectors: seq<seq<real>>): (r: seq<EmbeddedChunk>)
    ensures |r| == |vectors|
    ensures forall i :: 0 <= i < |r| ==> r[i].embedding == vectors[i]
    ensures forall i :: 0 <= i < |r| && i < |documents| ==> r[i].content == Some(documents[i])
    ensures forall i :: |documents| <= i < |r| ==> r[i].content == None
  {
    seq(|vectors|, i requires 0 <= i < |vectors| =>
      EmbeddedChunk(vectors[i], if i < |documents| then Some(documents[i]) else None))
  }

  /** When the provider returns exactly one vector per text, every pair
      carries its text and the texts come back in input order. */
  lemma GenerateEmbeddingsPairsInOrder(documents: seq<string>, vectors: seq<seq<real>>)
    requires |vectors| == |documents|
    ensures forall i :: 0 <= i < |documents| ==> GenerateEmbeddings(documents, vectors)[i].content.Some?
    ensures Contents(GenerateEmbeddings(documents, vectors)) == documents
  {
    var r := GenerateEmbeddings(documents, vectors);
    ContentsPointwise(r);
  }

  /** `generateEmbedding`: the provider's vector for one text, paired with
      that text. */
  function GenerateEmbedding(document: string, vector: seq<real>): (r: EmbeddedChunk)
    ensures r.content == Some(document) && r.embedding == vector
  {
    EmbeddedChunk(vector, Some(document))
  }

  /** Embedding one text alone gives the same pair as embedding it in a
      batch of one. */
  lemma GenerateEmbeddingIsBatchOfOne(document: string, vector: seq<real>)
    ensures GenerateEmbeddings([document], [vector]) == [GenerateEmbedding(document, vector)]
  {
  }

  /** The texts carried by the pairs, missing ones left out. */
  function Contents(cs: seq<EmbeddedChunk>): seq<string>
  {
    if |cs| == 0 then []
    else (if cs[0].content.Some? then [cs[0].content.value] else []) + Contents(cs[1..])
  }

  lemma {:induction false} ContentsPointwise(cs: seq<EmbeddedChunk>)
    requires forall i :: 0 <= i < |cs| ==> cs[i].content.Some?
    ensures |Contents(cs)| == |cs|
    ensures forall i :: 0 <= i < |cs| ==> Contents(cs)[i] == cs[i].content.value
    decreases |cs|
  {
    if |cs| > 0 {
      ContentsPointwise(cs[1..]);
      assert forall i :: 1 <= i < |cs| ==> cs[1..][i - 1] == cs[i];
    }
  }

  /** One row of the search result: the chunk text (selected as `name`), its
      similarity to the query, and the embedding's id. */
  datatype Match = Match(name: string, similarity: real, embeddingId: string)

  function ToMatch(e: Embedding, score: Embedding -> real): Match
  {
    Match(e.content, score(e), e.id)
  }

  function SimilarityKey(m: Match): real
  {
    m.similarity
  }

  /** The `WHERE` clause: the row belongs to the thread and its similarity is
      strictly above the threshold. */
  predicate Qualifies(e: Embedding, score: Embedding -> real, threadId: string, threshold: real)
  {
    e.threadId == threadId && score(e) > threshold
  }

  /** The qualifying rows of the table as matches, in table order. */
  function Candidates(rows: seq<Embedding>, score: Embedding -> real, threadId: string, threshold: real): (r: seq<Match>)
    ensures |r| <= |rows|
    ensures forall i :: 0 <= i < |r| ==> r[i].similarity > threshold
    decreases |rows|
  {
    if |rows| == 0 then []
    else
      var rest := Candidates(rows[1..], score, threadId, threshold);
      (if Qualifies(rows[0], score, threadId, threshold) then [ToMatch(rows[0], score)] else []) + rest
  }

  /** Thread scoping: a match is a candidate exactly when some row of the
      thread scoring above the threshold produced it. */
  lemma {:induction false} CandidatesScoped(rows: seq<Embedding>, score: Embedding -> real, threadId: string,
                                            threshold: real, m: Match)
    ensures m in Candidates(rows, score, threadId, threshold)
            <==> exists i :: 0 <= i < |rows| && Qualifies(rows[i], score, threadId, threshold) && m == ToMatch(rows[i], score)
    decreases |rows|
  {
    if |rows| > 0 {
      CandidatesScoped(rows[1..], score, threadId, threshold, m);
      assert forall i :: 1 <= i < |rows| ==> rows[1..][i - 1] == rows[i];
      if m in Candidates(rows[1..], score, threadId, threshold) {
        var i :| 0 <= i < |rows[1..]| && Qualifies(rows[1..][i], score, threadId, threshold) && m == ToMatch(rows[1..][i], score);
        assert rows[i + 1] == rows[1..][i];
      }
    }
  }

  /** `findRelevantContent(query, threadId)` against the `embeddings` table,
      with `score` standing for the similarity of each row to the embedded
      query: the qualifying rows, most similar first, at most `k` of them. */
  function FindRelevantContent(rows: seq<Embedding>, score: Embedding -> real, threadId: string,
                               threshold: real, k: nat): seq<Match>
  {
    Take(SortDesc(Candidates(rows, score, threadId, threshold), SimilarityKey), k)
  }

  /** The search result is the top `k` qualifying rows by similarity: ordered,
      drawn from the qualifying rows, and no qualifying row left out ranks
      above one that was kept. */
  lemma FindRelevantContentTopK(rows: seq<Embedding>, score: Embedding -> real, threadId: string,
                                threshold: real, k: nat, r: seq<Match>)
    requires r == FindRelevantContent(rows, score, threadId, threshold, k)
    ensures |r| <= k
    ensures |r| == Min(k, |Candidates(rows, score, threadId, threshold)|)
    ensures forall i :: 0 <= i < |r| ==> r[i].similarity > threshold
    ensures forall i, j :: 0 <= i < j < |r| ==> r[i].similarity >= r[j].similarity
    ensures multiset(r) <= multiset(Candidates(rows, score, threadId, threshold))
    ensures forall m, i :: m in multiset(Candidates(rows, score, threadId, threshold)) - multiset(r) && 0 <= i < |r|
              ==> m.similarity <= r[i].similarity
  {
    var candidates := Candidates(rows, score, threadId, threshold);
    var sorted := SortDesc(candidates, SimilarityKey);
    SortTakeTopK(candidates, k, SimilarityKey, sorted, r);
    forall i | 0 <= i < |r| ensures r[i].similarity > threshold {
      assert r[i] in candidates;
    }
    forall i, j | 0 <= i < j < |r| ensures r[i].similarity >= r[j].similarity {
      assert SimilarityKey(r[i]) >= SimilarityKey(r[j]);
    }
    forall m, i | m in multiset(candidates) - multiset(r) && 0 <= i < |r| ensures m.similarity <= r[i].similarity {
      assert SimilarityKey(m) <= SimilarityKey(r[i]);
    }
  }

  /** A thread with no embeddings, or with none above the threshold, yields
      an empty result rather than an error. */
  lemma NoQualifyingRowsEmpty(rows: seq<Embedding>, score: Embedding -> real, threadId: string,
                              threshold: real, k: nat)
    requires forall i :: 0 <= i < |rows| ==> !Qualifies(rows[i], score, threadId, threshold)
    ensures FindRelevantContent(rows, score, threadId, threshold, k) == []
  {
    CandidatesNone(rows, score, threadId, threshold);
    FindRelevantContentTopK(rows, score, threadId, threshold, k, FindRelevantContent(rows, score, threadId, threshold, k));
  }

  lemma {:induction false} CandidatesNone(rows: seq<Embedding>, score: Embedding -> real, threadId: string, threshold: real)
    requires forall i :: 0 <= i < |rows| ==> !Qualifies(rows[i], score, threadId, threshold)
    ensures Candidates(rows, score, threadId, threshold) == []
    decreases |rows|
  {
    if |rows| > 0 {
      CandidatesNone(rows[1..], score, threadId, threshold);
    }
  }

  /** When at most `k` rows qualify, every qualifying row is returned. */
  lemma AllCandidatesWhenFew(rows: seq<Embedding>, score: Embedding -> real, threadId: string, threshold: real, k: nat)
    requires |Candidates(rows, score, threadId, threshold)| <= k
    ensures multiset(FindRelevantContent(rows, score, threadId, threshold, k))
            == multiset(Candidates(rows, score, threadId, threshold))
  {
    var c := Candidates(rows, score, threadId, threshold);
    var r := FindRelevantContent(rows, score, threadId, threshold, k);
    FindRelevantContentTopK(rows, score, threadId, threshold, k, r);
    MultisetSubEqual(multiset(r), multiset(c));
  }

  lemma MultisetSubEqual<T>(a: multiset<T>, b: multiset<T>)
    requires a <= b && |a| == |b|
    ensures a == b
  {
    var d := b - a;
    assert b == a + d;
    assert |d| == 0;
  }
}

=== FILE: file_parsing.dfy ===
/** `parseFile(blob, fileType)` (`lib/file.ts`): dispatch on the MIME type.
    PDF text comes from an external extractor and the other text types from
    the blob itself; both enter as parameters, each either the text or the
    message of the rejection (a malformed PDF, an unreadable blob). */
module FileParsing {
  import opened Wrappers

  /** The MIME types whose blob is returned as text unchanged. */
  const TextTypes: seq<string> := ["text/markdown", "text/plain", "text/csv", "application/json"]

  /** The MIME types the upload dropzone accepts (`document-uploader.tsx`). */
  const DropzoneAccept: seq<string> := ["application/pdf", "text/markdown", "text/plain", "text/csv", "application/json"]

  /** The thrown error's message for an unknown type. */
  function UnsupportedMessage(fileType: string): string
  {
    "Unsupported file type: " + fileType
  }

  /** PDFs yield the outcome of reading the buffer and extracting the merged
      text of all pages, the text types the outcome of `blob.text()`, and
      every other type fails with a message naming it. Parsing fails exactly
      for an unsupported type and for a rejected extraction. */
  function ParseFile(fileType: string, blobText: Result<string, string>, pdfText: Result<string, string>): (r: Result<string, string>)
    ensures fileType == "application/pdf" ==> r == pdfText
    ensures fileType in TextTypes ==> r == blobText
    ensures fileType !in DropzoneAccept ==> r == Failure(UnsupportedMessage(fileType))
    ensures r.Failure? <==> (|| fileType !in DropzoneAccept
                             || (fileType == "application/pdf" && pdfText.Failure?)
                             || (fileType in TextTypes && blobText.Failure?))
  {
    if fileType == "application/pdf" then pdfText
    else if fileType == "text/markdown" || fileType == "text/plain"
         || fileType == "text/csv" || fileType == "application/json" then blobText
    else Failure(UnsupportedMessage(fileType))
  }

  /** Every type the dropzone lets through reaches an extractor: a file it
      accepts gets its extractor's outcome, never the unsupported-type
      error. */
  lemma AcceptedTypesReachExtractor(fileType: string, blobText: Result<string, string>, pdfText: Result<string, string>)
    requires fileType in DropzoneAccept
    ensures ParseFile(fileType, blobText, pdfText) == (if fileType == "application/pdf" then pdfText else blobText)
  {
  }
}

=== FILE: first_message.dfy ===
/** The first message of a new conversation, end to end: the start page
    creates the thread and parks the message in local storage, the chat
    page's loader finds the thread, and the chat context's effect takes the
    message over, removes it from storage and appends it through the chat
    hook, which saves it on the new thread. The start page writes through
    the handle of `providers/pglite.tsx`, which opens the IndexedDB
    database named by `DB_NAME`; the loader and the hook go through
    `lib/database/client.ts`, which opens "llmchat". The hand-off is stated
    for the case where both name one database, and its failure for the case
    where they do not. */
module FirstMessage {
  import opened Wrappers
  import opened Schema
  import opened Store
  import opened LocalStorage
  import opened ChatHook
  import IndexPage
  import ChatPage
  import ChatContext
  import UsageService

  /** `JSON.parse` of the stored message, as the chat library receives it;
      the library supplies the id. */
  function FromPending(p: PendingMessage, id: string): ChatMessage
  {
    ChatMessage(id, p.role, p.content, None)
  }

  /** A valid store holds no message of a thread id it does not know. */
  lemma NoMessagesOfUnknownThread(db: Db, id: string)
    requires Valid(db, DocumentsGeneration) && id !in ThreadIds(db.threads)
    ensures GetMessages(db, id) == []
  {
    var ms := GetMessages(db, id);
    if |ms| > 0 {
      assert false;
    }
  }

  /** The start page's store after a navigating submission, with the facts
      the chat page relies on: the new thread is the only one with its id
      and has no message yet. */
  lemma SubmitCreated(db: Db, s: Storage, input: string, newId: string, threadName: string, now: int)
    requires Valid(db, DocumentsGeneration)
    requires IndexPage.OnSubmit(db, s, input, newId, threadName, now).Success?
    requires IndexPage.OnSubmit(db, s, input, newId, threadName, now).value.2.Navigated?
    ensures var (db1, s1, _) := IndexPage.OnSubmit(db, s, input, newId, threadName, now).value;
            && GetThreadById(db1, newId) == Some(Thread(newId, threadName, now, now))
            && GetMessages(db1, newId) == []
            && FitsVarchar(newId) && newId in ThreadIds(db1.threads) && db1.messages == db.messages
            && Load(s1, newId) == Some(Json(PendingMessage("user", input, newId)))
            && Delete(s1, newId) == Delete(s, newId)
  {
    var (db1, s1, _) := IndexPage.OnSubmit(db, s, input, newId, threadName, now).value;
    IndexPage.OnSubmitSpec(db, s, input, newId, threadName, now);
    CreateThenGet(db, DocumentsGeneration, newId, Some(threadName), now);
    NoMessagesOfUnknownThread(db, newId);
    assert GetMessages(db1, newId) == GetMessages(db, newId);
    assert Delete(s1, newId) == Delete(s, newId);
  }

  /** Appending the taken-over message to a thread without messages makes
      it the thread's only stored message. */
  lemma AppendFirst(db1: Db, input: string, newId: string, stringify: seq<ToolInvocation> -> string,
                    chatId: string, msgId: string, later: int)
    requires FitsVarchar(newId) && newId in ThreadIds(db1.threads) && GetMessages(db1, newId) == []
    requires FitsVarchar(msgId) && msgId !in MessageIds(db1.messages)
    ensures var m := FromPending(PendingMessage("user", input, newId), chatId);
            && Append(db1, [], m, newId, stringify, msgId, later).Success?
            && GetMessages(Append(db1, [], m, newId, stringify, msgId, later).value.0, newId)
               == [Message(msgId, User, input, None, newId, later)]
  {
    var m := FromPending(PendingMessage("user", input, newId), chatId);
    var p := ToParams(m, newId, stringify);
    assert p == NewMessageParams("user", input, None, newId);
    SaveMessageIsolation(db1, DocumentsGeneration, p, msgId, later, newId);
  }

  /** With one database behind both handles, after the start page
      navigates (under a non-empty id, as generated ids are) the chat page
      loads the new thread. A provider given the thread's stored messages
      as `initialMessages`, the prop it declares, sees none; its effect
      takes over exactly the parked message and leaves storage as it was
      before the submission (but for that key), and appending the message
      saves it as the thread's only message. */
  lemma {:induction false} HandoffDelivers(db: Db, s: Storage, input: string, newId: string, threadName: string, now: int,
                        idToken: Option<string>, response: UsageService.FetchResponse,
                        stringify: seq<ToolInvocation> -> string, chatId: string, msgId: string, later: int)
    requires Valid(db, DocumentsGeneration) && newId != ""
    requires IndexPage.OnSubmit(db, s, input, newId, threadName, now).Success?
    requires IndexPage.OnSubmit(db, s, input, newId, threadName, now).value.2.Navigated?
    requires UsageService.GetUsage(idToken, response).Success?
    requires FitsVarchar(msgId) && msgId !in MessageIds(db.messages)
    ensures var (db1, s1, _) := IndexPage.OnSubmit(db, s, input, newId, threadName, now).value;
            var (s2, out) := ChatContext.PendingEffect(s1, newId, |GetMessages(db1, newId)|);
            && ChatContext.RenderProvider(ChatPage.IntendedProviderProps(Thread(newId, threadName, now, now), []))
               == ChatContext.Rendered(|GetMessages(db1, newId)|)
            && ChatPage.Loader(db1, Some(newId), idToken, response)
               == ChatPage.Loaded(Thread(newId, threadName, now, now), UsageService.GetUsage(idToken, response).value)
            && out == ChatContext.TakeOver(PendingMessage("user", input, newId))
            && s2 == Delete(s, newId)
            && Append(db1, [], FromPending(out.message, chatId), newId, stringify, msgId, later).Success?
            && GetMessages(Append(db1, [], FromPending(out.message, chatId), newId, stringify, msgId, later).value.0, newId)
               == [Message(msgId, User, input, None, newId, later)]
  {
    var (db1, s1, _) := IndexPage.OnSubmit(db, s, input, newId, threadName, now).value;
    SubmitCreated(db, s, input, newId, threadName, now);
    IndexPage.OnSubmitSpec(db, s, input, newId, threadName, now);
    assert HasApiKey(s1) by {
      if newId != ApiKeyName {
        assert Load(s1, ApiKeyName) == Load(s, ApiKeyName);
      }
    }
    ChatContext.PendingEffectSpec(s1, newId, 0);
    assert ChatContext.PendingEffect(s1, newId, 0).1 == ChatContext.TakeOver(PendingMessage("user", input, newId));
    assert ChatPage.Loader(db1, Some(newId), idToken, response)
           == ChatPage.Loaded(Thread(newId, threadName, now, now), UsageService.GetUsage(idToken, response).value);
    AppendFirst(db1, input, newId, stringify, chatId, msgId, later);
  }

  /** With separate databases, a thread the services' store does not know
      is lost on the way: the start page has created it in its own store
      and parked the message, but the chat page's loader sends the user
      back to the start page, and the message stays in storage. */
  lemma HandoffAcrossSeparateDatabases(startDb: Db, clientDb: Db, s: Storage, input: string, newId: string,
                                       threadName: string, now: int, idToken: Option<string>,
                                       response: UsageService.FetchResponse)
    requires newId != "" && newId !in ThreadIds(clientDb.threads)
    requires IndexPage.OnSubmit(startDb, s, input, newId, threadName, now).Success?
    requires IndexPage.OnSubmit(startDb, s, input, newId, threadName, now).value.2.Navigated?
    requires UsageService.GetUsage(idToken, response).Success?
    ensures var (db1, s1, _) := IndexPage.OnSubmit(startDb, s, input, newId, threadName, now).value;
            && newId in ThreadIds(db1.threads)
            && ChatPage.Loader(clientDb, Some(newId), idToken, response) == ChatPage.Redirect("/")
            && Load(s1, newId) == Some(Json(PendingMessage("user", input, newId)))
  {
    var (db1, s1, _) := IndexPage.OnSubmit(startDb, s, input, newId, threadName, now).value;
    IndexPage.OnSubmitSpec(startDb, s, input, newId, threadName, now);
    assert Thread(newId, threadName, now, now) in db1.threads;
    ChatPage.LoaderSpec(clientDb, Some(newId), idToken, response);
  }
}

=== FILE: index_page.dfy ===
/** The start page (`pages/index/page.tsx`). Its loader lists the threads
    and falls back to none when the query fails. Its form creates a thread
    under an id drawn beforehand, leaves the first message for the chat page
    in local storage under that id, and navigates there. The thread title
    comes from a language model and enters as a parameter. */
module IndexPage {
  import opened Wrappers
  import opened Schema
  import opened Store
  import opened LocalStorage
  import ChatHook

  /** `getThreads().catch(() => [])`: `None` stands for a failed query. */
  function Loader(db: Option<Db>): (r: seq<Thread>)
    ensures db.None? ==> r == []
    ensures db.Some? ==> multiset(r) == multiset(db.value.threads)
    ensures forall i, j :: 0 <= i < j < |r| ==> r[i].createdAt >= r[j].createdAt
  {
    if db.None? then [] else GetThreads(db.value)
  }

  /** How a submission ends. */
  datatype SubmitResult =
    | KeyAlert               // no API key: an alert pointing to the settings page
    | Ignored                // empty input
    | Navigated(path: string)

  /** `onSubmit`: the key check comes first, then the empty-input check;
      the thread is created, and only then is the pending message stored
      and the page left. A failed insert throws before storage is touched.
      The start page writes with the older store (`data/threads.ts`). */
  function OnSubmit(db: Db, s: Storage, input: string, newId: string, threadName: string, now: int)
    : Result<(Db, Storage, SubmitResult), StoreError>
  {
    if !HasApiKey(s) then Success((db, s, KeyAlert))
    else if input == "" then Success((db, s, Ignored))
    else
      match CreateThread(db, newId, Some(threadName), now)
      case Failure(e) => Failure(e)
      case Success(created) =>
        Success((created.0, Save(s, newId, Json(PendingMessage("user", input, newId))), Navigated(ChatHook.ChatUrl(newId))))
  }

  /** Without a key, and for empty input, nothing is created or stored. A
      navigation means the thread exists under `newId` with the given name,
      the user's text waits under `newId` as a message of that thread, no
      other stored key changed, and the path is the chat page of `newId`. */
  lemma OnSubmitSpec(db: Db, s: Storage, input: string, newId: string, threadName: string, now: int)
    ensures var r := OnSubmit(db, s, input, newId, threadName, now);
            && (!HasApiKey(s) ==> r == Success((db, s, KeyAlert)))
            && (HasApiKey(s) && input == "" ==> r == Success((db, s, Ignored)))
            && (r.Success? && r.value.2.Navigated? ==>
                  && input != "" && HasApiKey(s)
                  && r.value.0 == db.(threads := db.threads + [Thread(newId, threadName, now, now)])
                  && Load(r.value.1, newId) == Some(Json(PendingMessage("user", input, newId)))
                  && (forall k :: k != newId ==> Load(r.value.1, k) == Load(s, k))
                  && r.value.2.path == "/chat/" + newId)
            && (r.Failure? ==> HasApiKey(s) && input != "" && CreateThread(db, newId, Some(threadName), now).Failure?)
  {
  }
}

=== FILE: knowledge_search.dfy ===
/** The knowledge-base tool of both chat hooks: one similarity search per
    query, the per-query results concatenated in query order, and duplicates
    removed by `embeddingId` with the `filter`/`findIndex` idiom, which keeps
    the first occurrence of every id. */
module KnowledgeSearch {
  import opened Seqs
  import opened Schema
  import opened Embeddings

  /** `self.findIndex(t => t.embeddingId === id)`: the first position whose
      match has that id, or -1. */
  function FindIndex(xs: seq<Match>, id: string): (r: int)
    ensures -1 <= r < |xs|
    ensures r >= 0 ==> xs[r].embeddingId == id && forall j :: 0 <= j < r ==> xs[j].embeddingId != id
    ensures r == -1 ==> forall j :: 0 <= j < |xs| ==> xs[j].embeddingId != id
    decreases |xs|
  {
    if |xs| == 0 then -1
    else if xs[0].embeddingId == id then 0
    else
      var r := FindIndex(xs[1..], id);
      assert forall j :: 1 <= j < |xs| ==> xs[1..][j - 1] == xs[j];
      if r < 0 then -1 else r + 1
  }

  /** The `filter` callback applied from position `i` on: `xs[j]` is kept
      iff `j` is the first position carrying its id. */
  function DedupFrom(xs: seq<Match>, i: nat): seq<Match>
    requires i <= |xs|
    decreases |xs| - i
  {
    if i == |xs| then []
    else (if FindIndex(xs, xs[i].embeddingId) == i then [xs[i]] else []) + DedupFrom(xs, i + 1)
  }

  /** `xs.filter((content, index, self) => index === self.findIndex(…))`. */
  function Dedup(xs: seq<Match>): seq<Match>
  {
    DedupFrom(xs, 0)
  }

  function EmbeddingIdOf(m: Match): string
  {
    m.embeddingId
  }

  /** The ids carried by `xs`. */
  function IdSet(xs: seq<Match>): set<string>
  {
    set j | 0 <= j < |xs| :: xs[j].embeddingId
  }

  /** An independent statement of the same de-duplication: walk the list
      once, remembering the ids already emitted. */
  function DedupSeen(xs: seq<Match>, seen: set<string>): seq<Match>
    decreases |xs|
  {
    if |xs| == 0 then []
    else if xs[0].embeddingId in seen then DedupSeen(xs[1..], seen)
    else [xs[0]] + DedupSeen(xs[1..], seen + {xs[0].embeddingId})
  }

  /** Position `i` is the first carrier of its id exactly when that id does
      not occur before `i`. */
  lemma FirstIndexIffUnseen(xs: seq<Match>, i: nat)
    requires i < |xs|
    ensures FindIndex(xs, xs[i].embeddingId) == i <==> xs[i].embeddingId !in IdSet(xs[..i])
  {
    FirstIndexIffFresh(xs, i);
    InIdSetPrefix(xs, i, xs[i].embeddingId);
  }

  lemma FirstIndexIffFresh(xs: seq<Match>, i: nat)
    requires i < |xs|
    ensures FindIndex(xs, xs[i].embeddingId) == i <==> forall j :: 0 <= j < i ==> xs[j].embeddingId != xs[i].embeddingId
  {
    var f := FindIndex(xs, xs[i].embeddingId);
    assert 0 <= f <= i;
  }

  lemma InIdSetPrefix(xs: seq<Match>, i: nat, id: string)
    requires i <= |xs|
    ensures id in IdSet(xs[..i]) <==> exists j :: 0 <= j < i && xs[j].embeddingId == id
  {
    assert forall j :: 0 <= j < i ==> xs[..i][j] == xs[j];
  }

  lemma IdSetExtend(xs: seq<Match>, i: nat)
    requires i < |xs|
    ensures IdSet(xs[..i + 1]) == IdSet(xs[..i]) + {xs[i].embeddingId}
  {
    assert forall j :: 0 <= j < i ==> xs[..i + 1][j] == xs[..i][j];
    assert xs[..i + 1][i] == xs[i];
  }

  /** The `findIndex` filter from position `i` agrees with the single pass
      that starts with the ids of the first `i` elements already seen. */
  lemma {:induction false} DedupFromIsDedupSeen(xs: seq<Match>, i: nat)
    requires i <= |xs|
    ensures DedupFrom(xs, i) == DedupSeen(xs[i..], IdSet(xs[..i]))
    decreases |xs| - i
  {
    if i < |xs| {
      var seen := IdSet(xs[..i]);
      var id := xs[i].embeddingId;
      var tail := xs[i..];
      var after := DedupSeen(xs[i + 1..], IdSet(xs[..i + 1]));
      DedupFromIsDedupSeen(xs, i + 1);
      assert DedupFrom(xs, i + 1) == after;
      FirstIndexIffUnseen(xs, i);
      IdSetExtend(xs, i);
      assert IdSet(xs[..i + 1]) == seen + {id};
      assert tail[1..] == xs[i + 1..];
      assert tail[0] == xs[i];
      if id in seen {
        assert seen + {id} == seen;
        assert DedupFrom(xs, i) == DedupFrom(xs, i + 1);
        assert DedupSeen(tail, seen) == DedupSeen(xs[i + 1..], seen);
      } else {
        assert DedupFrom(xs, i) == [xs[i]] + DedupFrom(xs, i + 1);
        assert DedupSeen(tail, seen) == [xs[i]] + DedupSeen(xs[i + 1..], seen + {id});
      }
    } else {
      assert xs[i..] == [];
    }
  }

  /** The as-written filter equals the reference single pass. */
  lemma DedupIsDedupSeen(xs: seq<Match>)
    ensures Dedup(xs) == DedupSeen(xs, {})
  {
    DedupFromIsDedupSeen(xs, 0);
    assert xs[0..] == xs;
    assert IdSet(xs[..0]) == {};
  }

  /** What `DedupFrom` keeps: exactly the first carriers of their ids from
      position `i` on. */
  lemma {:induction false} DedupFromMembers(xs: seq<Match>, i: nat, m: Match)
    requires i <= |xs|
    ensures m in DedupFrom(xs, i) <==> exists j :: i <= j < |xs| && FindIndex(xs, xs[j].embeddingId) == j && m == xs[j]
    decreases |xs| - i
  {
    if i < |xs| {
      DedupFromMembers(xs, i + 1, m);
      var keep := FindIndex(xs, xs[i].embeddingId) == i;
      var head := if keep then [xs[i]] else [];
      assert DedupFrom(xs, i) == head + DedupFrom(xs, i + 1);
      if m in DedupFrom(xs, i) {
        if m in head {
          assert i <= i < |xs| && FindIndex(xs, xs[i].embeddingId) == i && m == xs[i];
        }
      }
      if exists j :: i <= j < |xs| && FindIndex(xs, xs[j].embeddingId) == j && m == xs[j] {
        var j :| i <= j < |xs| && FindIndex(xs, xs[j].embeddingId) == j && m == xs[j];
        if j == i {
          assert m in head;
        } else {
          assert m in DedupFrom(xs, i + 1);
        }
      }
    }
  }

  lemma {:induction false} DedupFromDistinct(xs: seq<Match>, i: nat)
    requires i <= |xs|
    ensures DistinctBy(DedupFrom(xs, i), EmbeddingIdOf)
    decreases |xs| - i
  {
    if i < |xs| {
      DedupFromDistinct(xs, i + 1);
      var rest := DedupFrom(xs, i + 1);
      if FindIndex(xs, xs[i].embeddingId) == i {
        var r := [xs[i]] + rest;
        forall a, b | 0 <= a < b < |r| ensures EmbeddingIdOf(r[a]) != EmbeddingIdOf(r[b]) {
          if a == 0 {
            var m := rest[b - 1];
            assert m in rest;
            DedupFromMembers(xs, i + 1, m);
            var j :| i + 1 <= j < |xs| && FindIndex(xs, xs[j].embeddingId) == j && m == xs[j];
          } else {
            assert r[a] == rest[a - 1] && r[b] == rest[b - 1];
          }
        }
      }
    }
  }

  /** The merged result never carries the same `embeddingId` twice. */
  lemma DedupUnique(xs: seq<Match>)
    ensures DistinctBy(Dedup(xs), EmbeddingIdOf)
  {
    DedupFromDistinct(xs, 0);
  }

  /** Every id of the input survives, and what is kept for it is its first
      occurrence. */
  lemma DedupKeepsFirstOccurrence(xs: seq<Match>)
    ensures IdSet(Dedup(xs)) == IdSet(xs)
    ensures forall m :: m in Dedup(xs) ==> FindIndex(xs, m.embeddingId) >= 0 && m == xs[FindIndex(xs, m.embeddingId)]
  {
    var d := Dedup(xs);
    forall m | m in d ensures FindIndex(xs, m.embeddingId) >= 0 && m == xs[FindIndex(xs, m.embeddingId)] {
      DedupFromMembers(xs, 0, m);
    }
    forall id | id in IdSet(xs) ensures id in IdSet(d) {
      var j :| 0 <= j < |xs| && xs[j].embeddingId == id;
      var f := FindIndex(xs, id);
      DedupFromMembers(xs, 0, xs[f]);
      var k :| 0 <= k < |d| && d[k] == xs[f];
    }
    forall id | id in IdSet(d) ensures id in IdSet(xs) {
      var k :| 0 <= k < |d| && d[k].embeddingId == id;
      assert d[k] in d;
    }
  }

  lemma {:induction false} DedupFromSubseq(xs: seq<Match>, i: nat)
    requires i <= |xs|
    ensures Subseq(DedupFrom(xs, i), xs[i..])
    decreases |xs| - i
  {
    if i < |xs| {
      DedupFromSubseq(xs, i + 1);
      var rest := DedupFrom(xs, i + 1);
      assert xs[i..][1..] == xs[i + 1..];
      if FindIndex(xs, xs[i].embeddingId) == i {
        assert ([xs[i]] + rest)[1..] == rest;
      } else {
        assert DedupFrom(xs, i) == rest;
        SubseqDropHead(rest, xs[i..]);
      }
    }
  }

  /** The merged result is an order-preserving subsequence of its input. */
  lemma DedupSubseq(xs: seq<Match>)
    ensures Subseq(Dedup(xs), xs)
  {
    DedupFromSubseq(xs, 0);
    assert xs[0..] == xs;
  }

  /** One `findRelevantContent` call per query, in query order; `score(q, e)`
      stands for the similarity of row `e` to the embedded query `q`. */
  function PerQuery(queries: seq<string>, rows: seq<Embedding>, score: (string, Embedding) -> real,
                    threadId: string, threshold: real, k: nat): (r: seq<seq<Match>>)
    ensures |r| == |queries|
    ensures forall i :: 0 <= i < |r| ==>
              r[i] == FindRelevantContent(rows, (e: Embedding) => score(queries[i], e), threadId, threshold, k)
  {
    seq(|queries|, i requires 0 <= i < |queries| =>
      FindRelevantContent(rows, (e: Embedding) => score(queries[i], e), threadId, threshold, k))
  }

  /** `getRelavantInformation.execute({queries})`. */
  function SearchKnowledgeBase(queries: seq<string>, rows: seq<Embedding>, score: (string, Embedding) -> real,
                               threadId: string, threshold: real, k: nat): seq<Match>
  {
    Dedup(Flatten(PerQuery(queries, rows, score, threadId, threshold, k)))
  }

  /** With no queries the tool returns nothing. */
  lemma {:induction false} SearchNoQueries(rows: seq<Embedding>, score: (string, Embedding) -> real,
                                           threadId: string, threshold: real, k: nat)
    ensures SearchKnowledgeBase([], rows, score, threadId, threshold, k) == []
  {
    var flat := Flatten(PerQuery([], rows, score, threadId, threshold, k));
    assert |flat| == 0;
  }

  /** The merged tool result: ids are unique, every id any query found is
      present, each kept entry is the first occurrence of its id in the
      query-ordered concatenation, and the order of that concatenation is
      preserved. */
  lemma SearchMerged(queries: seq<string>, rows: seq<Embedding>, score: (string, Embedding) -> real,
                     threadId: string, threshold: real, k: nat)
    ensures var flat := Flatten(PerQuery(queries, rows, score, threadId, threshold, k));
            var r := SearchKnowledgeBase(queries, rows, score, threadId, threshold, k);
            && DistinctBy(r, EmbeddingIdOf)
            && IdSet(r) == IdSet(flat)
            && (forall m :: m in r ==> FindIndex(flat, m.embeddingId) >= 0 && m == flat[FindIndex(flat, m.embeddingId)])
            && Subseq(r, flat)
  {
    var flat := Flatten(PerQuery(queries, rows, score, threadId, threshold, k));
    DedupUnique(flat);
    DedupKeepsFirstOccurrence(flat);
    DedupSubseq(flat);
  }

  /** Every entry of the merged result came from a row of the requested
      thread whose similarity to one of the queries is above the threshold. */
  lemma SearchScoped(queries: seq<string>, rows: seq<Embedding>, score: (string, Embedding) -> real,
                     threadId: string, threshold: real, k: nat, m: Match)
    requires m in SearchKnowledgeBase(queries, rows, score, threadId, threshold, k)
    ensures exists q, i :: q in queries && 0 <= i < |rows| && rows[i].threadId == threadId
              && score(q, rows[i]) > threshold && m == Match(rows[i].content, score(q, rows[i]), rows[i].id)
  {
    var per := PerQuery(queries, rows, score, threadId, threshold, k);
    var flat := Flatten(per);
    DedupSubseqMembers(flat, m);
    assert m in flat;
    var qi :| 0 <= qi < |per| && m in per[qi];
    var q := queries[qi];
    assert per[qi] == FindRelevantContent(rows, (e: Embedding) => score(q, e), threadId, threshold, k);
    var i := FoundRow(rows, score, q, threadId, threshold, k, m);
    assert q in queries;
  }

  /** The row a match of one query's search was built from. */
  lemma FoundRow(rows: seq<Embedding>, score: (string, Embedding) -> real, q: string,
                 threadId: string, threshold: real, k: nat, m: Match) returns (i: nat)
    requires m in FindRelevantContent(rows, (e: Embedding) => score(q, e), threadId, threshold, k)
    ensures i < |rows| && rows[i].threadId == threadId && score(q, rows[i]) > threshold
    ensures m == Match(rows[i].content, score(q, rows[i]), rows[i].id)
  {
    var sc := (e: Embedding) => score(q, e);
    var r := FindRelevantContent(rows, sc, threadId, threshold, k);
    FindRelevantContentTopK(rows, sc, threadId, threshold, k, r);
    assert m in multiset(r);
    CandidatesScoped(rows, sc, threadId, threshold, m);
    i :| 0 <= i < |rows| && Qualifies(rows[i], sc, threadId, threshold) && m == ToMatch(rows[i], sc);
  }

  /** Everything the de-duplication keeps was in its input. */
  lemma DedupSubseqMembers(xs: seq<Match>, m: Match)
    requires m in Dedup(xs)
    ensures m in xs
  {
    DedupFromMembers(xs, 0, m);
  }
}

=== FILE: local_storage.dfy ===
/** The browser's `localStorage` as the pages use it: a map from keys to
    stored values. The pages keep the OpenAI API key under one fixed key
    and hand the first message of a new conversation from the start page to
    the chat page under the new thread's id. `JSON.stringify` of that
    message followed by `JSON.parse` gives the message back, so a stored
    message is kept as the message itself. */
module LocalStorage {
  import opened Wrappers

  /** The key of the stored OpenAI API key. */
  const ApiKeyName: string := "openAIAPIKey"

  /** The first message of a conversation, as the start page stores it. */
  datatype PendingMessage = PendingMessage(role: string, content: string, threadId: string)

  /** A stored value: plain text (such as the API key), or the JSON text of
      a pending message, which is never empty. */
  datatype Entry = Raw(text: string) | Json(message: PendingMessage)

  type Storage = map<string, Entry>

  /** `loadFromLocalStorage(key)`: `null` when the key is absent. */
  function Load(s: Storage, key: string): (r: Option<Entry>)
    ensures r.Some? <==> key in s
    ensures r.Some? ==> r.value == s[key]
  {
    if key in s then Some(s[key]) else None
  }

  /** JavaScript truthiness of a loaded value: present and not empty. */
  predicate Truthy(e: Option<Entry>)
  {
    e.Some? && (e.value.Raw? ==> e.value.text != "")
  }

  /** `!!loadFromLocalStorage("openAIAPIKey")`. */
  predicate HasApiKey(s: Storage)
  {
    Truthy(Load(s, ApiKeyName))
  }

  /** `saveToLocalStorage(key, value)`. */
  function Save(s: Storage, key: string, e: Entry): (r: Storage)
    ensures key in r && r[key] == e
    ensures forall k :: k != key ==> Load(r, k) == Load(s, k)
  {
    s[key := e]
  }

  /** `deleteFromLocalStorage(key)`. */
  function Delete(s: Storage, key: string): (r: Storage)
    ensures key !in r
    ensures forall k :: k != key ==> Load(r, k) == Load(s, k)
  {
    s - {key}
  }

  /** Deleting a key just saved removes every trace of the save. */
  lemma SaveThenDelete(s: Storage, key: string, e: Entry)
    ensures Delete(Save(s, key, e), key) == Delete(s, key)
  {
  }
}

=== FILE: markdown_conversion.dfy ===
/** `convertTextToMarkdown(text)` (`lib/ai/convert-text-to-markdown.ts`):
    long text is passed through untouched; shorter text needs an OpenAI API
    key and is rewritten by a language model, whose answer (or rejection)
    enters here as a parameter. Lengths are JavaScript's `length`, in UTF-16
    code units. */
module MarkdownConversion {
  import opened Wrappers
  import opened LocalStorage
  import Text

  /** Longer text skips the model. */
  const MaximumTextLength: nat := 10000
  /** The title given to passed-through text. */
  const BypassTitle: string := "Document.md"
  const MissingKeyMessage: string := "OpenAI API key not found"

  datatype MarkdownOutput = MarkdownOutput(content: string, title: string)

  /** The length test comes before the key test, and only the model path
      can fail. */
  function ConvertTextToMarkdown(text: string, storage: Storage, model: Result<MarkdownOutput, string>): (r: Result<MarkdownOutput, string>)
    ensures Text.Utf16Length(text) > MaximumTextLength ==> r == Success(MarkdownOutput(text, BypassTitle))
    ensures Text.Utf16Length(text) <= MaximumTextLength && !HasApiKey(storage) ==> r == Failure(MissingKeyMessage)
    ensures Text.Utf16Length(text) <= MaximumTextLength && HasApiKey(storage) ==> r == model
  {
    if Text.Utf16Length(text) > MaximumTextLength then Success(MarkdownOutput(text, BypassTitle))
    else if !HasApiKey(storage) then Failure(MissingKeyMessage)
    else model
  }

  /** More than 10000 characters are more than 10000 code units, so such a
      text never fails, with or without a key, and comes back as is. */
  lemma LongTextNeverFails(text: string, storage: Storage, model: Result<MarkdownOutput, string>)
    requires |text| > MaximumTextLength
    ensures ConvertTextToMarkdown(text, storage, model).Success?
    ensures ConvertTextToMarkdown(text, storage, model).value.content == text
  {
  }

  /** Characters outside the Basic Multilingual Plane count twice: 5001 of
      them already skip the model. */
  lemma AstralTextBypasses(text: string, storage: Storage, model: Result<MarkdownOutput, string>)
    requires |text| > MaximumTextLength / 2
    requires forall k :: 0 <= k < |text| ==> text[k] as int >= 0x10000
    ensures ConvertTextToMarkdown(text, storage, model) == Success(MarkdownOutput(text, BypassTitle))
  {
    Text.Utf16LengthAstral(text);
  }

  /** The comparison is strict: text of exactly 10000 code units and no
      key fails. */
  lemma BoundaryNeedsKey(text: string, model: Result<MarkdownOutput, string>)
    requires Text.Utf16Length(text) == MaximumTextLength
    ensures ConvertTextToMarkdown(text, map[], model) == Failure(MissingKeyMessage)
    ensures ConvertTextToMarkdown(text, map[ApiKeyName := Raw("")], model) == Failure(MissingKeyMessage)
  {
  }

  /** The conversion fails exactly for short text when the key is missing
      or the model call rejects. */
  lemma FailsIff(text: string, storage: Storage, model: Result<MarkdownOutput, string>)
    ensures ConvertTextToMarkdown(text, storage, model).Failure?
            <==> Text.Utf16Length(text) <= MaximumTextLength && (!HasApiKey(storage) || model.Failure?)
  {
  }
}

=== FILE: migration.dfy ===
/** The schema migration runner `applyMigrations` and the hex encoding of
    `createHash`. The runner keeps a table of applied-migration hashes; the
    SHA-256 digest and the effect of each SQL statement are parameters: a
    statement either runs (and is logged) or fails, which aborts the run. */
module Migration {
  import opened Wrappers
  import opened Seqs
  import opened Text

  /** One element of the `Uint8Array` view of the digest. */
  type Byte = x: int | 0 <= x < 256

  /** The marker separating the statements of one migration. */
  const Breakpoint: string := "--> statement-breakpoint"

  predicate IsLowerHex(c: char)
  {
    '0' <= c <= '9' || 'a' <= c <= 'f'
  }

  function HexDigit(d: nat): (c: char)
    requires d < 16
    ensures IsLowerHex(c)
  {
    if d < 10 then ('0' as int + d) as char else ('a' as int + d - 10) as char
  }

  /** The digit value of a lowercase hex character. */
  function HexValue(c: char): (r: Option<nat>)
    ensures r.Some? <==> IsLowerHex(c)
    ensures r.Some? ==> r.value < 16 && HexDigit(r.value) == c
  {
    if '0' <= c <= '9' then Some(c as int - '0' as int)
    else if 'a' <= c <= 'f' then Some(c as int - 'a' as int + 10)
    else None
  }

  lemma HexValueDigit(d: nat)
    requires d < 16
    ensures HexValue(HexDigit(d)) == Some(d)
  {
  }

  /** Every character of `s` is a lowercase hex digit. */
  predicate AllLowerHex(s: string)
  {
    forall k :: 0 <= k < |s| ==> IsLowerHex(s[k])
  }

  lemma AllLowerHexConcat(a: string, b: string)
    requires AllLowerHex(a) && AllLowerHex(b)
    ensures AllLowerHex(a + b)
  {
    forall k | 0 <= k < |a + b| ensures IsLowerHex((a + b)[k]) {
      if k < |a| {
        assert (a + b)[k] == a[k];
      } else {
        assert (a + b)[k] == b[k - |a|];
      }
    }
  }

  /** `n.toString(16)`: base-16 digits, most significant first, no padding. */
  function ToBase16(n: nat): (r: string)
    ensures |r| >= 1
    ensures forall k :: 0 <= k < |r| ==> IsLowerHex(r[k])
    ensures n < 16 <==> |r| == 1
    decreases n
  {
    if n < 16 then [HexDigit(n)] else ToBase16(n / 16) + [HexDigit(n % 16)]
  }

  /** `s.padStart(n, c)` for a one-character pad: `s` preceded by as many
      copies of `c` as it takes to reach length `n`. */
  function PadStart(s: string, n: nat, c: char): (r: string)
    ensures |r| == if |s| >= n then |s| else n
    ensures r[|r| - |s|..] == s
    ensures forall k :: 0 <= k < |r| - |s| ==> r[k] == c
  {
    if |s| >= n then s else seq(n - |s|, _ => c) + s
  }

  /** The two characters one byte contributes to the hash. */
  function ByteHex(b: Byte): string
  {
    PadStart(ToBase16(b), 2, '0')
  }

  /** Each byte is written as its high and then its low hex digit. */
  lemma ByteHexDigits(b: Byte)
    ensures ByteHex(b) == [HexDigit(b / 16), HexDigit(b % 16)]
  {
    if b >= 16 {
      assert ToBase16(b) == ToBase16(b / 16) + [HexDigit(b % 16)];
      assert ToBase16(b / 16) == [HexDigit(b / 16)];
    }
  }

  /** The byte-to-hex step of `createHash`: two lowercase hex digits per
      byte, joined in byte order. */
  function ToHex(bytes: seq<Byte>): (r: string)
    ensures |r| == 2 * |bytes|
    ensures AllLowerHex(r)
    decreases |bytes|
  {
    if |bytes| == 0 then ""
    else
      ByteHexDigits(bytes[0]);
      var rest := ToHex(bytes[1..]);
      AllLowerHexConcat(ByteHex(bytes[0]), rest);
      ByteHex(bytes[0]) + rest
  }

  /** Reads back a string of hex digit pairs. */
  function FromHex(s: string): Option<seq<Byte>>
    decreases |s|
  {
    if |s| == 0 then Some([])
    else if |s| == 1 then None
    else
      match (HexValue(s[0]), HexValue(s[1]), FromHex(s[2..]))
      case (Some(hi), Some(lo), Some(rest)) => Some([hi * 16 + lo] + rest)
      case _ => None
  }

  /** The encoding loses nothing: decoding the hex gives the digest back. */
  lemma {:induction false} FromHexToHex(bytes: seq<Byte>)
    ensures FromHex(ToHex(bytes)) == Some(bytes)
    decreases |bytes|
  {
    if |bytes| > 0 {
      var tail := bytes[1..];
      FromHexStep(bytes);
      FromHexToHex(tail);
      ConsTail(bytes);
    }
  }

  /** Decoding the hex of a non-empty digest reads its first byte and then
      the hex of the rest. */
  lemma FromHexStep(bytes: seq<Byte>)
    requires |bytes| > 0
    ensures var rest := FromHex(ToHex(bytes[1..]));
            FromHex(ToHex(bytes)) == if rest.Some? then Some([bytes[0]] + rest.value) else None
  {
    ToHexCons(bytes);
    FromHexByte(bytes[0], ToHex(bytes[1..]));
  }

  lemma ToHexCons(bytes: seq<Byte>)
    requires |bytes| > 0
    ensures ToHex(bytes) == [HexDigit(bytes[0] / 16), HexDigit(bytes[0] % 16)] + ToHex(bytes[1..])
  {
    ByteHexDigits(bytes[0]);
  }

  lemma FromHexByte(b: Byte, t: string)
    ensures FromHex([HexDigit(b / 16), HexDigit(b % 16)] + t)
            == if FromHex(t).Some? then Some([b] + FromHex(t).value) else None
  {
    FromHexPair(b / 16, b % 16, t);
    assert b / 16 * 16 + b % 16 == b;
  }

  /** Decoding a leading digit pair. */
  lemma FromHexPair(hi: nat, lo: nat, t: string)
    requires hi < 16 && lo < 16
    ensures FromHex([HexDigit(hi), HexDigit(lo)] + t)
            == if FromHex(t).Some? then Some([hi * 16 + lo] + FromHex(t).value) else None
  {
    var s := [HexDigit(hi), HexDigit(lo)] + t;
    HexValueDigit(hi);
    HexValueDigit(lo);
    assert s[0] == HexDigit(hi) && s[1] == HexDigit(lo) && s[2..] == t;
  }

  /** Distinct digests give distinct hashes. */
  lemma ToHexInjective(a: seq<Byte>, b: seq<Byte>)
    requires ToHex(a) == ToHex(b)
    ensures a == b
  {
    FromHexToHex(a);
    FromHexToHex(b);
  }

  /** `createHash(str)` with `digest` standing for SHA-256 over the UTF-8
      bytes of `str`. */
  function CreateHash(digest: string -> seq<Byte>, str: string): string
  {
    ToHex(digest(str))
  }

  /** The hash is two lowercase hex digits per digest byte: 64 characters
      for a SHA-256 digest. */
  lemma CreateHashFormat(digest: string -> seq<Byte>, str: string)
    ensures |CreateHash(digest, str)| == 2 * |digest(str)|
    ensures |digest(str)| == 32 ==> |CreateHash(digest, str)| == 64
    ensures AllLowerHex(CreateHash(digest, str))
  {
  }

  /** A migration's statements, split at every breakpoint marker; joined
      back with the marker they are the migration text again. */
  function Statements(migration: string): (r: seq<string>)
    ensures |r| >= 1
    ensures Join(r, Breakpoint) == migration
    ensures forall k :: 0 <= k < |r| ==> Free(r[k], Breakpoint)
  {
    JoinSplit(migration, Breakpoint);
    Split(migration, Breakpoint)
  }

  /** The hashes recorded in the migrations table, in insertion order, and
      the log of statements executed against the database. */
  datatype MigrationState = MigrationState(recorded: seq<string>, executed: seq<string>)

  /** `for (const query of migrationQueries) await pglite.exec(query)`: runs
      the statements in order and stops at the first one `exec` rejects,
      which is returned. */
  function RunStatements(executed: seq<string>, queries: seq<string>, exec: string -> bool)
    : (r: (seq<string>, Option<string>))
    ensures executed <= r.0
    ensures r.1.None? <==> forall k :: 0 <= k < |queries| ==> exec(queries[k])
    ensures r.1.None? ==> r.0 == executed + queries
    ensures r.1.Some? ==> !exec(r.1.value) && r.1.value in queries
    decreases |queries|
  {
    if |queries| == 0 then (executed, None)
    else if !exec(queries[0]) then (executed, Some(queries[0]))
    else
      var rest := RunStatements(executed + [queries[0]], queries[1..], exec);
      assert forall k :: 1 <= k < |queries| ==> queries[1..][k - 1] == queries[k];
      assert rest.1.None? ==> executed + [queries[0]] + queries[1..] == executed + queries;
      rest
  }

  /** A failing statement is the first one `exec` rejects; the statements
      before it ran, in order, and nothing after it did. */
  lemma {:induction false} RunStatementsStops(executed: seq<string>, queries: seq<string>, exec: string -> bool)
    returns (k: nat)
    requires RunStatements(executed, queries, exec).1.Some?
    ensures k < |queries| && RunStatements(executed, queries, exec).1 == Some(queries[k])
    ensures forall j :: 0 <= j < k ==> exec(queries[j])
    ensures RunStatements(executed, queries, exec).0 == executed + queries[..k]
    decreases |queries|
  {
    if !exec(queries[0]) {
      k := 0;
    } else {
      var tail := queries[1..];
      var k1 := RunStatementsStops(executed + [queries[0]], tail, exec);
      k := k1 + 1;
      assert queries[..k] == [queries[0]] + tail[..k1];
      AppendAssoc(executed, [queries[0]], tail[..k1]);
      forall j | 0 <= j < k ensures exec(queries[j]) {
        if j > 0 {
          assert queries[j] == tail[j - 1];
        }
      }
    }
  }

  /** The loop of `applyMigrations`, with `hashes[i]` the hash of
      `migrations[i]`: a migration whose hash is recorded is only logged; any
      other has its statements run and then its hash recorded. A failing
      statement ends the run with the failure, keeping what ran before it. */
  function ApplyEach(st: MigrationState, migrations: seq<string>, hashes: seq<string>,
                     exec: string -> bool): (r: (MigrationState, Option<string>))
    requires |hashes| == |migrations|
    ensures st.executed <= r.0.executed
    ensures st.recorded <= r.0.recorded
    ensures r.1.Some? ==> !exec(r.1.value)
    decreases |migrations|
  {
    if |migrations| == 0 then (st, None)
    else if hashes[0] in st.recorded then
      ApplyEach(st, migrations[1..], hashes[1..], exec)
    else
      var run := RunStatements(st.executed, Statements(migrations[0]), exec);
      if run.1.Some? then
        (MigrationState(st.recorded, run.0), run.1)
      else
        ApplyEach(MigrationState(st.recorded + [hashes[0]], run.0), migrations[1..], hashes[1..], exec)
  }

  /** The hash of each migration, in list order. */
  function Hashes(migrations: seq<string>, hashOf: string -> string): (r: seq<string>)
    ensures |r| == |migrations|
    ensures forall i :: 0 <= i < |migrations| ==> r[i] == hashOf(migrations[i])
  {
    seq(|migrations|, i requires 0 <= i < |migrations| => hashOf(migrations[i]))
  }

  /** `applyMigrations`, with `hashOf` standing for `createHash` (that is,
      `m => CreateHash(digest, m)`): when the migrations table already holds
      as many rows as there are migrations the run returns at once;
      otherwise every migration is considered in list order. */
  function ApplyMigrations(st: MigrationState, migrations: seq<string>, hashOf: string -> string,
                           exec: string -> bool): (MigrationState, Option<string>)
  {
    if |st.recorded| == |migrations| then (st, None)
    else ApplyEach(st, migrations, Hashes(migrations, hashOf), exec)
  }

  /** All statements of `migrations`, migration by migration, each split at
      its breakpoints. */
  function AllStatements(migrations: seq<string>): (r: seq<string>)
    ensures |migrations| == 0 ==> r == []
    decreases |migrations|
  {
    if |migrations| == 0 then [] else Statements(migrations[0]) + AllStatements(migrations[1..])
  }

  /** Every hash of `hashes` is in `recorded`. */
  ghost predicate AllIn(hashes: seq<string>, recorded: seq<string>)
  {
    forall i :: 0 <= i < |hashes| ==> hashes[i] in recorded
  }

  /** Every migration's hash is recorded. */
  ghost predicate AllRecorded(st: MigrationState, migrations: seq<string>, hashOf: string -> string)
  {
    forall i :: 0 <= i < |migrations| ==> hashOf(migrations[i]) in st.recorded
  }

  lemma AllRecordedIsAllIn(st: MigrationState, migrations: seq<string>, hashOf: string -> string)
    ensures AllRecorded(st, migrations, hashOf) <==> AllIn(Hashes(migrations, hashOf), st.recorded)
  {
  }

  /** A run records only hashes of listed migrations, and a failure names a
      statement of one of them. */
  lemma {:induction false} ApplyEachStaysInList(st: MigrationState, migrations: seq<string>, hashes: seq<string>,
                                                exec: string -> bool)
    requires |hashes| == |migrations|
    ensures var r := ApplyEach(st, migrations, hashes, exec);
            forall k :: |st.recorded| <= k < |r.0.recorded| ==> r.0.recorded[k] in hashes
    ensures var r := ApplyEach(st, migrations, hashes, exec);
            r.1.Some? ==> r.1.value in AllStatements(migrations)
    decreases |migrations|
  {
    if |migrations| > 0 {
      var r := ApplyEach(st, migrations, hashes, exec);
      var m, tail, htail := migrations[0], migrations[1..], hashes[1..];
      assert hashes == [hashes[0]] + htail;
      assert AllStatements(migrations) == Statements(m) + AllStatements(tail);
      if hashes[0] in st.recorded {
        ApplyEachStaysInList(st, tail, htail, exec);
      } else {
        var run := RunStatements(st.executed, Statements(m), exec);
        if run.1.None? {
          var next := MigrationState(st.recorded + [hashes[0]], run.0);
          ApplyEachStaysInList(next, tail, htail, exec);
          assert r == ApplyEach(next, tail, htail, exec);
          forall k | |st.recorded| <= k < |r.0.recorded| ensures r.0.recorded[k] in hashes {
            if k == |st.recorded| {
              assert r.0.recorded[k] == next.recorded[k];
            }
          }
        }
      }
    }
  }

  /** Recorded migrations are skipped: when every hash is recorded the loop
      executes no statement and changes nothing. */
  lemma {:induction false} ApplyEachSkipsRecorded(st: MigrationState, migrations: seq<string>, hashes: seq<string>,
                                                  exec: string -> bool)
    requires |hashes| == |migrations| && AllIn(hashes, st.recorded)
    ensures ApplyEach(st, migrations, hashes, exec) == (st, None)
    decreases |migrations|
  {
    if |migrations| > 0 {
      assert hashes[0] in st.recorded;
      assert forall i :: 1 <= i < |hashes| ==> hashes[1..][i - 1] == hashes[i];
      ApplyEachSkipsRecorded(st, migrations[1..], hashes[1..], exec);
    }
  }

  /** After a loop that did not fail, every migration's hash is recorded. */
  lemma {:induction false} ApplyEachRecordsAll(st: MigrationState, migrations: seq<string>, hashes: seq<string>,
                                               exec: string -> bool)
    requires |hashes| == |migrations|
    requires ApplyEach(st, migrations, hashes, exec).1 == None
    ensures AllIn(hashes, ApplyEach(st, migrations, hashes, exec).0.recorded)
    decreases |migrations|
  {
    if |migrations| > 0 {
      var r := ApplyEach(st, migrations, hashes, exec);
      var tail, htail := migrations[1..], hashes[1..];
      var next: MigrationState;
      if hashes[0] in st.recorded {
        next := st;
      } else {
        var run := RunStatements(st.executed, Statements(migrations[0]), exec);
        next := MigrationState(st.recorded + [hashes[0]], run.0);
      }
      assert r == ApplyEach(next, tail, htail, exec);
      ApplyEachRecordsAll(next, tail, htail, exec);
      assert hashes[0] in next.recorded;
      forall i | 0 <= i < |hashes| ensures hashes[i] in r.0.recorded {
        if i > 0 {
          assert hashes[i] == htail[i - 1];
        }
      }
    }
  }

  /** The unique constraint on `hash` is never violated: the loop only adds
      a hash that is not yet recorded. */
  lemma {:induction false} ApplyEachKeepsDistinct(st: MigrationState, migrations: seq<string>, hashes: seq<string>,
                                                  exec: string -> bool)
    requires |hashes| == |migrations| && Distinct(st.recorded)
    ensures Distinct(ApplyEach(st, migrations, hashes, exec).0.recorded)
    decreases |migrations|
  {
    if |migrations| > 0 {
      if hashes[0] !in st.recorded {
        var run := RunStatements(st.executed, Statements(migrations[0]), exec);
        if run.1.None? {
          var next := MigrationState(st.recorded + [hashes[0]], run.0);
          AppendFreshDistinct(st.recorded, hashes[0]);
          ApplyEachKeepsDistinct(next, migrations[1..], hashes[1..], exec);
        }
      } else {
        ApplyEachKeepsDistinct(st, migrations[1..], hashes[1..], exec);
      }
    }
  }

  lemma AppendFreshDistinct(s: seq<string>, x: string)
    requires Distinct(s) && x !in s
    ensures Distinct(s + [x])
  {
    var t := s + [x];
    forall i, j | 0 <= i < j < |t| ensures t[i] != t[j] {
      assert t[i] == s[i];
    }
  }

  /** Order of execution: when no two migrations share a hash, a loop that
      did not fail executes, in list order, every statement of exactly the
      migrations `pending` selects, where `pending` holds of a migration iff
      its hash was not recorded before the loop. */
  lemma {:induction false} ApplyEachRunsPending(st: MigrationState, migrations: seq<string>, hashes: seq<string>,
                                                exec: string -> bool, pending: string -> bool)
    requires |hashes| == |migrations| && Distinct(hashes)
    requires forall i :: 0 <= i < |migrations| ==> (pending(migrations[i]) <==> hashes[i] !in st.recorded)
    requires ApplyEach(st, migrations, hashes, exec).1 == None
    ensures ApplyEach(st, migrations, hashes, exec).0.executed == st.executed + AllStatements(Filter(migrations, pending))
    decreases |migrations|
  {
    if |migrations| == 0 {
      assert st.executed + [] == st.executed;
    } else {
      var m, tail, htail := migrations[0], migrations[1..], hashes[1..];
      var r := ApplyEach(st, migrations, hashes, exec);
      var rest := Filter(tail, pending);
      DistinctTail(hashes);
      if hashes[0] in st.recorded {
        assert Filter(migrations, pending) == rest;
        PendingTail(st, st, migrations, hashes, pending);
        ApplyEachRunsPending(st, tail, htail, exec, pending);
      } else {
        var run := RunStatements(st.executed, Statements(m), exec);
        var next := MigrationState(st.recorded + [hashes[0]], run.0);
        assert r == ApplyEach(next, tail, htail, exec);
        PendingTail(st, next, migrations, hashes, pending);
        ApplyEachRunsPending(next, tail, htail, exec, pending);
        assert Filter(migrations, pending) == [m] + rest;
        assert ([m] + rest)[1..] == rest;
        AppendAssoc(st.executed, Statements(m), AllStatements(rest));
      }
    }
  }

  lemma DistinctTail<T>(s: seq<T>)
    requires |s| > 0 && Distinct(s)
    ensures Distinct(s[1..]) && s[0] !in s[1..]
  {
    forall i, j | 0 <= i < j < |s[1..]| ensures s[1..][i] != s[1..][j] {
      assert s[1..][i] == s[i + 1] && s[1..][j] == s[j + 1];
    }
    forall k | 0 <= k < |s[1..]| ensures s[1..][k] != s[0] {
      assert s[1..][k] == s[k + 1];
    }
  }

  /** The pending selection carries over to the rest of the list once the
      head's hash is possibly added. */
  lemma PendingTail(st: MigrationState, next: MigrationState, migrations: seq<string>, hashes: seq<string>,
                    pending: string -> bool)
    requires |hashes| == |migrations| > 0 && hashes[0] !in hashes[1..]
    requires next.recorded == st.recorded || next.recorded == st.recorded + [hashes[0]]
    requires forall i :: 0 <= i < |migrations| ==> (pending(migrations[i]) <==> hashes[i] !in st.recorded)
    ensures forall i :: 0 <= i < |migrations| - 1 ==> (pending(migrations[1..][i]) <==> hashes[1..][i] !in next.recorded)
  {
    forall i | 0 <= i < |migrations| - 1
      ensures pending(migrations[1..][i]) <==> hashes[1..][i] !in next.recorded
    {
      assert migrations[1..][i] == migrations[i + 1] && hashes[1..][i] == hashes[i + 1];
      assert hashes[i + 1] != hashes[0];
    }
  }

  /** The count check: with as many recorded rows as migrations, nothing is
      executed and nothing recorded. */
  lemma EarlyExitExecutesNothing(st: MigrationState, migrations: seq<string>, hashOf: string -> string,
                                 exec: string -> bool)
    requires |st.recorded| == |migrations|
    ensures ApplyMigrations(st, migrations, hashOf, exec).0.executed == st.executed
    ensures ApplyMigrations(st, migrations, hashOf, exec).0.recorded == st.recorded
    ensures ApplyMigrations(st, migrations, hashOf, exec).1 == None
  {
  }

  /** A run that did not fail leaves every migration recorded, provided the
      count check did not end it early. */
  lemma CompletedRunRecordsAll(st: MigrationState, migrations: seq<string>, hashOf: string -> string,
                               exec: string -> bool)
    requires |st.recorded| != |migrations|
    requires ApplyMigrations(st, migrations, hashOf, exec).1 == None
    ensures AllRecorded(ApplyMigrations(st, migrations, hashOf, exec).0, migrations, hashOf)
  {
    var hs := Hashes(migrations, hashOf);
    ApplyEachRecordsAll(st, migrations, hs, exec);
    AllRecordedIsAllIn(ApplyMigrations(st, migrations, hashOf, exec).0, migrations, hashOf);
  }

  /** A run records only hashes of its migrations, and a failed run reports
      a statement of one of them that the database rejected. */
  lemma RunStaysInList(st: MigrationState, migrations: seq<string>, hashOf: string -> string,
                       exec: string -> bool)
    ensures var r := ApplyMigrations(st, migrations, hashOf, exec);
            && st.recorded <= r.0.recorded && st.executed <= r.0.executed
            && (forall k :: |st.recorded| <= k < |r.0.recorded| ==> r.0.recorded[k] in Hashes(migrations, hashOf))
            && (r.1.Some? ==> !exec(r.1.value) && r.1.value in AllStatements(migrations))
  {
    if |st.recorded| != |migrations| {
      ApplyEachStaysInList(st, migrations, Hashes(migrations, hashOf), exec);
    }
  }

  /** No hash is ever recorded twice. */
  lemma MigrationsKeepDistinct(st: MigrationState, migrations: seq<string>, hashOf: string -> string,
                               exec: string -> bool)
    requires Distinct(st.recorded)
    ensures Distinct(ApplyMigrations(st, migrations, hashOf, exec).0.recorded)
  {
    if |st.recorded| != |migrations| {
      ApplyEachKeepsDistinct(st, migrations, Hashes(migrations, hashOf), exec);
    }
  }

  /** Running `applyMigrations` again after a run that did not fail executes
      no statement and records nothing. */
  lemma Idempotent(st: MigrationState, migrations: seq<string>, hashOf: string -> string,
                   exec: string -> bool)
    requires ApplyMigrations(st, migrations, hashOf, exec).1 == None
    ensures var once := ApplyMigrations(st, migrations, hashOf, exec).0;
            ApplyMigrations(once, migrations, hashOf, exec) == (once, None)
  {
    var once := ApplyMigrations(st, migrations, hashOf, exec).0;
    var hs := Hashes(migrations, hashOf);
    if |st.recorded| != |migrations| {
      ApplyEachRecordsAll(st, migrations, hs, exec);
      if |once.recorded| != |migrations| {
        ApplyEachSkipsRecorded(once, migrations, hs, exec);
      }
    }
  }

  /** A first run against an empty migrations table that does not fail
      executes every statement of every migration, in list order, provided
      no two migrations have the same hash. */
  lemma {:induction false} FreshRunExecutesEverything(migrations: seq<string>, hashOf: string -> string, exec: string -> bool)
    requires |migrations| > 0
    requires Distinct(Hashes(migrations, hashOf))
    requires ApplyMigrations(MigrationState([], []), migrations, hashOf, exec).1 == None
    ensures ApplyMigrations(MigrationState([], []), migrations, hashOf, exec).0.executed == AllStatements(migrations)
  {
    FreshRunEntersLoop(migrations, hashOf, exec);
    ApplyEachFromEmpty(migrations, Hashes(migrations, hashOf), exec);
  }

  lemma FreshRunEntersLoop(migrations: seq<string>, hashOf: string -> string, exec: string -> bool)
    requires |migrations| > 0
    ensures ApplyMigrations(MigrationState([], []), migrations, hashOf, exec)
            == ApplyEach(MigrationState([], []), migrations, Hashes(migrations, hashOf), exec)
  {
  }

  lemma ApplyEachFromEmpty(migrations: seq<string>, hashes: seq<string>, exec: string -> bool)
    requires |hashes| == |migrations| && Distinct(hashes)
    requires ApplyEach(MigrationState([], []), migrations, hashes, exec).1 == None
    ensures ApplyEach(MigrationState([], []), migrations, hashes, exec).0.executed == AllStatements(migrations)
  {
    var st := MigrationState([], []);
    var all: string -> bool := _ => true;
    ApplyEachRunsPending(st, migrations, hashes, exec, all);
    FilterAll(migrations, all);
    assert st.executed + AllStatements(migrations) == AllStatements(migrations);
  }

  /** The count check is sound when the table holds only hashes of this
      list without repeats: equal counts then mean every migration is
      recorded. */
  lemma EarlyExitSound(st: MigrationState, migrations: seq<string>, hashOf: string -> string)
    requires |st.recorded| == |migrations|
    requires Distinct(st.recorded)
    requires forall k :: 0 <= k < |st.recorded| ==> st.recorded[k] in Hashes(migrations, hashOf)
    ensures AllRecorded(st, migrations, hashOf)
  {
    var hs := Hashes(migrations, hashOf);
    DistinctCover(st.recorded, hs);
    AllRecordedIsAllIn(st, migrations, hashOf);
  }

  /** Without that proviso the count check can skip a migration: a table
      holding one unrelated hash ends the run for a one-migration list whose
      hash is not recorded. */
  lemma EarlyExitTrustsCount(digest: string -> seq<Byte>, exec: string -> bool)
    ensures var st := MigrationState(["0"], []);
            var hashOf := (m: string) => CreateHash(digest, m);
            && ApplyMigrations(st, ["CREATE TABLE t ();"], hashOf, exec) == (st, None)
            && !AllRecorded(st, ["CREATE TABLE t ();"], hashOf)
  {
    var st := MigrationState(["0"], []);
    var ms := ["CREATE TABLE t ();"];
    var hash := CreateHash(digest, ms[0]);
    CreateHashFormat(digest, ms[0]);
    assert hash != "0";
    assert hash !in st.recorded;
  }
}

=== FILE: panels.dfy ===
/** The side panels of the chat page. Both the resource panel
    (`content-panel.tsx`) and the document panel (`document-panel.tsx`) read
    the page-wide panel state (`closed`, `list` or `detail`) and keep their
    own selected item. Selecting an item opens its detail view; closing steps
    back from the detail view to the list, and from the list to closed. The
    resource panel also drops its selection whenever the state becomes
    `closed`; the document panel has no such effect. */
module Panels {
  import opened Wrappers

  datatype PanelState = Closed | List | Detail

  /** The shared panel state together with one panel's selection. */
  datatype Panel<T> = Panel(state: PanelState, selected: Option<T>)

  /** `setResource(r)` / `setDocument(d)`: select the item and show its detail. */
  function Select<T>(p: Panel<T>, item: T): (r: Panel<T>)
    ensures r.selected == Some(item) && r.state == Detail
  {
    Panel(Detail, Some(item))
  }

  /** `handleClose`: with a selection, drop it and go back to the list;
      without one, close the panel. */
  function Close<T>(p: Panel<T>): (r: Panel<T>)
    ensures r.selected == None
    ensures r.state == (if p.selected.Some? then List else Closed)
  {
    if p.selected.Some? then Panel(List, None) else Panel(Closed, None)
  }

  /** `setPanelState(s)` called from outside the panel (the page header, the
      upload flow): the state changes, the selection stays. */
  function SetState<T>(p: Panel<T>, s: PanelState): (r: Panel<T>)
    ensures r.state == s && r.selected == p.selected
  {
    p.(state := s)
  }

  /** The resource panel's effect on `panelState`: entering `closed` clears
      the selection, any other state keeps it. */
  function ClearWhenClosed<T>(p: Panel<T>): (r: Panel<T>)
    ensures r.state == p.state
    ensures r.selected == (if p.state == Closed then None else p.selected)
  {
    if p.state == Closed then p.(selected := None) else p
  }

  // ------------------------------------------------------ resource panel

  /** What the resource panel can be asked to do. */
  datatype Event<T> = Choose(item: T) | CloseClicked | External(s: PanelState)

  /** One event on the resource panel, followed by its effect. */
  function ContentStep<T>(p: Panel<T>, e: Event<T>): Panel<T>
  {
    match e
    case Choose(item) => ClearWhenClosed(Select(p, item))
    case CloseClicked => ClearWhenClosed(Close(p))
    case External(s) => ClearWhenClosed(SetState(p, s))
  }

  /** A closed resource panel holds no selection. */
  predicate ContentSettled<T>(p: Panel<T>)
  {
    p.state == Closed ==> p.selected.None?
  }

  /** Every event leaves the resource panel settled, whatever it was before. */
  lemma ContentStepSettles<T>(p: Panel<T>, e: Event<T>)
    ensures ContentSettled(ContentStep(p, e))
  {
  }

  /** The resource panel after a run of events. */
  function ContentRun<T>(p: Panel<T>, es: seq<Event<T>>): Panel<T>
    decreases |es|
  {
    if |es| == 0 then p else ContentRun(ContentStep(p, es[0]), es[1..])
  }

  /** From a settled start, every run of events ends settled. */
  lemma {:induction false} ContentRunSettles<T>(p: Panel<T>, es: seq<Event<T>>)
    requires ContentSettled(p)
    ensures ContentSettled(ContentRun(p, es))
    decreases |es|
  {
    if |es| > 0 {
      ContentStepSettles(p, es[0]);
      ContentRunSettles(ContentStep(p, es[0]), es[1..]);
    }
  }

  /** Two clicks on close shut the resource panel from any state. */
  lemma CloseTwiceCloses<T>(p: Panel<T>)
    ensures ContentStep(ContentStep(p, CloseClicked), CloseClicked) == Panel(Closed, None)
  {
  }

  /** The resource panel's Tailwind width class. */
  function ContentPanelWidth(isMobile: bool, s: PanelState): (r: string)
    ensures isMobile ==> r == "w-full"
    ensures !isMobile ==> r == (match s case Detail => "md:w-[50rem]" case List => "w-[24rem]" case Closed => "w-[0rem]")
  {
    if isMobile then "w-full"
    else match s
      case Detail => "md:w-[50rem]"
      case List => "w-[24rem]"
      case Closed => "w-[0rem]"
  }

  /** What the resource panel shows. */
  datatype ContentBody<T> = NotRendered | ResourceDetail(item: T) | ResourceList

  /** The panel is rendered only when the state is not `closed`; inside, the
      selected resource wins over the list. */
  function ContentPanelBody<T>(p: Panel<T>): (r: ContentBody<T>)
    ensures r.NotRendered? <==> p.state == Closed
    ensures r.ResourceDetail? <==> p.state != Closed && p.selected.Some?
    ensures r.ResourceDetail? ==> p.selected == Some(r.item)
  {
    if p.state == Closed then NotRendered
    else if p.selected.Some? then ResourceDetail(p.selected.value)
    else ResourceList
  }

  /** Reopening a settled closed resource panel shows the list: no stale
      selection survives the close. */
  lemma ReopenShowsList<T>(p: Panel<T>, s: PanelState)
    requires p.state == Closed && ContentSettled(p) && s != Closed
    ensures ContentPanelBody(ContentStep(p, External(s))) == ResourceList
  {
  }

  // ------------------------------------------------------ document panel

  /** One event on the document panel, which has no effect on state changes. */
  function DocumentStep<T>(p: Panel<T>, e: Event<T>): Panel<T>
  {
    match e
    case Choose(item) => Select(p, item)
    case CloseClicked => Close(p)
    case External(s) => SetState(p, s)
  }

  /** The document panel holds a selection exactly in the detail state. */
  predicate Paired<T>(p: Panel<T>)
  {
    p.selected.Some? <==> p.state == Detail
  }

  /** The panel's own events keep selection and detail state together. */
  lemma DocumentOwnStepsPair<T>(p: Panel<T>, e: Event<T>)
    requires Paired(p) && !e.External?
    ensures Paired(DocumentStep(p, e))
  {
  }

  /** An outside change of state (such as the upload flow switching to
      `list`) leaves the document panel's selection in place, so the panel
      goes on showing a document while the state says `list`. */
  lemma ExternalListKeepsDocument<T>(d: T)
    ensures var p := DocumentStep(DocumentStep(Panel(Closed, None), Choose(d)), External(List));
            && !Paired(p)
            && DocumentPanelBody(false, p.selected) == ShowingDocument(d)
            && DocumentPanelWidth(false, p.state) == "300px"
  {
  }

  /** The document panel's CSS width. */
  function DocumentPanelWidth(isSmallScreen: bool, s: PanelState): (r: string)
    ensures r == "700px" <==> !isSmallScreen && s == Detail
    ensures r == "100%" <==> isSmallScreen
    ensures r == "300px" <==> !isSmallScreen && s != Detail
  {
    if isSmallScreen then "100%" else if s == Detail then "700px" else "300px"
  }

  /** The document panel is hidden on a small screen and when closed. */
  function IsHidden(isSmallScreen: bool, s: PanelState): (r: bool)
    ensures r <==> isSmallScreen || s == Closed
  {
    isSmallScreen || s == Closed
  }

  /** What the document panel's body shows. */
  datatype DocumentBody<T> = Skeleton | ShowingDocument(doc: T) | DocumentList

  /** An upload in progress wins, then the selected document, then the list. */
  function DocumentPanelBody<T>(isUploading: bool, selected: Option<T>): (r: DocumentBody<T>)
    ensures r.Skeleton? <==> isUploading
    ensures r.ShowingDocument? <==> !isUploading && selected.Some?
    ensures r.ShowingDocument? ==> selected == Some(r.doc)
  {
    if isUploading then Skeleton
    else if selected.Some? then ShowingDocument(selected.value)
    else DocumentList
  }

  /** How a document's content is rendered. */
  datatype Rendering = Preformatted | MarkdownView | CodeBlock

  /** Dispatch on `fileType`: Markdown as Markdown, JSON in a code block,
      plain text and every other type as pre-wrapped text. */
  function RenderFor(fileType: string): (r: Rendering)
    ensures r == MarkdownView <==> fileType == "text/markdown"
    ensures r == CodeBlock <==> fileType == "application/json"
    ensures r == Preformatted <==> fileType != "text/markdown" && fileType != "application/json"
  {
    if fileType == "text/plain" then Preformatted
    else if fileType == "text/markdown" then MarkdownView
    else if fileType == "application/json" then CodeBlock
    else Preformatted
  }
}

=== FILE: schema.dfy ===
/** Record shapes of the persisted tables (threads, messages, documents or
    resources, embeddings), their insert parameters, and the column
    constraints the tables are created with. */
module Schema {
  import opened Wrappers

  /** Every id and thread id column is `varchar(191)`. */
  const MaxVarcharLength: nat := 191
  /** The embedding column is `vector(1536)`. */
  const EmbeddingDimensions: nat := 1536
  /** The title a thread gets when `createThread` is called without one. */
  const DefaultThreadTitle: string := "New Conversation"

  /** The closed set of message roles accepted by the `role` column. */
  datatype Role = User | Assistant | Tool | Function | System | Data

  function RoleName(r: Role): string
  {
    match r
    case User => "user"
    case Assistant => "assistant"
    case Tool => "tool"
    case Function => "function"
    case System => "system"
    case Data => "data"
  }

  /** The role `CHECK` constraint: `s` is accepted iff it names one of the six roles. */
  function ParseRole(s: string): (r: Option<Role>)
    ensures r.Some? <==> s in {"user", "assistant", "tool", "function", "system", "data"}
    ensures r.Some? ==> RoleName(r.value) == s
  {
    if s == "user" then Some(User)
    else if s == "assistant" then Some(Assistant)
    else if s == "tool" then Some(Tool)
    else if s == "function" then Some(Function)
    else if s == "system" then Some(System)
    else if s == "data" then Some(Data)
    else None
  }

  lemma ParseRoleName(r: Role)
    ensures ParseRole(RoleName(r)) == Some(r)
  {
  }

  /** Timestamps are milliseconds; `now()` defaults are supplied by the caller. */
  datatype Thread = Thread(id: string, title: string, createdAt: int, updatedAt: int)

  datatype Message = Message(
    id: string,
    role: Role,
    content: string,
    toolInvocations: Option<string>,
    threadId: string,
    createdAt: int)

  /** A row of `documents` (newer schema) or `resources` (older schema): both
      tables have the same columns. */
  datatype Document = Document(
    id: string,
    title: string,
    content: string,
    fileType: string,
    threadId: string,
    createdAt: int,
    updatedAt: int)

  /** A chunk of a document with its vector. `parentId` is `document_id` or
      `resource_id`, nullable in the table declarations. */
  datatype Embedding = Embedding(
    id: string,
    parentId: Option<string>,
    threadId: string,
    content: string,
    vector: seq<real>,
    createdAt: int,
    updatedAt: int)

  /** Insert parameters of a document or resource: every column except `id`,
      `createdAt` and `updatedAt`. A field is `None` when the caller's object
      lacks it. */
  datatype NewDocumentParams = NewDocumentParams(
    title: Option<string>,
    content: Option<string>,
    fileType: Option<string>,
    threadId: Option<string>)

  /** The validated fields of a document insert. */
  datatype DocumentFields = DocumentFields(title: string, content: string, fileType: string, threadId: string)

  /** Insert parameters of a message: every column except `id` and
      `createdAt`. The role arrives as an unchecked string. */
  datatype NewMessageParams = NewMessageParams(
    role: string,
    content: string,
    toolInvocations: Option<string>,
    threadId: string)

  /** What a caller supplies to create a thread: only a title. */
  datatype NewThreadParams = NewThreadParams(title: string)

  /** Why the store refused a statement or a schema parse failed. */
  datatype StoreError =
    | ValidationFailed(missing: seq<string>)
    | ValueTooLong(column: string)
    | DuplicateKey(table: string)
    | CheckViolation(table: string)
    | ForeignKeyViolation(table: string)
    | NotNullViolation(column: string)
    | WrongDimensions(actual: nat)

  /** The text of the error thrown for `e`; it is never empty. */
  function ErrorMessage(e: StoreError): (m: string)
    ensures |m| > 0
  {
    match e
    case ValidationFailed(missing) => "Required: " + JoinFields(missing)
    case ValueTooLong(column) => "value too long for type character varying(191): " + column
    case DuplicateKey(table) => "duplicate key value violates unique constraint " + table + "_pkey"
    case CheckViolation(table) => "new row for relation " + table + " violates check constraint"
    case ForeignKeyViolation(table) => "insert on table " + table + " violates foreign key constraint"
    case NotNullViolation(column) => "null value in column " + column + " violates not-null constraint"
    case WrongDimensions(_) => "expected 1536 dimensions"
  }

  function JoinFields(fields: seq<string>): string
  {
    if |fields| == 0 then ""
    else if |fields| == 1 then fields[0]
    else fields[0] + ", " + JoinFields(fields[1..])
  }

  /** The required fields of a document insert that are absent, in column order. */
  function MissingFields(p: NewDocumentParams): (r: seq<string>)
    ensures |r| == 0 <==> p.title.Some? && p.content.Some? && p.fileType.Some? && p.threadId.Some?
  {
    (if p.title.None? then ["title"] else [])
    + (if p.content.None? then ["content"] else [])
    + (if p.fileType.None? then ["fileType"] else [])
    + (if p.threadId.None? then ["threadId"] else [])
  }

  /** `insertDocumentSchema.parse`: succeeds iff every required field is
      present, and then keeps exactly the given values. */
  function ParseDocumentParams(p: NewDocumentParams): (r: Result<DocumentFields, StoreError>)
    ensures r.Success? <==> p.title.Some? && p.content.Some? && p.fileType.Some? && p.threadId.Some?
    ensures r.Success? ==>
              && r.value.title == p.title.value && r.value.content == p.content.value
              && r.value.fileType == p.fileType.value && r.value.threadId == p.threadId.value
    ensures r.Failure? ==> r.error == ValidationFailed(MissingFields(p)) && |r.error.missing| > 0
  {
    var missing := MissingFields(p);
    if |missing| > 0 then Failure(ValidationFailed(missing))
    else Success(DocumentFields(p.title.value, p.content.value, p.fileType.value, p.threadId.value))
  }

  /** An id or thread id fits its `varchar(191)` column. */
  predicate FitsVarchar(s: string)
  {
    |s| <= MaxVarcharLength
  }

  /** The column constraints of one embedding row. */
  predicate EmbeddingRowOk(e: Embedding)
  {
    && FitsVarchar(e.id)
    && FitsVarchar(e.threadId)
    && (e.parentId.Some? ==> FitsVarchar(e.parentId.value))
    && |e.vector| == EmbeddingDimensions
  }
}

=== FILE: seqs.dfy ===
/** Sequence facts shared by the store, the retrieval service and the chat hooks:
    filtering (SQL `WHERE`, `Array.prototype.filter`), flattening, ordering by a
    key in descending order (SQL `ORDER BY … DESC`) and `LIMIT`. */
module Seqs {

  /** `a` is an order-preserving subsequence of `b`. */
  ghost predicate Subseq<T>(a: seq<T>, b: seq<T>)
    decreases |b|
  {
    if |a| == 0 then true
    else if |b| == 0 then false
    else (a[0] == b[0] && Subseq(a[1..], b[1..])) || Subseq(a, b[1..])
  }

  /** No two positions of `s` carry the same key. */
  ghost predicate DistinctBy<T, K>(s: seq<T>, key: T -> K)
  {
    forall i, j :: 0 <= i < j < |s| ==> key(s[i]) != key(s[j])
  }

  /** `s` is in non-increasing order of `key`. */
  ghost predicate SortedDesc<T>(s: seq<T>, key: T -> real)
  {
    forall i, j :: 0 <= i < j < |s| ==> key(s[i]) >= key(s[j])
  }

  /** No value occurs twice in `s`. */
  ghost predicate Distinct<T>(s: seq<T>)
  {
    forall i, j :: 0 <= i < j < |s| ==> s[i] != s[j]
  }

  /** The values occurring in `s`. */
  function Elements<T>(s: seq<T>): set<T>
  {
    set x | x in s
  }

  lemma {:induction false} ElementsCons<T>(s: seq<T>)
    requires |s| > 0
    ensures Elements(s) == {s[0]} + Elements(s[1..])
  {
    assert forall x :: x in s <==> x == s[0] || x in s[1..];
  }

  /** A sequence has at least as many positions as distinct values, and
      exactly as many when no value repeats. */
  lemma {:induction false} ElementsCard<T>(s: seq<T>)
    ensures |Elements(s)| <= |s|
    ensures Distinct(s) ==> |Elements(s)| == |s|
    decreases |s|
  {
    if |s| == 0 {
      assert Elements(s) == {};
    } else {
      ElementsCons(s);
      ElementsCard(s[1..]);
      if Distinct(s) {
        assert Distinct(s[1..]) by {
          forall i, j | 0 <= i < j < |s[1..]| ensures s[1..][i] != s[1..][j] {
            assert s[1..][i] == s[i + 1] && s[1..][j] == s[j + 1];
          }
        }
        assert s[0] !in Elements(s[1..]) by {
          forall k | 0 <= k < |s[1..]| ensures s[1..][k] != s[0] {
            assert s[1..][k] == s[k + 1];
          }
        }
      }
    }
  }

  /** A repeat-free sequence whose values all occur in a sequence no longer
      than it covers every value of that sequence. */
  lemma DistinctCover<T>(a: seq<T>, b: seq<T>)
    requires Distinct(a) && |b| <= |a|
    requires forall k :: 0 <= k < |a| ==> a[k] in b
    ensures forall i :: 0 <= i < |b| ==> b[i] in a
  {
    ElementsCard(a);
    ElementsCard(b);
    var ea, eb := Elements(a), Elements(b);
    assert ea <= eb;
    var d := eb - ea;
    assert eb == ea + d && ea * d == {};
    assert |d| == 0;
    forall i | 0 <= i < |b| ensures b[i] in a {
      assert b[i] in eb;
    }
  }

  /** A non-empty sequence is its head followed by its tail. */
  lemma ConsTail<T>(s: seq<T>)
    requires |s| > 0
    ensures [s[0]] + s[1..] == s
  {
  }

  /** A prefix of a non-empty sequence is its head followed by a prefix of
      its tail. */
  lemma ConsPrefix<T>(s: seq<T>, m: nat)
    requires m < |s|
    ensures [s[0]] + s[1..][..m] == s[..m + 1]
  {
  }

  /** A slice of a prefix is the same slice of the whole sequence. */
  lemma SliceOfPrefix<T>(s: seq<T>, m: nat, i: nat, j: nat)
    requires i <= j <= m <= |s|
    ensures s[..m][i..j] == s[i..j]
  {
    assert forall k :: 0 <= k < j - i ==> s[..m][i..j][k] == s[i + k];
  }

  lemma AppendAssoc<T>(a: seq<T>, b: seq<T>, c: seq<T>)
    ensures a + b + c == a + (b + c)
  {
  }

  function Min(a: int, b: int): int {
    if a <= b then a else b
  }

  /** The elements of `s` satisfying `p`, in their original order. */
  function Filter<T(!new)>(s: seq<T>, p: T -> bool): (r: seq<T>)
    ensures |r| <= |s|
    ensures forall x :: x in r <==> x in s && p(x)
    ensures forall i :: 0 <= i < |r| ==> p(r[i])
    decreases |s|
  {
    if |s| == 0 then []
    else (if p(s[0]) then [s[0]] else []) + Filter(s[1..], p)
  }

  lemma {:induction false} FilterAppend<T(!new)>(s: seq<T>, t: seq<T>, p: T -> bool)
    ensures Filter(s + t, p) == Filter(s, p) + Filter(t, p)
    decreases |s|
  {
    if |s| == 0 {
      assert s + t == t;
    } else {
      assert (s + t)[1..] == s[1..] + t;
      FilterAppend(s[1..], t, p);
    }
  }

  /** A filter that keeps every element is the identity. */
  lemma {:induction false} FilterAll<T(!new)>(s: seq<T>, p: T -> bool)
    requires forall i :: 0 <= i < |s| ==> p(s[i])
    ensures Filter(s, p) == s
    decreases |s|
  {
    if |s| > 0 {
      FilterAll(s[1..], p);
    }
  }

  lemma {:induction false} FilterIsSubseq<T(!new)>(s: seq<T>, p: T -> bool)
    ensures Subseq(Filter(s, p), s)
    decreases |s|
  {
    if |s| > 0 {
      var rest := Filter(s[1..], p);
      FilterIsSubseq(s[1..], p);
      if p(s[0]) {
        assert ([s[0]] + rest)[1..] == rest;
      } else {
        assert Filter(s, p) == rest;
        SubseqDropHead(rest, s);
      }
    }
  }

  /** Being a subsequence of the tail implies being a subsequence. */
  lemma SubseqDropHead<T>(a: seq<T>, b: seq<T>)
    requires |b| > 0 && Subseq(a, b[1..])
    ensures Subseq(a, b)
  {
  }

  lemma {:induction false} FilterPreservesDistinct<T(!new), K>(s: seq<T>, p: T -> bool, key: T -> K)
    requires DistinctBy(s, key)
    ensures DistinctBy(Filter(s, p), key)
    decreases |s|
  {
    if |s| > 0 {
      assert DistinctBy(s[1..], key) by {
        forall i, j | 0 <= i < j < |s[1..]|
          ensures key(s[1..][i]) != key(s[1..][j])
        {
          assert s[1..][i] == s[i + 1] && s[1..][j] == s[j + 1];
        }
      }
      FilterPreservesDistinct(s[1..], p, key);
      var rest := Filter(s[1..], p);
      if p(s[0]) {
        var r := [s[0]] + rest;
        forall i, j | 0 <= i < j < |r|
          ensures key(r[i]) != key(r[j])
        {
          if i == 0 {
            assert r[j] in s[1..];
            var k :| 0 <= k < |s[1..]| && s[1..][k] == r[j];
            assert s[k + 1] == r[j];
          } else {
            assert r[i] == rest[i - 1] && r[j] == rest[j - 1];
          }
        }
      }
    }
  }

  /** Concatenation of the inner sequences in order (`Array.prototype.flat`). */
  function Flatten<T(!new)>(ss: seq<seq<T>>): (r: seq<T>)
    ensures forall x :: x in r <==> exists i :: 0 <= i < |ss| && x in ss[i]
    ensures |ss| == 0 ==> |r| == 0
    decreases |ss|
  {
    if |ss| == 0 then []
    else
      var rest := Flatten(ss[1..]);
      assert forall i :: 1 <= i < |ss| ==> ss[i] == ss[1..][i - 1];
      ss[0] + rest
  }

  /** Inserts `x` into a descending sequence before every element whose key
      does not exceed `x`'s, so earlier elements stay ahead of equal ones. */
  function InsertDesc<T>(x: T, s: seq<T>, key: T -> real): (r: seq<T>)
    requires SortedDesc(s, key)
    ensures SortedDesc(r, key)
    ensures multiset(r) == multiset(s) + multiset{x}
    ensures |r| == |s| + 1
    decreases |s|
  {
    if |s| == 0 || key(x) >= key(s[0]) then [x] + s
    else
      var rest := InsertDesc(x, s[1..], key);
      InsertDescStep(x, s, key, rest);
      [s[0]] + rest
  }

  /** Putting the head of `s` in front of the insertion into its tail keeps
      the order, when `x` ranks below that head. */
  lemma InsertDescStep<T>(x: T, s: seq<T>, key: T -> real, rest: seq<T>)
    requires |s| > 0 && SortedDesc(s, key) && key(x) < key(s[0])
    requires SortedDesc(rest, key) && multiset(rest) == multiset(s[1..]) + multiset{x}
    ensures SortedDesc([s[0]] + rest, key)
    ensures multiset([s[0]] + rest) == multiset(s) + multiset{x}
  {
    assert s == [s[0]] + s[1..];
    forall j | 0 <= j < |rest| ensures key(rest[j]) <= key(s[0]) {
      var y := rest[j];
      assert y in multiset(rest);
      if y != x {
        assert y in multiset(s[1..]);
        var k :| 0 <= k < |s[1..]| && s[1..][k] == y;
        assert s[k + 1] == y;
      }
    }
    var r := [s[0]] + rest;
    forall i, j | 0 <= i < j < |r| ensures key(r[i]) >= key(r[j]) {
      if i == 0 {
        assert r[j] == rest[j - 1];
      } else {
        assert r[i] == rest[i - 1] && r[j] == rest[j - 1];
      }
    }
  }

  /** A stable sort into non-increasing key order. */
  function SortDesc<T>(s: seq<T>, key: T -> real): (r: seq<T>)
    ensures SortedDesc(r, key)
    ensures multiset(r) == multiset(s)
    ensures |r| == |s|
    decreases |s|
  {
    if |s| == 0 then []
    else
      assert s == [s[0]] + s[1..];
      InsertDesc(s[0], SortDesc(s[1..], key), key)
  }

  /** SQL `LIMIT k`: the first `k` elements, or all of them when fewer. */
  function Take<T>(s: seq<T>, k: nat): (r: seq<T>)
    ensures |r| == Min(k, |s|)
    ensures r == s[..|r|]
  {
    s[..Min(k, |s|)]
  }

  /** A limited prefix of a descending sequence is a top-k: every element left
      out ranks no higher than any element kept. */
  lemma TopKPrefix<T>(sorted: seq<T>, k: nat, key: T -> real, r: seq<T>)
    requires SortedDesc(sorted, key) && r == Take(sorted, k)
    ensures forall x, i :: x in multiset(sorted) - multiset(r) && 0 <= i < |r| ==> key(x) <= key(r[i])
  {
    var rest := sorted[|r|..];
    assert sorted == r + rest;
    assert multiset(sorted) - multiset(r) == multiset(rest);
    forall x, i | x in multiset(sorted) - multiset(r) && 0 <= i < |r|
      ensures key(x) <= key(r[i])
    {
      assert x in rest;
      var j :| 0 <= j < |rest| && rest[j] == x;
      assert sorted[|r| + j] == x;
      assert sorted[i] == r[i];
    }
  }

  /** A prefix of a descending sequence is descending. */
  lemma TakeSorted<T>(sorted: seq<T>, k: nat, key: T -> real, r: seq<T>)
    requires SortedDesc(sorted, key) && r == Take(sorted, k)
    ensures SortedDesc(r, key)
  {
    forall i, j | 0 <= i < j < |r| ensures key(r[i]) >= key(r[j]) {
      assert r[i] == sorted[i] && r[j] == sorted[j];
    }
  }

  /** A prefix is a sub-multiset of the sequence it is taken from. */
  lemma TakeSubMultiset<T>(s: seq<T>, k: nat, r: seq<T>)
    requires r == Take(s, k)
    ensures multiset(r) <= multiset(s)
    ensures forall x :: x in r ==> x in s
  {
    assert s == r + s[|r|..];
    assert multiset(s) == multiset(r) + multiset(s[|r|..]);
  }

  /** `ORDER BY key DESC LIMIT k` keeps an ordered top-k drawn from `s`. */
  lemma SortTakeTopK<T>(s: seq<T>, k: nat, key: T -> real, sorted: seq<T>, r: seq<T>)
    requires sorted == SortDesc(s, key) && r == Take(sorted, k)
    ensures |r| == Min(k, |s|)
    ensures SortedDesc(r, key)
    ensures multiset(r) <= multiset(s)
    ensures forall x :: x in r ==> x in s
    ensures forall x, i :: x in multiset(s) - multiset(r) && 0 <= i < |r| ==> key(x) <= key(r[i])
  {
    TopKPrefix(sorted, k, key, r);
    TakeSorted(sorted, k, key, r);
    TakeSubMultiset(sorted, k, r);
    assert forall x :: x in sorted <==> x in multiset(sorted);
  }
}

=== FILE: store.dfy ===
/** The in-browser relational store as immutable tables, with the thread and
    message operations of both generations of the code. Every insert checks
    the constraints the tables are created with and fails with the error the
    database would raise, leaving the tables as they were. */
module Store {
  import opened Wrappers
  import opened Seqs
  import opened Schema

  /** The four tables, each in insertion order. */
  datatype Db = Db(threads: seq<Thread>, messages: seq<Message>, documents: seq<Document>, embeddings: seq<Embedding>)

  const EmptyDb: Db := Db([], [], [], [])

  /** What differs between the two generations of the store:
      the message returned after a document is created, whether
      `messages.thread_id` references `threads` (with cascade), and whether an
      embedding must name its parent document. */
  datatype Generation = Generation(created: string, messageThreadFk: bool, parentRequired: bool)

  /** `services/documents.ts` over the tables created by `migration.ts`. */
  const DocumentsGeneration: Generation := Generation("Document successfully created.", true, true)
  /** `services/resources.ts` over the tables created by `migration.ts`. */
  const ResourcesGeneration: Generation := Generation("Resource successfully created.", true, true)
  /** The `data/` modules over the tables declared in `lib/db/schema`: no foreign key on
      messages and a nullable `resource_id`. */
  const LegacyGeneration: Generation := Generation("Resource successfully created.", false, false)

  function ThreadIds(ts: seq<Thread>): set<string> { set t | t in ts :: t.id }
  function MessageIds(ms: seq<Message>): set<string> { set m | m in ms :: m.id }
  function DocumentIds(ds: seq<Document>): set<string> { set d | d in ds :: d.id }
  function EmbeddingIds(es: seq<Embedding>): set<string> { set e | e in es :: e.id }

  function ThreadKey(t: Thread): string { t.id }
  function MessageKey(m: Message): string { m.id }
  function DocumentKey(d: Document): string { d.id }
  function EmbeddingKey(e: Embedding): string { e.id }

  /** An embedding's parent column: it names an existing document, and it
      is present when the generation declares it `NOT NULL`. */
  predicate ParentOk(e: Embedding, docs: seq<Document>, g: Generation)
  {
    if e.parentId.Some? then e.parentId.value in DocumentIds(docs) else !g.parentRequired
  }

  /** The table constraints: primary keys are unique, `varchar(191)` columns
      fit, foreign keys resolve and vectors have 1536 components. */
  ghost predicate Valid(db: Db, g: Generation)
  {
    && DistinctBy(db.threads, ThreadKey)
    && DistinctBy(db.messages, MessageKey)
    && DistinctBy(db.documents, DocumentKey)
    && DistinctBy(db.embeddings, EmbeddingKey)
    && (forall t :: t in db.threads ==> FitsVarchar(t.id))
    && (forall m :: m in db.messages ==> FitsVarchar(m.id) && FitsVarchar(m.threadId))
    && (g.messageThreadFk ==> forall m :: m in db.messages ==> m.threadId in ThreadIds(db.threads))
    && (forall d :: d in db.documents ==> FitsVarchar(d.id) && FitsVarchar(d.threadId))
    && (forall e :: e in db.embeddings ==> EmbeddingRowOk(e) && ParentOk(e, db.documents, g))
  }

  lemma EmptyDbValid(g: Generation)
    ensures Valid(EmptyDb, g)
  {
  }

  /** Appending a row whose key is new keeps the keys distinct. */
  lemma AppendDistinct<T>(s: seq<T>, x: T, key: T -> string)
    requires DistinctBy(s, key)
    requires forall y :: y in s ==> key(y) != key(x)
    ensures DistinctBy(s + [x], key)
  {
    var r := s + [x];
    forall i, j | 0 <= i < j < |r| ensures key(r[i]) != key(r[j]) {
      if j == |s| {
        assert r[i] == s[i] && s[i] in s;
      } else {
        assert r[i] == s[i] && r[j] == s[j];
      }
    }
  }

  // ---------------------------------------------------------------- threads

  /** `createThread(newThreadId, title = "New Conversation")`: inserts the
      thread with the given id, both timestamps `now`. */
  function CreateThread(db: Db, id: string, title: Option<string>, now: int): (r: Result<(Db, Thread), StoreError>)
    ensures r.Success? <==> FitsVarchar(id) && id !in ThreadIds(db.threads)
    ensures !FitsVarchar(id) ==> r == Failure(ValueTooLong("id"))
    ensures FitsVarchar(id) && id in ThreadIds(db.threads) ==> r == Failure(DuplicateKey("threads"))
    ensures r.Success? ==>
              && r.value.1.id == id
              && r.value.1.title == (if title.Some? then title.value else DefaultThreadTitle)
              && r.value.1.createdAt == now && r.value.1.updatedAt == now
              && r.value.0 == db.(threads := db.threads + [r.value.1])
  {
    if !FitsVarchar(id) then Failure(ValueTooLong("id"))
    else if id in ThreadIds(db.threads) then Failure(DuplicateKey("threads"))
    else
      var t := Thread(id, title.GetOr(DefaultThreadTitle), now, now);
      Success((db.(threads := db.threads + [t]), t))
  }

  /** The first thread with that id (`const [thread] = …`), if any. */
  function FindThread(ts: seq<Thread>, id: string): (r: Option<Thread>)
    ensures r.Some? <==> id in ThreadIds(ts)
    ensures r.Some? ==> r.value in ts && r.value.id == id
    decreases |ts|
  {
    if |ts| == 0 then None
    else if ts[0].id == id then Some(ts[0])
    else
      var r := FindThread(ts[1..], id);
      assert ThreadIds(ts) == {ts[0].id} + ThreadIds(ts[1..]) by {
        assert forall t :: t in ts <==> t == ts[0] || t in ts[1..];
      }
      r
  }

  /** `getThreadById(id)`: `undefined` (or `null` in `services/threads/service.ts`)
      when no thread has that id. */
  function GetThreadById(db: Db, id: string): Option<Thread>
  {
    FindThread(db.threads, id)
  }

  /** Under unique ids, the thread found is the only one with that id. */
  lemma GetThreadByIdUnique(db: Db, g: Generation, id: string, t: Thread)
    requires Valid(db, g) && t in db.threads && t.id == id
    ensures GetThreadById(db, id) == Some(t)
  {
    var f := GetThreadById(db, id).value;
    var i :| 0 <= i < |db.threads| && db.threads[i] == t;
    var j :| 0 <= j < |db.threads| && db.threads[j] == f;
    assert i == j;
  }

  /** A thread just created is found by its id. */
  lemma CreateThenGet(db: Db, g: Generation, id: string, title: Option<string>, now: int)
    requires Valid(db, g)
    requires CreateThread(db, id, title, now).Success?
    ensures var (db', t) := CreateThread(db, id, title, now).value;
            Valid(db', g) && GetThreadById(db', id) == Some(t)
  {
    var (db', t) := CreateThread(db, id, title, now).value;
    AppendDistinct(db.threads, t, ThreadKey);
    assert forall m :: m in db.messages ==> m.threadId in ThreadIds(db.threads) ==> m.threadId in ThreadIds(db'.threads);
    GetThreadByIdUnique(db', g, id, t);
  }

  /** The `UPDATE … SET title` over the thread table: rows with the id get
      the new title; no other column and no other row changes. */
  function RenameRows(ts: seq<Thread>, id: string, title: string): (r: seq<Thread>)
    ensures |r| == |ts|
    ensures forall i :: 0 <= i < |ts| ==>
              && r[i].id == ts[i].id && r[i].createdAt == ts[i].createdAt && r[i].updatedAt == ts[i].updatedAt
              && r[i].title == (if ts[i].id == id then title else ts[i].title)
  {
    seq(|ts|, i requires 0 <= i < |ts| => if ts[i].id == id then ts[i].(title := title) else ts[i])
  }

  /** `renameThread(id, title)`: the updated table and the first updated
      row, or `None` when no thread has that id. */
  function RenameThread(db: Db, id: string, title: string): (r: (Db, Option<Thread>))
    ensures r.0.messages == db.messages && r.0.documents == db.documents && r.0.embeddings == db.embeddings
    ensures |r.0.threads| == |db.threads|
    ensures forall i :: 0 <= i < |db.threads| ==>
              && r.0.threads[i].id == db.threads[i].id
              && (db.threads[i].id == id ==> r.0.threads[i].title == title)
              && (db.threads[i].id != id ==> r.0.threads[i] == db.threads[i])
    ensures r.1.Some? <==> id in ThreadIds(db.threads)
    ensures r.1.Some? ==> r.1.value in r.0.threads && r.1.value.id == id && r.1.value.title == title
  {
    var db' := db.(threads := RenameRows(db.threads, id, title));
    FindRenamed(db.threads, id, title, id);
    (db', GetThreadById(db', id))
  }

  lemma {:induction false} FindRenamed(ts: seq<Thread>, id: string, title: string, other: string)
    ensures FindThread(RenameRows(ts, id, title), other)
            == (match FindThread(ts, other)
                case None => None
                case Some(t) => Some(if other == id then t.(title := title) else t))
    decreases |ts|
  {
    if |ts| > 0 {
      var r := RenameRows(ts, id, title);
      assert r[1..] == RenameRows(ts[1..], id, title);
      FindRenamed(ts[1..], id, title, other);
    }
  }

  /** After a rename, looking the thread up gives the old row with only its
      title replaced, every other id looks up as before, and the store stays
      valid. */
  lemma RenameThenGet(db: Db, g: Generation, id: string, title: string)
    requires Valid(db, g)
    ensures var (db', t) := RenameThread(db, id, title);
            && Valid(db', g)
            && (GetThreadById(db, id).None? ==> t.None?)
            && (GetThreadById(db, id).Some? ==> t == Some(GetThreadById(db, id).value.(title := title)))
            && forall other :: other != id ==> GetThreadById(db', other) == GetThreadById(db, other)
  {
    var db' := RenameThread(db, id, title).0;
    FindRenamed(db.threads, id, title, id);
    forall other | other != id ensures GetThreadById(db', other) == GetThreadById(db, other) {
      FindRenamed(db.threads, id, title, other);
    }
    RenamedValid(db, g, id, title);
  }

  lemma RenamedValid(db: Db, g: Generation, id: string, title: string)
    requires Valid(db, g)
    ensures Valid(RenameThread(db, id, title).0, g)
  {
    var ts := db.threads;
    var r := RenameRows(ts, id, title);
    assert ThreadIds(r) == ThreadIds(ts) by {
      forall x | x in ThreadIds(ts) ensures x in ThreadIds(r) {
        var t :| t in ts && t.id == x;
        var i :| 0 <= i < |ts| && ts[i] == t;
        assert r[i] in r;
      }
      forall x | x in ThreadIds(r) ensures x in ThreadIds(ts) {
        var t :| t in r && t.id == x;
        var i :| 0 <= i < |r| && r[i] == t;
        assert ts[i] in ts;
      }
    }
    forall t | t in r ensures FitsVarchar(t.id) {
      var i :| 0 <= i < |r| && r[i] == t;
      assert ts[i] in ts;
    }
    assert DistinctBy(r, ThreadKey) by {
      forall i, j | 0 <= i < j < |r| ensures ThreadKey(r[i]) != ThreadKey(r[j]) {
        assert ThreadKey(ts[i]) != ThreadKey(ts[j]);
      }
    }
  }

  function CreatedAtKey(t: Thread): real { t.createdAt as real }

  /** `getThreads()`: every thread, newest first. */
  function GetThreads(db: Db): (r: seq<Thread>)
    ensures multiset(r) == multiset(db.threads)
    ensures forall i, j :: 0 <= i < j < |r| ==> r[i].createdAt >= r[j].createdAt
  {
    var r := SortDesc(db.threads, CreatedAtKey);
    assert forall i, j :: 0 <= i < j < |r| ==> CreatedAtKey(r[i]) >= CreatedAtKey(r[j]);
    r
  }

  /** `doesThreadExist(id)`: `!!getThreadById(id)`. */
  function DoesThreadExist(db: Db, id: string): (r: bool)
    ensures r <==> GetThreadById(db, id).Some?
    ensures r <==> exists t :: t in db.threads && t.id == id
  {
    GetThreadById(db, id).Some?
  }

  /** `deleteThread(id)`: removes the thread; its messages go with it
      exactly when `messages.thread_id` is declared `ON DELETE CASCADE`.
      Documents and embeddings are not tied to threads by any key and stay. */
  function DeleteThread(db: Db, g: Generation, id: string): (r: Db)
    ensures forall t :: t in r.threads <==> t in db.threads && t.id != id
    ensures id !in ThreadIds(r.threads)
    ensures g.messageThreadFk ==> forall m :: m in r.messages <==> m in db.messages && m.threadId != id
    ensures !g.messageThreadFk ==> r.messages == db.messages
    ensures r.documents == db.documents && r.embeddings == db.embeddings
  {
    var threads := Filter(db.threads, (t: Thread) => t.id != id);
    var messages := if g.messageThreadFk then Filter(db.messages, (m: Message) => m.threadId != id) else db.messages;
    db.(threads := threads, messages := messages)
  }

  /** Deleting a thread keeps the store valid: with the foreign key, no
      message is left pointing at the deleted thread. */
  lemma DeleteThreadValid(db: Db, g: Generation, id: string)
    requires Valid(db, g)
    ensures Valid(DeleteThread(db, g, id), g)
  {
    var r := DeleteThread(db, g, id);
    FilterPreservesDistinct(db.threads, (t: Thread) => t.id != id, ThreadKey);
    if g.messageThreadFk {
      FilterPreservesDistinct(db.messages, (m: Message) => m.threadId != id, MessageKey);
      forall m | m in r.messages ensures m.threadId in ThreadIds(r.threads) {
        var t :| t in db.threads && t.id == m.threadId;
        assert t in r.threads;
      }
    }
  }

  // --------------------------------------------------------------- messages

  /** `saveMessage(input)`: the role must pass the `CHECK` constraint, the
      id must be new, and (where the key exists) the thread must exist. */
  function SaveMessage(db: Db, g: Generation, p: NewMessageParams, id: string, now: int): (r: Result<(Db, Message), StoreError>)
    ensures r.Success? <==>
              && FitsVarchar(id) && FitsVarchar(p.threadId)
              && ParseRole(p.role).Some?
              && id !in MessageIds(db.messages)
              && (g.messageThreadFk ==> p.threadId in ThreadIds(db.threads))
    ensures ParseRole(p.role).None? ==> r.Failure?
    ensures r.Success? ==>
              && RoleName(r.value.1.role) == p.role
              && r.value.1 == Message(id, r.value.1.role, p.content, p.toolInvocations, p.threadId, now)
              && r.value.0 == db.(messages := db.messages + [r.value.1])
  {
    if !FitsVarchar(id) then Failure(ValueTooLong("id"))
    else if !FitsVarchar(p.threadId) then Failure(ValueTooLong("thread_id"))
    else if ParseRole(p.role).None? then Failure(CheckViolation("messages"))
    else if id in MessageIds(db.messages) then Failure(DuplicateKey("messages"))
    else if g.messageThreadFk && p.threadId !in ThreadIds(db.threads) then Failure(ForeignKeyViolation("messages"))
    else
      var m := Message(id, ParseRole(p.role).value, p.content, p.toolInvocations, p.threadId, now);
      Success((db.(messages := db.messages + [m]), m))
  }

  function OnThread(threadId: string): Message -> bool
  {
    (m: Message) => m.threadId == threadId
  }

  /** `getMessages(threadId)`: the thread's messages in table order. */
  function GetMessages(db: Db, threadId: string): (r: seq<Message>)
    ensures forall m :: m in r <==> m in db.messages && m.threadId == threadId
    ensures Subseq(r, db.messages)
  {
    FilterIsSubseq(db.messages, OnThread(threadId));
    Filter(db.messages, OnThread(threadId))
  }

  /** A saved message is visible on its own thread, after the ones before
      it, and saving changes no other thread's messages. */
  lemma SaveMessageIsolation(db: Db, g: Generation, p: NewMessageParams, id: string, now: int, other: string)
    requires SaveMessage(db, g, p, id, now).Success?
    ensures var (db', m) := SaveMessage(db, g, p, id, now).value;
            && GetMessages(db', p.threadId) == GetMessages(db, p.threadId) + [m]
            && (other != p.threadId ==> GetMessages(db', other) == GetMessages(db, other))
  {
    var (db', m) := SaveMessage(db, g, p, id, now).value;
    FilterAppend(db.messages, [m], OnThread(p.threadId));
    FilterAppend(db.messages, [m], OnThread(other));
    assert Filter([m], OnThread(p.threadId)) == [m];
    if other != p.threadId {
      assert Filter([m], OnThread(other)) == [];
    }
  }

  /** A saved message keeps the store valid. */
  lemma SaveMessageValid(db: Db, g: Generation, p: NewMessageParams, id: string, now: int)
    requires Valid(db, g) && SaveMessage(db, g, p, id, now).Success?
    ensures Valid(SaveMessage(db, g, p, id, now).value.0, g)
  {
    var (db', m) := SaveMessage(db, g, p, id, now).value;
    AppendDistinct(db.messages, m, MessageKey);
  }
}

=== FILE: text.dfy ===
/** String operations of JavaScript's `String.prototype` that the core relies on:
    `split` with a non-empty separator, `join`, `trim`, taking the last
    segment of a path (`split("/").pop()`), and the `length` and
    `slice(0, n)` of a string, which count UTF-16 code units. Strings are
    sequences of `char`, that is of Unicode scalar values. */
module Text {
  import opened Seqs

  /** `sep` occurs in `s` starting at position `j`. */
  predicate OccursAt(s: string, sep: string, j: int)
  {
    0 <= j && j + |sep| <= |s| && s[j..j + |sep|] == sep
  }

  /** The first position at or after `k` where `sep` occurs in `s`, or -1. */
  function IndexOfFrom(s: string, sep: string, k: nat): (r: int)
    requires |sep| > 0 && k <= |s|
    ensures r == -1 || (k <= r && OccursAt(s, sep, r))
    ensures r == -1 ==> forall j :: k <= j ==> !OccursAt(s, sep, j)
    ensures r >= 0 ==> forall j :: k <= j < r ==> !OccursAt(s, sep, j)
    decreases |s| - k
  {
    if k + |sep| > |s| then -1
    else if s[k..k + |sep|] == sep then k
    else IndexOfFrom(s, sep, k + 1)
  }

  function IndexOf(s: string, sep: string): int
    requires |sep| > 0
  {
    IndexOfFrom(s, sep, 0)
  }

  /** `s` contains `sep` nowhere. */
  predicate Free(s: string, sep: string)
    requires |sep| > 0
  {
    IndexOf(s, sep) == -1
  }

  /** `s.split(sep)` for a non-empty separator: the pieces between the
      occurrences of `sep`, found left to right. */
  function Split(s: string, sep: string): (r: seq<string>)
    requires |sep| > 0
    ensures |r| >= 1
    ensures forall k :: 0 <= k < |r| ==> Free(r[k], sep)
    decreases |s|
  {
    var i := IndexOf(s, sep);
    if i < 0 then [s]
    else
      var head := s[..i];
      assert Free(head, sep) by {
        forall h | 0 <= h ensures OccursAt(head, sep, h) ==> OccursAt(s, sep, h) {
          OccursInPrefix(s, sep, i, h);
        }
      }
      [head] + Split(s[i + |sep|..], sep)
  }

  /** The occurrences in a prefix are the occurrences in the whole string
      that end within it. */
  lemma OccursInPrefix(s: string, sep: string, n: nat, j: int)
    requires n <= |s|
    ensures OccursAt(s[..n], sep, j) <==> OccursAt(s, sep, j) && j + |sep| <= n
  {
    if 0 <= j && j + |sep| <= n {
      assert s[..n][j..j + |sep|] == s[j..j + |sep|];
    }
  }

  /** `parts.join(sep)`. */
  function Join(parts: seq<string>, sep: string): string
  {
    if |parts| == 0 then ""
    else if |parts| == 1 then parts[0]
    else parts[0] + sep + Join(parts[1..], sep)
  }

  /** Splitting and joining with the same separator gives the input back. */
  lemma {:induction false} JoinSplit(s: string, sep: string)
    requires |sep| > 0
    ensures Join(Split(s, sep), sep) == s
    decreases |s|
  {
    var i := IndexOf(s, sep);
    if i >= 0 {
      var tail := s[i + |sep|..];
      var rest := Split(tail, sep);
      var parts := [s[..i]] + rest;
      assert Split(s, sep) == parts;
      assert parts[1..] == rest;
      JoinSplit(tail, sep);
      assert Join(parts, sep) == s[..i] + sep + tail;
      assert OccursAt(s, sep, i);
      assert s == s[..i] + s[i..i + |sep|] + tail;
    } else {
      assert Split(s, sep) == [s];
    }
  }

  /** For a one-character separator, a separator-free head is the first
      piece and the rest splits independently. */
  lemma SplitAfter(a: string, sep: string, b: string)
    requires |sep| == 1 && Free(a, sep)
    ensures Split(a + sep + b, sep) == [a] + Split(b, sep)
  {
    var s := a + sep + b;
    assert s[|a|..|a| + 1] == sep;
    forall j | 0 <= j < |a| ensures !OccursAt(s, sep, j) {
      OccursInPrefix(s, sep, |a|, j);
      assert s[..|a|] == a;
    }
    assert OccursAt(s, sep, |a|);
    var i := IndexOf(s, sep);
    assert i != -1;
    assert OccursAt(s, sep, i);
    assert i == |a|;
    assert s[..i] == a;
    assert s[i + 1..] == b;
  }

  /** `s.split(sep).pop()`: the text after the last separator. */
  function LastSegment(s: string, sep: string): (r: string)
    requires |sep| > 0
    ensures Free(r, sep)
  {
    var parts := Split(s, sep);
    parts[|parts| - 1]
  }

  /** For a one-character separator, whatever precedes the last separator
      does not affect the last segment. */
  lemma {:induction false} LastSegmentAfter(a: string, sep: string, b: string)
    requires |sep| == 1 && Free(b, sep)
    ensures LastSegment(a + sep + b, sep) == b
    decreases |a|
  {
    var s := a + sep + b;
    assert s[|a|..|a| + 1] == sep;
    assert OccursAt(s, sep, |a|);
    var i := IndexOf(s, sep);
    assert 0 <= i <= |a|;
    var tail := s[i + 1..];
    if i == |a| {
      assert tail == b;
      assert Split(b, sep) == [b];
    } else {
      assert tail == a[i + 1..] + sep + b;
      LastSegmentAfter(a[i + 1..], sep, b);
      assert Split(s, sep) == [s[..i]] + Split(tail, sep);
    }
  }

  /** The characters JavaScript's `trim` removes: WhiteSpace (tab, vertical
      tab, form feed, space, no-break space, byte-order mark and the Unicode
      space separators) and LineTerminator. */
  predicate IsWhitespace(c: char)
  {
    var n := c as int;
    n == 0x09 || n == 0x0A || n == 0x0B || n == 0x0C || n == 0x0D || n == 0x20
    || n == 0xA0 || n == 0x1680 || (0x2000 <= n <= 0x200A) || n == 0x2028
    || n == 0x2029 || n == 0x202F || n == 0x205F || n == 0x3000 || n == 0xFEFF
  }

  /** The number of leading whitespace characters of `s`. */
  function LeadingWhitespace(s: string): (n: nat)
    ensures n <= |s|
    ensures forall k :: 0 <= k < n ==> IsWhitespace(s[k])
    ensures n < |s| ==> !IsWhitespace(s[n])
    decreases |s|
  {
    if |s| > 0 && IsWhitespace(s[0]) then 1 + LeadingWhitespace(s[1..]) else 0
  }

  /** The length of `s` once its trailing whitespace is dropped. */
  function TrailingStart(s: string): (n: nat)
    ensures n <= |s|
    ensures forall k :: n <= k < |s| ==> IsWhitespace(s[k])
    ensures n > 0 ==> !IsWhitespace(s[n - 1])
    decreases |s|
  {
    if |s| > 0 && IsWhitespace(s[|s| - 1]) then TrailingStart(s[..|s| - 1]) else |s|
  }

  /** `r` is a slice of `s` with nothing but whitespace cut from either end,
      and no whitespace left at its own ends. */
  ghost predicate TrimmedFrom(r: string, s: string)
  {
    && (exists i, j :: 0 <= i <= j <= |s| && r == s[i..j]
          && (forall k :: 0 <= k < i ==> IsWhitespace(s[k]))
          && (forall k :: j <= k < |s| ==> IsWhitespace(s[k])))
    && (|r| > 0 ==> !IsWhitespace(r[0]) && !IsWhitespace(r[|r| - 1]))
  }

  /** `s.trim()`: the middle of `s` between its leading and trailing whitespace. */
  function Trim(s: string): (r: string)
    ensures TrimmedFrom(r, s)
    ensures |r| <= |s|
  {
    var i := LeadingWhitespace(s);
    var rest := s[i..];
    var j := TrailingStart(rest);
    var r := rest[..j];
    assert r == s[i..i + j];
    forall k | i + j <= k < |s| ensures IsWhitespace(s[k]) {
      assert s[k] == rest[k - i];
    }
    assert |r| > 0 ==> r[0] == s[i] && r[|r| - 1] == rest[j - 1];
    r
  }

  /** The bounds `trim` cuts at: after the leading whitespace, and before
      the trailing whitespace of what follows it. */
  lemma {:induction false} TrimBounds(s: string)
    ensures var i := LeadingWhitespace(s);
            var j := i + TrailingStart(s[i..]);
            && 0 <= i <= j <= |s| && Trim(s) == s[i..j]
            && (forall k :: 0 <= k < i ==> IsWhitespace(s[k]))
            && (forall k :: j <= k < |s| ==> IsWhitespace(s[k]))
  {
    var i := LeadingWhitespace(s);
    var rest := s[i..];
    var j := TrailingStart(rest);
    assert Trim(s) == rest[..j];
    assert rest[..j] == s[i..i + j];
    forall k | i + j <= k < |s| ensures IsWhitespace(s[k]) {
      assert s[k] == rest[k - i];
    }
  }

  // ------------------------------------------------------ UTF-16 lengths

  /** The UTF-16 code units of a character: two for one outside the Basic
      Multilingual Plane, which JavaScript stores as a surrogate pair. */
  function CodeUnits(c: char): (n: nat)
    ensures n == 1 || n == 2
  {
    if c as int >= 0x10000 then 2 else 1
  }

  /** `s.length`: the number of UTF-16 code units of `s`. */
  function Utf16Length(s: string): (n: nat)
    ensures |s| <= n <= 2 * |s|
    decreases |s|
  {
    if |s| == 0 then 0 else CodeUnits(s[0]) + Utf16Length(s[1..])
  }

  /** The length of a concatenation is the sum of the lengths. */
  lemma {:induction false} Utf16LengthAppend(a: string, b: string)
    ensures Utf16Length(a + b) == Utf16Length(a) + Utf16Length(b)
    decreases |a|
  {
    if |a| > 0 {
      assert (a + b)[0] == a[0];
      assert (a + b)[1..] == a[1..] + b;
      Utf16LengthAppend(a[1..], b);
    } else {
      assert a + b == b;
    }
  }

  /** A text of Basic Multilingual Plane characters has one code unit per
      character. */
  lemma {:induction false} Utf16LengthBmp(s: string)
    requires forall k :: 0 <= k < |s| ==> s[k] as int < 0x10000
    ensures Utf16Length(s) == |s|
    decreases |s|
  {
    if |s| > 0 {
      Utf16LengthBmp(s[1..]);
    }
  }

  /** A text of characters outside the Basic Multilingual Plane has two
      code units per character. */
  lemma {:induction false} Utf16LengthAstral(s: string)
    requires forall k :: 0 <= k < |s| ==> s[k] as int >= 0x10000
    ensures Utf16Length(s) == 2 * |s|
    decreases |s|
  {
    if |s| > 0 {
      Utf16LengthAstral(s[1..]);
    }
  }

  /** `s.slice(0, n)` on whole characters: the longest prefix of `s` that
      fits in `n` code units. Where the `n`-th code unit is the first half
      of a surrogate pair, JavaScript keeps that lone half; a `string`
      cannot hold it, so the prefix stops before that character. */
  function Utf16Prefix(s: string, n: nat): (r: string)
    ensures r <= s
    ensures Utf16Length(r) <= n
    ensures r == s || Utf16Length(r) + CodeUnits(s[|r|]) > n
    decreases |s|
  {
    if |s| == 0 || CodeUnits(s[0]) > n then ""
    else
      var rest := Utf16Prefix(s[1..], n - CodeUnits(s[0]));
      var r := [s[0]] + rest;
      assert r[1..] == rest;
      assert r[0] == s[0];
      assert |r| == |s| || s[|r|] == s[1..][|rest|];
      r
  }

  /** The slice is the whole text exactly when the text fits in `n` code
      units. */
  lemma {:induction false} Utf16PrefixWhole(s: string, n: nat)
    ensures Utf16Prefix(s, n) == s <==> Utf16Length(s) <= n
    decreases |s|
  {
    if |s| > 0 && CodeUnits(s[0]) <= n {
      var rest := Utf16Prefix(s[1..], n - CodeUnits(s[0]));
      Utf16PrefixWhole(s[1..], n - CodeUnits(s[0]));
      assert Utf16Prefix(s, n) == [s[0]] + rest;
      assert ([s[0]] + rest == s) <==> (rest == s[1..]) by {
        if [s[0]] + rest == s {
          assert ([s[0]] + rest)[1..] == rest;
        }
        if rest == s[1..] {
          ConsTail(s);
        }
      }
    }
  }

  /** On Basic Multilingual Plane text the slice is the first `n`
      characters, as in a plain character count. */
  lemma Utf16PrefixBmp(s: string, n: nat)
    requires forall k :: 0 <= k < |s| ==> s[k] as int < 0x10000
    ensures Utf16Prefix(s, n) == s[..Min(n, |s|)]
  {
    var r := Utf16Prefix(s, n);
    assert r == s[..|r|];
    Utf16LengthBmp(r);
    if r != s {
      assert CodeUnits(s[|r|]) == 1;
    }
  }
}

=== FILE: usage.dfy ===
/** The usage quota (`services/usage.ts`): a record of the remaining and
    total requests and the reset time, and `getUsage`, which asks the usage
    endpoint for it. The session token and the HTTP response enter as
    parameters; JavaScript numbers are modelled as integers. */
module UsageService {
  import opened Wrappers

  datatype Usage = Usage(remaining: int, total: int, resetAt: int)

  /** The quota assumed when nobody is signed in. */
  const Anonymous: Usage := Usage(0, 100, 0)
  const FetchFailedMessage: string := "Failed to fetch usage"

  /** `isZero`: nothing left, including an overdrawn quota. */
  predicate IsZero(u: Usage)
  {
    u.remaining <= 0
  }

  /** The usage endpoint's answer: `ok` and the decoded JSON body. */
  datatype FetchResponse = FetchResponse(ok: bool, body: Usage)

  /** No id token gives the anonymous quota without a request; a failed
      response throws; otherwise the body's three numbers are used. */
  function GetUsage(idToken: Option<string>, response: FetchResponse): (r: Result<Usage, string>)
    ensures idToken.None? ==> r == Success(Anonymous)
    ensures idToken.Some? && !response.ok ==> r == Failure(FetchFailedMessage)
    ensures idToken.Some? && response.ok ==> r == Success(response.body)
  {
    if idToken.None? then Success(Anonymous)
    else if !response.ok then Failure(FetchFailedMessage)
    else
      var b := response.body;
      Success(Usage(b.remaining, b.total, b.resetAt))
  }

  /** What the uploader's `usage.isZero` test sees: the quota is known
      exactly when nobody is signed in or the endpoint answers `ok`, and it
      reads as used up iff nobody is signed in or the endpoint reports
      nothing remaining. */
  lemma UsageZeroIff(idToken: Option<string>, response: FetchResponse)
    ensures GetUsage(idToken, response).Success? <==> idToken.None? || response.ok
    ensures GetUsage(idToken, response).Success? ==>
              (IsZero(GetUsage(idToken, response).value) <==> idToken.None? || response.body.remaining <= 0)
  {
  }
}

=== FILE: wrappers.dfy ===
/** Failure-compatible wrappers shared by every module of the model. */
module Wrappers {

  /** An optional value: JavaScript's `undefined`/`null` versus a present value. */
  datatype Option<+T> = None | Some(value: T) {
    function GetOr(default: T): T {
      match this
      case Some(v) => v
      case None => default
    }
  }

  /** The outcome of an operation that may throw: a value, or the error it throws. */
  datatype Result<+T, +E> = Success(value: T) | Failure(error: E)
}
